=== FILE: README.md ===
# proxygen-cli, modelled in Dafny

A functional model of the decision and data logic of `proxygen-cli`, the
command line client for the NHS API platform's proxy generator. It covers
these parts:

- **Access tokens.** The token cache and the choice between a cached token, a
  refresh and a full login. A full login is either the authorization-code
  grant (section 4.1.3 of RFC 6749) or a signed client assertion (sections 2.2
  and 3 of RFC 7523).
- **Credentials.** Validation of the credentials settings, including private
  key path resolution. Also the older INI credentials reader with its default
  selection.
- **API configuration.** The per-API configuration validators and the store
  behind `set_api_config`/`get`.
- **Spec resolution.** The OpenAPI `$ref` resolver, both the current and the
  older copy.
- **Release gate.** The version-bump rule the release script enforces.
- **Output.** Table ordering, timestamp formatting and YAML string styling.
- **Proxygen API client.** Request paths, the bearer-header rule, the URL
  join and session memoisation.
- **Commands.** The `instance` and `secret` commands: deployment URLs, the
  quoted instance name, the servers overwrite, argument checks and
  confirmation gates.

Everything outside the program is a parameter:

- HTTP replies, including the identity provider's and the Proxygen server's;
- the clock, JWT decoding and signing, the credential fingerprint;
- the file system, as an abstract `Paths.Fs`;
- the user's answers to prompts.

Each operation is a pure function returning the requests it would send, the
data it would write, and its result or error.

Modules, one per file:

- `Wrappers`: `Option`/`Result`.
- `Strings`: prefixes, split/join, code-point order, decimals.
- `Paths`: abstract file system, `pathlib` joins.
- `Json`: an ordered JSON tree with key/index paths, plus dict helpers.
- `CompareVersion`: `scripts/compare_version.py`.
- `Credentials`: `lib/credentials.py`.
- `CredentialsFile`: `credentials.py`, with ConfigParser's `%` interpolation of values.
- `Config`: `config.py`.
- `Auth`: `lib/auth.py`.
- `Spec`: `lib/spec.py`.
- `LegacySpec`: `spec.py`.
- `Output`: `lib/output.py`.
- `ProxygenApi`: `lib/proxygen_api.py`.
- `Percent`: `urllib.parse.quote`.
- `Cli`: what the command groups share.
- `InstanceCommand`: `cli/command_instance.py`.
- `SecretCommand`: `cli/command_secret.py`.

Two boundary behaviours of the code that are easy to misread:

- A cached token is used only while `now + 10 < exp`, so an `exp` of exactly
  `now + 10` counts as expired.
- The status of the password submission is checked before its text.

## Model

| member | source | states |
|---|---|---|
| Paths.RenderParts | proxygen_cli/lib/credentials.py:61 | a path written out from its components parses back to the same components and absoluteness, and is in normal form |
| Paths.NormalIsNormal | proxygen_cli/lib/credentials.py:51-61 | `str(Path(p))` is in normal form and has the components and absoluteness of `p` |
| Paths.JoinPath | proxygen_cli/lib/spec.py:74 | an absolute path replaces the directory; otherwise the components of the path follow the directory's; the result is absolute iff either is, and is in normal form |
| Paths.JoinDot | proxygen_cli/lib/spec.py:74 | joining `.` gives the directory, and a leading `./` adds nothing |
| Paths.JoinWithSeparator | proxygen_cli/lib/credentials.py:55 | a normal relative path joined onto a normal directory other than `/` and `.` is `<dir>/<path>` |
| Paths.Parent | proxygen_cli/lib/spec.py:71 | the parent keeps absoluteness and drops exactly the last component; a path with no components is its own parent |
| Paths.ParentJoin | proxygen_cli/lib/spec.py:71-74 | the parent joined with the last component gives the path back |
| Paths.Absolute | proxygen_cli/lib/spec.py:71 | a relative path is made absolute by putting the working directory's components in front; an absolute path stays as it is |
| Paths.BareNameDirectory | proxygen_cli/lib/spec.py:71 | the absolute parent of a bare file name is the working directory |
| Auth.Form | proxygen_cli/lib/auth.py:79-84 | a form body keeps exactly the fields whose value is not None |
| Auth.Refresh | proxygen_cli/lib/auth.py:74-87 | the refresh grant is one request; a 200 reply yields its token record, any other status yields None, and a 200 reply that is not JSON is an error |
| Auth.QueryOf | proxygen_cli/lib/auth.py:127 | the query of a URL never includes the fragment |
| Auth.FirstCode | proxygen_cli/lib/auth.py:128-130 | the code is the value of a `code=` field, and no `code` field with a value exists when none is found |
| Auth.CodeOf | proxygen_cli/lib/auth.py:127-130 | the code is a non-empty value whose `code=` field is among the `Location` query's fields; there is none only when no query field carries a code |
| Auth.CodeOfCallback | proxygen_cli/lib/auth.py:127-130 | a callback URL whose query opens with `code=<c>` yields exactly `c`, whatever fields follow |
| Auth.QueryOfAfterMark | proxygen_cli/lib/auth.py:127 | the query of `base?q` is `q` when neither part holds `#` |
| Auth.UserLogin | proxygen_cli/lib/auth.py:90-146 | the login page is fetched first; the submission goes to the page's form action; the code request carries the code of the last redirect's `Location`; success takes exactly three requests and its outcome is that of the code exchange |
| Auth.Submit | proxygen_cli/lib/auth.py:112-146 | the credentials are posted to the form action; the code is requested only after a 200 reply without the invalid-login text whose last redirect carries a `Location` with a code; the outcome is the exchange's |
| Auth.LastLocation | proxygen_cli/lib/auth.py:127 | no redirect at all is one error (IndexError), a last redirect without `Location` another (KeyError); otherwise the result is that `Location` |
| Auth.Exchange | proxygen_cli/lib/auth.py:132-146 | the exchange is one request; a non-200 status fails with that status; it succeeds iff the reply is 200 and JSON, and then the payload is that JSON |
| Auth.TokenExchangeStatusChecked | proxygen_cli/lib/auth.py:142-145 | after a good submission, a non-200 code exchange ends the flow after exactly three requests with a RuntimeError carrying that status |
| Auth.InvalidCredentialsStop | proxygen_cli/lib/auth.py:123-125 | an "Invalid username or password" page ends the flow after the submission, without requesting the code |
| Auth.SubmissionStatusCheckedFirst | proxygen_cli/lib/auth.py:120-121 | a non-200 submission fails with RuntimeError whatever its text |
| Auth.MachineClaims | proxygen_cli/lib/auth.py:157-163 | `sub = iss = client_id`, `aud = base_url`, `exp = now + 300`, and the given `jti` |
| Auth.MachineLogin | proxygen_cli/lib/auth.py:152-176 | no request without a readable private key, and the key problem is the error; otherwise exactly one client-credentials request carrying the signed claims, succeeding iff the reply is 200 and JSON, with that JSON as the payload |
| Auth.ReadCache | proxygen_cli/lib/auth.py:22-27 | an unparsable cache file reads as the empty cache |
| Auth.StoreToken | proxygen_cli/lib/auth.py:58-61 | the whole cache is written with only this key's record replaced; the record's access token is returned, and a record without one is an error |
| Auth.FullLogin | proxygen_cli/lib/auth.py:63-71 | the password flow runs iff username and password are both truthy, otherwise the client-assertion request; the record written under this key, and only there, is the payload of the grant that ran, and its access token is returned |
| Auth.FullLoginNeverRefreshes | proxygen_cli/lib/auth.py:65-68 | a full login never opens with a refresh grant |
| Auth.AccessToken | proxygen_cli/lib/auth.py:35-71 | it succeeds with no request iff the cached token is fresh; any write changes only this key's entry; a returned token after a write is the written record's |
| Auth.ExpiryBoundary | proxygen_cli/lib/auth.py:36-48 | an `exp` of exactly `now + 10` is not served from the cache |
| Auth.RefreshOrLogin | proxygen_cli/lib/auth.py:55-71 | the refresh request goes first; a written cache differs from the old one only under this key; a returned token is the written record's |
| Auth.RefreshTriedIff | proxygen_cli/lib/auth.py:49-57 | the first request is a refresh iff the access token has expired and the refresh token has not |
| Auth.RefreshSucceeds | proxygen_cli/lib/auth.py:55-61 | a successful refresh costs one request, stores the new record under this key and returns its access token |
| Auth.RefreshFallsBack | proxygen_cli/lib/auth.py:58-68 | a refused refresh falls through to a full login |
| Auth.UnreadableCacheLogsIn | proxygen_cli/lib/auth.py:22-43 | with an unreadable cache the outcome is a full login |
| Credentials.ValidateHumanField | proxygen_cli/lib/credentials.py:29-33 | a human field is rejected with "field required" iff it is None and no private key path validated |
| Credentials.KeyFile | proxygen_cli/lib/credentials.py:51-55 | an absolute key path is used as is; a relative one is joined under the `.proxygen` directory component by component, and for normal paths the result is exactly `<dir>/<path>` |
| Credentials.DotDirUnderHome | proxygen_cli/lib/credentials.py:55 | the `.proxygen` directory of a normal home directory is `<home>/.proxygen` |
| Credentials.ValidatePrivateKeyPath | proxygen_cli/lib/credentials.py:43-61 | an empty or absent path gives None; a missing file reports its resolved path as "does not exist" before the directory check, and a directory is reported under the given path in normal form; success returns the resolved path of an existing file |
| Credentials.DirectoryNamedAsPathlibWritesIt | proxygen_cli/lib/credentials.py:51-60 | a directory given as `./name/` for a single component `name` is reported as `name is a directory, not a file` |
| Credentials.MissingRelativeKeyMessage | proxygen_cli/lib/credentials.py:51-58 | a missing key file given by bare name is reported as `<home>/.proxygen/<name> does not exist` |
| Credentials.Validate | proxygen_cli/lib/credentials.py:19-61 | validation succeeds exactly when the base URL passes its check, the key path validates, a client id is given, and without a key path the secret, username and password are all present; a bad base URL is the first error reported; a missing client id is "field required" and a null one "none is not an allowed value"; the base URL kept is the one given or the default |
| Credentials.CheckBaseUrl | proxygen_cli/lib/credentials.py:20-22 | a missing `base_url` is the identity service default, a null one is refused, a given one goes through the `AnyHttpUrl` check |
| Credentials.CheckHttpUrl | proxygen_cli/lib/credentials.py:20 | a URL is kept as given exactly when a scheme is found, it is `http` or `https` in any case, and a host follows `//`; otherwise the first of the scheme, permitted-scheme and host errors |
| Credentials.HttpUrlAccepted | proxygen_cli/lib/credentials.py:20 | an `http`/`https` scheme in any case, a plain host and a path, query or fragment form an accepted URL |
| Credentials.DefaultBaseUrlValid | proxygen_cli/lib/credentials.py:20-22 | the default base URL is accepted by `AnyHttpUrl` unchanged |
| Credentials.UpperCaseSchemeAccepted | proxygen_cli/lib/credentials.py:20 | `HTTPS://host` is accepted |
| Credentials.OtherSchemeRefused | proxygen_cli/lib/credentials.py:20 | any other scheme is refused as "URL scheme not permitted", whatever follows |
| Credentials.MissingHostRefused | proxygen_cli/lib/credentials.py:20 | `https://` with no host before the path is refused as "URL host invalid" |
| Credentials.NoSchemeRefused | proxygen_cli/lib/credentials.py:20 | text without a `:` is refused as "invalid or missing URL scheme" |
| Credentials.KeyPathMakesHumanFieldsOptional | proxygen_cli/lib/credentials.py:29-33 | with a usable key path every human field may be left out |
| Credentials.HumanFieldsRequiredWithoutKey | proxygen_cli/lib/credentials.py:29-33 | with no key path a missing username is reported as required |
| Credentials.PrivateKey | proxygen_cli/lib/credentials.py:35-41 | the key is the contents of the key file joined under `.proxygen`; no key path, a missing file and a directory are three distinct failures, each naming the file tried |
| Credentials.GetCredentials | proxygen_cli/lib/credentials.py:97-100 | a usage error iff loading failed, otherwise the loaded credentials |
| CredentialsFile.SelectDefault | proxygen_cli/credentials.py:42-68 | with a default name, the first item so named, or an error iff none is; without one, the only item, or an error for zero or several |
| CredentialsFile.AsClient | proxygen_cli/credentials.py:85 | a client section yields a client named after its title |
| CredentialsFile.AsUserOrMachine | proxygen_cli/credentials.py:88-97 | a user section yields a user or a machine user, and fails iff it fits neither shape |
| CredentialsFile.ReadSection | proxygen_cli/credentials.py:77-83 | a section reads iff every value interpolates, and then each key holds its interpolated value |
| CredentialsFile.PlainValueUnchanged | proxygen_cli/credentials.py:77-83 | a value without `%` reads back unchanged |
| CredentialsFile.EscapeRoundTrip | proxygen_cli/credentials.py:77-83 | a value written with every `%` doubled reads back as the original text |
| CredentialsFile.LonePercentRefused | proxygen_cli/credentials.py:77-83 | a `%` followed by neither `%` nor `(`, as in `p%ss`, raises InterpolationSyntaxError |
| CredentialsFile.ReferenceReplaced | proxygen_cli/credentials.py:77-83 | `%(name)s` reads as the section's raw `name` value when that holds no `%` |
| CredentialsFile.MissingReferenceRefused | proxygen_cli/credentials.py:77-83 | `%(name)s` naming no value of the section raises InterpolationMissingOptionError |
| CredentialsFile.SelfReferenceTooDeep | proxygen_cli/credentials.py:77-83 | a value referring to itself raises InterpolationDepthError at any depth |
| CredentialsFile.PlainSectionUnchanged | proxygen_cli/credentials.py:77-83 | a section without `%` in its values reads as written |
| CredentialsFile.Classify | proxygen_cli/credentials.py:82-98 | clients come only from `client ` sections, users and machine users only from `user ` sections |
| CredentialsFile.PrefixesExclusive | proxygen_cli/credentials.py:84-87 | no title is both a client and a user section |
| CredentialsFile.ClassifyNames | proxygen_cli/credentials.py:84-98 | one credential per matching section, in file order, named by the text after the 7- or 5-character prefix |
| CredentialsFile.ClassifyRejectsBadUser | proxygen_cli/credentials.py:83-97 | one user section that does not interpolate or fits neither shape fails the whole read |
| CredentialsFile.ClassifyReportsFirstBad | proxygen_cli/credentials.py:82-98 | reading fails iff some section has a value that does not interpolate, is a client section not of the client shape, or is a user section of neither user shape; the error is that of the first such section |
| CredentialsFile.LonePercentFailsRead | proxygen_cli/credentials.py:82-83 | a lone `%` in any value of any section, even one the loop skips, fails the read |
| CredentialsFile.ReadCredentials | proxygen_cli/credentials.py:71-112 | the selection is a client and a user or machine user; with a `default` entry the one named by its interpolated value, without one the only candidate; a classification error is passed on, and a default that does not interpolate fails |
| CredentialsFile.ReadCredentialsFromSections | proxygen_cli/credentials.py:71-112 | the selected client and user are named after sections of the file with the matching prefix |
| Config.ValidateClient | proxygen_cli/config.py:29-40 | no client with exactly one id gives that id; no client otherwise is an error; a given id is kept iff it is available |
| Config.ValidateUser | proxygen_cli/config.py:42-52 | no name with exactly one candidate gives it, with any other count stays None; a given name is kept iff it is a candidate |
| Config.OnlyUserOrMachineAsWritten | proxygen_cli/config.py:19-27 | the root check as written passes iff user and machine user are not both set |
| Config.OnlyUserOrMachineRaisesKeyError | proxygen_cli/config.py:25 | as written, a clash raises KeyError on `values['api']` instead of the intended message |
| Config.OnlyUserOrMachine | proxygen_cli/config.py:19-27 | the corrected root check fails iff user and machine user are both set, and the failure is a validation error |
| Config.MakeApiConfig | proxygen_cli/config.py:11-52 | a valid configuration has an available client, available users, an absolute endpoint URL (the default when absent), an output of json or yaml (`yaml` when absent), and never both user and machine user, refused as a validation error by the corrected root check; a name, client, user, machine user, endpoint or output given in the fields is kept as given |
| Config.MadeConfigKeeps | proxygen_cli/config.py:11-52 | a configuration built from fields holds their name and every field given a value other than None |
| Config.ValidateEndpoint | proxygen_cli/config.py:16 | an absent endpoint is the default; a given one is accepted iff it is an absolute URL, and is kept as given |
| Config.DefaultEndpointIsUrl | proxygen_cli/config.py:16 | the default endpoint is an absolute URL |
| Config.BadEndpointRefused | proxygen_cli/config.py:16 | a null or scheme-less endpoint makes the configuration invalid, and the endpoint error is among those reported |
| Config.ValidateOutput | proxygen_cli/config.py:17 | an absent output is `yaml`; a given one is accepted iff it is `json` or `yaml` |
| Config.FieldsOf | proxygen_cli/config.py:88-91 | the fields of a valid configuration validate back to its own values |
| Config.UserAndMachineExclusive | proxygen_cli/config.py:19-27 | configuring both a user and a machine user is rejected |
| Config.DefaultsCanClash | proxygen_cli/config.py:42-52 | with one user and one machine user available and neither named, the defaults fill both and the configuration is rejected |
| Config.RevalidateIsIdentity | proxygen_cli/config.py:88-91 | validating a configuration's own fields again gives the same configuration |
| Config.SetApiConfig | proxygen_cli/config.py:85-97 | only this API's entry changes; the default moves iff `default`; a `name` kwarg for a new API is a TypeError; a new entry keeps the kwargs with the API as its name, an updated one keeps the stored fields with the kwargs merged over them |
| Config.NewEntryKeepsArguments | proxygen_cli/config.py:86-87 | a new entry is named after its API and holds every keyword argument given a value |
| Config.UpdateOverrides | proxygen_cli/config.py:88-91 | on an update a keyword argument with a value, or a `name` argument, replaces the stored field |
| Config.UpdateKeepsUnmentioned | proxygen_cli/config.py:88-91 | on an update a field left out of the keyword arguments keeps its stored value (a user or machine user whenever one was stored) |
| Config.UpdateOutputOnly | proxygen_cli/config.py:88-91 | updating only `output` of a validated entry stores the entry with the new output and nothing else changed |
| Config.Get | proxygen_cli/config.py:100-103 | no name means the default API; it fails iff the entry is missing |
| Config.SetDefaultThenGet | proxygen_cli/config.py:93-103 | after setting with `default=True`, `get()` returns the stored configuration |
| Config.EmptyUpdateKeepsConfig | proxygen_cli/config.py:88-91 | an update with no kwargs stores the same configuration again |
| Config.SetApiConfigFrame | proxygen_cli/config.py:85-97 | every other API's configuration is unchanged |
| Spec.RefsSound | proxygen_cli/lib/spec.py:14-36 | every reported path reaches its string, ends in a `$ref` key and names a file |
| Spec.RefsComplete | proxygen_cli/lib/spec.py:14-36 | every `$ref` string naming a file is reported |
| Spec.FindFileRefs | proxygen_cli/lib/spec.py:14-36 | every reported pair is a string its path reaches, under a `$ref` key, naming a file |
| Spec.FindFileRefsExact | proxygen_cli/lib/spec.py:28-35 | a ref is reported iff it is the value of a `$ref` key, not internal (`#`) and has no scheme |
| Spec.FindFileRefsOrdered | proxygen_cli/lib/spec.py:18-27 | refs come in dict-key order, then list-index order, depth first |
| Spec.UpdateObj | proxygen_cli/lib/spec.py:39-47 | a successful update puts the substitute at `keys[:-1]`; a failure names the node where the walk stopped, reached by the keys before it, from which the next key leads nowhere, with at least one key after it |
| Spec.StepRaises | proxygen_cli/lib/spec.py:41-42 | a failed step raises LookupError on a dict, and on a list exactly when indexed by a number; TypeError for None, booleans, numbers, and a list or string indexed by a key; a string indexed in range goes on into its one-character string |
| Spec.MissingKeyRaisesLookupError | proxygen_cli/lib/spec.py:42 | a key missing from a dict on the way raises KeyError |
| Spec.IndexPastEndRaisesLookupError | proxygen_cli/lib/spec.py:42 | a list index past the end raises IndexError |
| Spec.ListByKeyRaisesTypeError | proxygen_cli/lib/spec.py:42 | a list indexed by a key raises TypeError |
| Spec.ScalarRaisesTypeError | proxygen_cli/lib/spec.py:42 | subscripting None, a boolean or a number raises TypeError |
| Spec.StringAssignmentRaisesTypeError | proxygen_cli/lib/spec.py:42 | a parent step into a string in range ends in assigning into the string: TypeError |
| Spec.StringThenIndexRaisesLookupError | proxygen_cli/lib/spec.py:42 | indexing past the one-character string a string yields raises IndexError |
| Spec.UpdateObjSucceeds | proxygen_cli/lib/spec.py:39-47 | the update fails on empty keys, and otherwise succeeds iff the path to the target exists |
| Spec.UpdateObjPlaces | proxygen_cli/lib/spec.py:39-45 | the node at `keys[:-1]` becomes the substitute |
| Spec.UpdateObjFrame | proxygen_cli/lib/spec.py:39-45 | every path apart from the target is unchanged |
| Spec.UpdateObjKeepsTopKeys | proxygen_cli/lib/spec.py:41-43 | an update below the top level keeps the top-level keys |
| Spec.Load | proxygen_cli/lib/spec.py:51-65 | loading succeeds iff the file exists, is no directory and parses |
| Spec.Substitute | proxygen_cli/lib/spec.py:73-80 | success means every target was a readable file; an unresolvable ref names a target that is not a file |
| Spec.Prepare | proxygen_cli/lib/spec.py:64-68 | the root document loses `x-nhsd-apim` and keeps every other top-level key |
| Spec.Resolve | proxygen_cli/lib/spec.py:50-81 | a missing or directory root is `No such file`, an unparsable one a YAML error, a non-dict one fails at `pop`; success means every ref target joined onto the absolute spec directory is a readable file; an unresolvable ref names its joined target |
| Spec.SpecDir | proxygen_cli/lib/spec.py:71 | the spec directory is the root file's parent made absolute against the working directory |
| Spec.BareRootLooksInWorkingDirectory | proxygen_cli/lib/spec.py:71-74 | for a root given by bare name, refs are looked up in the working directory, and a `./` prefix changes nothing |
| Spec.ResolveLands | proxygen_cli/lib/spec.py:70-81 | with readable targets on separate branches, resolution succeeds and each target holds its file's document |
| Spec.NonMappingRootRaises | proxygen_cli/lib/spec.py:68 | a list root raises TypeError at `pop`, any other non-dict root AttributeError |
| Spec.MissingFilesRaiseClickException | proxygen_cli/lib/spec.py:51-76 | a missing root and an unresolvable ref both raise ClickException |
| Spec.SubstituteFrame | proxygen_cli/lib/spec.py:73-80 | substitutions leave every path apart from all targets unchanged |
| Spec.SubstituteLands | proxygen_cli/lib/spec.py:73-80 | with targets on separate branches, each target ends up holding its file's document |
| Spec.SubstituteKeepsTopKeys | proxygen_cli/lib/spec.py:73-80 | substitutions below the top level keep the top-level keys |
| Spec.ResolveDropsDeploymentData | proxygen_cli/lib/spec.py:67-68 | unless a top-level ref replaces the spec, the result has no `x-nhsd-apim` |
| LegacySpec.Resolve | proxygen_cli/spec.py:48-66 | a missing or directory root is `No such file`, an unparsable one a YAML error, and success needs a readable root |
| LegacySpec.Raised | proxygen_cli/spec.py:37-61 | ValueError exactly for a missing file or target and for an update with no keys; the YAML loader's error exactly for unparsable YAML; a failed step raises KeyError, IndexError or TypeError as `_update_obj` does in the newer resolver |
| LegacySpec.ScalarOnTheWayRaisesTypeError | proxygen_cli/spec.py:37-41 | an update that steps into None, a boolean or a number raises TypeError |
| LegacySpec.MissingFilesRaiseValueError | proxygen_cli/spec.py:48-61 | a missing root and an unresolvable ref raise ValueError |
| LegacySpec.AgreesWithNewResolver | proxygen_cli/spec.py:48-66 | for an absolute root without deployment data the two resolvers agree |
| CompareVersion.Parse | scripts/compare_version.py:11-12 | a version parses iff it has three dot-separated integer pieces, and each component is its piece's value |
| CompareVersion.ParseFormat | scripts/compare_version.py:11-12 | parsing reads back the text of any version |
| CompareVersion.ValidBump | scripts/compare_version.py:20-41 | an accepted candidate comes later than the current version in tuple order |
| CompareVersion.ValidBumpIsLater | scripts/compare_version.py:20-41 | every accepted candidate is later than, and differs from, the current version |
| CompareVersion.ValidBumpCandidates | scripts/compare_version.py:20-41 | the accepted candidates are exactly patch+1, minor+1 with patch 0, and major+1 with minor and patch 0 |
| CompareVersion.MinorBumpNeedsPatchReset | scripts/compare_version.py:28-33 | a minor bump keeping a non-zero patch is refused |
| CompareVersion.Main | scripts/compare_version.py:15-52 | exit code 0 iff both versions parse and the bump is valid; a rejection exits 1 |
| CompareVersion.SameVersionRejected | scripts/compare_version.py:20-52 | the same version twice is rejected |
| Output.FormatTime | proxygen_cli/lib/output.py:11-21 | with no keys the row is returned unchanged |
| Output.FormatLastModified | proxygen_cli/lib/output.py:16-21 | `last_modified` becomes `YYYY-MM-DD HH:MM` and moves last; every other field is unchanged |
| Output.Stamp | proxygen_cli/lib/output.py:19 | with a four-digit year the stamp is 16 characters and reads back to the same date and time |
| Output.Insert | proxygen_cli/lib/output.py:46 | insertion adds exactly one row and keeps the order sorted |
| Output.Sort | proxygen_cli/lib/output.py:46 | the rows come out sorted by `last_modified` and are a permutation of the input |
| Output.SortStable | proxygen_cli/lib/output.py:46 | rows with equal `last_modified` keep their input order |
| Output.TableRows | proxygen_cli/lib/output.py:45-46 | a row without `last_modified` is a KeyError; otherwise every row is kept |
| Output.FormatAll | proxygen_cli/lib/output.py:46 | each output row is its input row formatted |
| Output.TableOrder | proxygen_cli/lib/output.py:45-46 | the table is the sorted rows, each formatted |
| Output.SplitLines | proxygen_cli/lib/output.py:25 | the lines hold no line break, and there are none only for empty text |
| Output.RStrip | proxygen_cli/lib/output.py:25 | the result is a prefix ending in no whitespace, and only whitespace was removed |
| Output.RStripIdempotent | proxygen_cli/lib/output.py:25 | stripping twice is stripping once |
| Output.Styled | proxygen_cli/lib/output.py:24-29 | block style iff more than one line; the text splits on `\n` into the right-stripped lines |
| Output.SplitLinesJoin | proxygen_cli/lib/output.py:25-26 | splitting the `\n`-join of break-free lines, the last one non-empty, gives them back |
| Output.StyledIdempotent | proxygen_cli/lib/output.py:24-29 | styling a styled text again changes nothing, when its last line is not blank |
| Output.PrintSpec | proxygen_cli/lib/output.py:33-37 | YAML for `yaml`, JSON for `json`, nothing otherwise, and the spec itself is emitted |
| ProxygenApi.ApiPathsUnderApis | proxygen_cli/lib/proxygen_api.py:38-107 | every API path is under `/apis/`, and the status path is not |
| ProxygenApi.SecretPathSegments | proxygen_cli/lib/proxygen_api.py:85-106 | a secret path splits into `apis`, api, `environments`, env, `secrets`, name |
| ProxygenApi.InstancePathSegments | proxygen_cli/lib/proxygen_api.py:60-78 | an instance path splits into `apis`, api, `environments`, env, `instances`, name |
| ProxygenApi.GetInstance | proxygen_cli/lib/proxygen_api.py:60-64 | a bodiless GET under `/apis/` whose path splits into `apis`, api, `environments`, env, `instances`, name |
| ProxygenApi.DeleteInstance | proxygen_cli/lib/proxygen_api.py:66-69 | a bodiless DELETE of the instance path `get_instance` reads |
| ProxygenApi.PutInstance | proxygen_cli/lib/proxygen_api.py:75-79 | a PUT of the instance path `get_instance` reads, with the spec as its JSON body |
| ProxygenApi.GetSecret | proxygen_cli/lib/proxygen_api.py:85-89 | a bodiless GET under `/apis/` whose path splits into `apis`, api, `environments`, env, `secrets`, name |
| ProxygenApi.DeleteSecret | proxygen_cli/lib/proxygen_api.py:103-107 | a bodiless DELETE of the secret path `get_secret` reads |
| ProxygenApi.PutSecret | proxygen_cli/lib/proxygen_api.py:91-101 | `params` is `{"type": t}` iff the type is truthy, else empty; the value is the raw body |
| ProxygenApi.Body | proxygen_cli/lib/proxygen_api.py:60-64 | the reply body is the parsed JSON, or an error when it is not JSON |
| ProxygenApi.DeleteInstanceBody | proxygen_cli/lib/proxygen_api.py:66-73 | a reply that is not JSON gives None instead of an error |
| ProxygenApi.UrlJoin | proxygen_cli/lib/proxygen_api.py:23 | a URL exactly when the base is a plain `http`/`https` URL and the reference a plain absolute path; it starts with the base's scheme and authority followed by the reference's path, and equals them followed by the whole reference exactly when the reference has no empty query or fragment |
| ProxygenApi.JoinOntoBareEndpoint | proxygen_cli/lib/proxygen_api.py:23 | on an endpoint with no path, query or fragment, a joinable reference without an empty query or fragment gives the endpoint followed by the reference |
| ProxygenApi.DotDotNotKept | proxygen_cli/lib/proxygen_api.py:23 | a path with a `..` segment is never joined verbatim |
| ProxygenApi.EmptyQueryDropped | proxygen_cli/lib/proxygen_api.py:23 | a trailing `?` or `#` with nothing after it is dropped: the URL is the one for the reference without it |
| ProxygenApi.SchemeAndAuthority | proxygen_cli/lib/proxygen_api.py:23 | any `scheme://rest` text whose scheme is non-empty and holds no `:` is an absolute URL |
| ProxygenApi.Request | proxygen_cli/lib/proxygen_api.py:16-25 | a token is fetched and `Authorization: Bearer <token>` set iff the path starts with `/apis/`; every other header keeps its place and value |
| ProxygenApi.Session | proxygen_cli/lib/proxygen_api.py:31-35 | the session of a known API is reused; a new API gets a new one |
| ProxygenApi.SessionMemoised | proxygen_cli/lib/proxygen_api.py:31-35 | asking twice for the same API gives the same session |
| ProxygenApi.SessionsDistinct | proxygen_cli/lib/proxygen_api.py:31-35 | different APIs never share a session |
| ProxygenApi.Send | proxygen_cli/lib/proxygen_api.py:16-35 | a call goes through its API's memoised session and the header rule |
| ProxygenApi.TokenOnlyForApis | proxygen_cli/lib/proxygen_api.py:18-21 | API operations fetch a token and the status call does not |
| Percent.Quote | proxygen_cli/cli/command_instance.py:85 | a quoted name holds only safe characters, `%` and hex digits |
| Percent.QuoteSafe | proxygen_cli/cli/command_instance.py:85 | a base path of safe characters is its own instance name |
| Percent.UnquoteQuote | proxygen_cli/cli/command_instance.py:85 | decoding the quoted base path gives it back |
| Percent.QuoteInjective | proxygen_cli/cli/command_instance.py:98 | different base paths never share an instance name |
| Cli.EnvsHaveNoDot | proxygen_cli/lib/constants.py:3-13 | no environment name holds a dot |
| Cli.Reply | proxygen_cli/lib/proxygen_api.py:85-89 | a command's request is appended to those sent; the command succeeds with the reply iff the reply is JSON |
| InstanceCommand.Url | proxygen_cli/cli/command_instance.py:12-14 | the URL is `https://` followed by the environment's host and ends in the base path; a non-prod environment is the first host label |
| InstanceCommand.TargetOfUrl | proxygen_cli/cli/command_instance.py:12-14 | the environment and base path can be read back from the URL |
| InstanceCommand.TargetOfProdUrl | proxygen_cli/cli/command_instance.py:13 | `prod` is served from `https://api.service.nhs.uk/` followed by the base path |
| InstanceCommand.TargetOfSubdomainUrl | proxygen_cli/cli/command_instance.py:14 | any other environment is served from `https://<env>.api.service.nhs.uk/` followed by the base path |
| InstanceCommand.UrlInjective | proxygen_cli/cli/command_instance.py:12-14 | two deployments share a URL only if they are the same deployment |
| InstanceCommand.InstanceName | proxygen_cli/cli/command_instance.py:115 | the instance name decodes back to the base path |
| InstanceCommand.PointServers | proxygen_cli/cli/command_instance.py:77 | `servers` becomes exactly one entry at the deployment URL, and every other top-level member is unchanged; a non-dict spec is a TypeError |
| InstanceCommand.DescribeWith | proxygen_cli/cli/command_instance.py:66-87 | the spec is put iff the environment is valid, the spec resolves to a dict and the prompt is skipped or confirmed; what is sent is the resolved spec with its servers overwritten, under the quoted base path |
| InstanceCommand.Describe | proxygen_cli/cli/command_instance.py:66-87 | with the `resolve` call corrected, the spec is put iff the environment is valid, the spec resolves to a dict and the prompt is skipped or confirmed; the prompt names the deployment URL |
| InstanceCommand.DescribeAsWritten | proxygen_cli/cli/command_instance.py:66-87 | with the `resolve` call corrected, the prompt shows the repr of the function `url` whatever the target; what is put goes to the quoted base path |
| InstanceCommand.DescribeAsCalled | proxygen_cli/cli/command_instance.py:74 | as written, `resolve` is called without its `api` argument, so every run with a valid environment ends in TypeError with no prompt and no request |
| InstanceCommand.DescribeAsCalledNeverDeploys | proxygen_cli/cli/command_instance.py:74-86 | for a resolvable spec with `--no-confirm`, the command as called sends nothing while the intended one puts the instance |
| InstanceCommand.DescribePromptHidesTarget | proxygen_cli/cli/command_instance.py:81 | as written, deploying to `prod` and to `dev` shows the same prompt although the URLs differ |
| InstanceCommand.DescribePromptNamesTarget | proxygen_cli/cli/command_instance.py:81 | the corrected prompt differs for any two deployments |
| InstanceCommand.Get | proxygen_cli/cli/command_instance.py:93-100 | one request for the quoted base path, printed iff the reply is JSON |
| InstanceCommand.Delete | proxygen_cli/cli/command_instance.py:110-124 | the delete is sent iff `--no-confirm`, or the lookup is JSON and the prompt is confirmed; a declined prompt aborts after the lookup alone |
| SecretCommand.Group | proxygen_cli/cli/command_secret.py:16-24 | a None API is a usage error |
| SecretCommand.SecretText | proxygen_cli/cli/command_secret.py:58-67 | neither or both sources is a usage error; a file's text is its contents; a missing file is a ValueError |
| SecretCommand.SecretType | proxygen_cli/cli/command_secret.py:70-72 | the type is `apikey` iff `--apikey` is given, otherwise none |
| SecretCommand.Put | proxygen_cli/cli/command_secret.py:51-79 | a request is sent iff the API, environment and exactly one readable source are given; it carries the secret text and a `type` parameter iff `--apikey` |
| SecretCommand.Describe | proxygen_cli/cli/command_secret.py:86-92 | one lookup of the secret once the API and environment are valid |
| SecretCommand.Delete | proxygen_cli/cli/command_secret.py:100-116 | a null lookup is BadArgumentUsage, a declined prompt aborts, and in both cases nothing is deleted; the delete is sent iff neither happened |

## Left out

- HTTP, HTML scraping, JWT and MD5 are replaced by oracle functions:
  - HTTP via `requests`, including sessions and retries;
  - lxml scraping of the `kc-form-login` page, reduced to a function from page text to form action;
  - JWT encoding, decoding and RS512 signing;
  - the MD5 cache key, reduced to a deterministic function of the credentials.
- `time()` and `uuid4()` are parameters. The clock reading for the cache check and the one for the claims are separate inputs.
- Token records hold only string values; numeric fields such as `expires_in` are not represented.
- `_read_cache` on a missing file, or on a file holding something other than an object, is not modelled. Only "parses" and "does not parse" are.
- The failed login page uses the undefined name `RunTimeError` at lib/auth.py:105. The model says only that the flow fails there, without an exception class.
- `parse_qs` percent-decoding, `+` handling and the `;` separator are not modelled.
- `int()` leading/trailing whitespace and underscores are not modelled.
- `pathlib`'s `resolve()` is not modelled: `..` stays a component and symlinks are not followed. A path opening with exactly two slashes, which `pathlib` keeps, is written with one.
- Spec.Load: the root file is looked up under the name as given, not under its normal form.
- YAML and JSON serialisation are out of scope: the printers only say which format is emitted for which document.
- YAML specifics (non-string keys, anchors, tags) are out: documents are JSON trees with string keys.
- Output.Stamp: `%Y` is written without padding; years below 1000, which some platforms pad, are outside the round-trip clause of its contract.
- Time zones, seconds and fractional seconds of `fromisoformat` are out: the parser is a parameter returning the fields.
- Validators run on missing values: config.py's carry `always=True`, and lib/credentials.py's `Credentials` is a `BaseSettings`, whose `validate_all` runs them on defaults. `ConfigParser`'s `DEFAULT` section and the lower-casing of keys and of `%(name)s` reference names are not modelled.
- CredentialsFile.Classify: a section's values are a map, so when several of them fail to interpolate, the model's `BadValue` names the section but not which value, or which interpolation error, Python meets first in file order.
- Credentials.CheckHttpUrl: models the scheme, permitted-scheme and host steps of pydantic's `AnyHttpUrl`. Surrounding whitespace stripping, the length limits, port digits, characters left over after the URL pattern, whitespace inside the URL, a user part holding `?` or `#`, and IPv4/IPv6 and international-domain checks are not modelled, so such URLs may be accepted here and refused there.
- ProxygenApi.UrlJoin: only bases that start with lower-case `http://` or `https://` and hold only printable ASCII without spaces or brackets, and references that are absolute paths (section 5.2.2 of RFC 3986), are modelled. A reference whose path has a `.` or `..` segment, whose last segment has an empty `;` parameter or a `.`/`..` before it, or which holds a tab or line break gives None; so do relative and network-path references and every other base (upper-case schemes, other schemes, IPv6 literals, control characters). Empty path segments are kept, as `urljoin` keeps them for an absolute path.
- A caller passing `headers=None` explicitly, which makes `headers["Authorization"] = ...` raise TypeError, is not modelled.
- The `secret list` command calls `get_secrets` and `get_resources`, which lib/proxygen_api.py does not define, so it always fails with AttributeError. It is not modelled.
- Config.MakeApiConfig: uses the corrected root check `Config.OnlyUserOrMachine` (see Findings), so a user/machine clash is a validation error and not the KeyError the code raises. Config.SetApiConfig inherits this.
- Config.ValidateEndpoint: pydantic's `AnyUrl` also checks host, port and length and strips whitespace; only the scheme and `://` are modelled.
- proxygen_cli/dot_proxygen.py is not part of this model: the `.proxygen` directory is a parameter, and the `config_file()` that config.py:24 calls is not modelled.
- `instance list` only fetches and prints, and is not modelled.
- `validate_cli_version` (a network check), spinners and echo output are left out.
- The reply of a put or delete is not checked for its HTTP status, as in the code; only its body matters.
- `click.Choice` validation of the environment is modelled as a `BadChoice` error before the command body runs.
- proxygen_cli/auth.py is a superseded copy of lib/auth.py with undefined names, and is not part of this model. The same goes for the legacy proxygen_cli/proxygen_api.py and proxygen_cli/cli_output.py.
- The prototype scripts (oauth.py, state.py, client.py, paas.py), settings and `.proxygen` plumbing, and the spec server are not part of this model.
- A key-ID requirement and mTLS secret options appear only in tests, with no implementing code, and are not modelled.

## Findings

| source | as written | input that shows it | evidently intended | confidence | as-written member | corrected member |
|---|---|---|---|---|---|---|
| proxygen_cli/config.py:25 | the user/machine clash message formats `values['api']`, a key no field of `ApiConfig` provides | any configuration with both `user` and `machine_user` set | a validation error naming the API | not executed | Config.OnlyUserOrMachineAsWritten | Config.OnlyUserOrMachine |
| proxygen_cli/cli/command_instance.py:74 | `spec.resolve(spec_file)` passes one argument to a function declaring `file_name` and `api` (proxygen_cli/lib/spec.py:50) | `describe dev p spec.yaml --no-confirm` with a valid `spec.yaml` | the spec is resolved and put | not executed | InstanceCommand.DescribeAsCalled | InstanceCommand.Describe |
| proxygen_cli/cli/command_instance.py:81 | the confirmation prompt interpolates the function object `url`, not `url(env, base_path)` | `describe prod p spec.yaml` and `describe dev p spec.yaml` | the prompt names the URL being deployed to | not executed | InstanceCommand.DescribeAsWritten | InstanceCommand.Describe |

How each finding is shown:

- The clash in config.py is exhibited by `Config.OnlyUserOrMachineRaisesKeyError`.
- The missing `api` argument is exhibited by `InstanceCommand.DescribeAsCalledNeverDeploys`, which also shows `Describe` deploying.
- The prompt that names a function object is exhibited by `InstanceCommand.DescribePromptHidesTarget`. Its correction is proved by `InstanceCommand.DescribePromptNamesTarget`.

The prompt finding can only appear once the `resolve` call is corrected, because as written the TypeError comes first. `Describe` and `DescribeAsWritten` both model `describe` with that call corrected.

=== FILE: auth.dfy ===
/** Token acquisition of proxygen_cli/lib/auth.py. `access_token` is a step
    from the token cache, the clock and the identity provider's answers to the
    requests sent, the cache written back and the token or failure returned.
    The identity provider, JWT decoding and signing, HTML scraping and the
    cache-key digest are parameters: a `World` bundles them. */
module Auth {
  import opened Wrappers
  import opened Strings
  import opened Paths
  import opened Credentials

  /** A token response body (`access_token`, `refresh_token`, ...). */
  type Payload = map<string, string>

  /** The token cache file: credential fingerprint to token record. */
  type Cache = map<string, Payload>

  /** An HTTP request to the identity provider; query parameters and form
      bodies are ordered key/value pairs. */
  datatype Request =
    | Get(url: string, params: seq<(string, string)>)
    | Post(url: string, data: seq<(string, string)>)

  /** What the identity provider sends back: the status, the body text, the
      `Location` header of each redirect followed on the way (None for a
      redirect without one), and the body as a token record when it parses
      as one. */
  datatype Reply = Reply(status: int, text: string, redirects: seq<Option<string>>, json: Option<Payload>)

  /** A JWT read without checking its signature: not a JWT at all, one
      without an `exp` claim, or one that expires at the given time. */
  datatype Expiry = BadJwt | NoExp | ExpiresAt(at: int)

  /** The claim set of a machine user's client assertion. */
  datatype Claims = Claims(sub: string, iss: string, jti: string, aud: string, exp: int)

  /** Everything `access_token` consults besides the cache. */
  datatype World = World(
    // the reply to a request, given the requests sent before it
    answer: (seq<Request>, Request) -> Reply,
    // the action of the `kc-form-login` form in a login page, if it has one
    formAction: string -> Option<string>,
    // the `exp` claim of a JWT read without checking its signature
    expOf: string -> Expiry,
    // an RS512 JWT over the claims, signed with the private key
    sign: (Claims, string) -> string,
    // the cache key: a digest of the credentials
    fingerprint: Credentials -> string,
    // `int(time())` when `access_token` starts
    clock: int,
    // `int(time())` when the machine claims are built
    claimClock: int,
    // the fresh `uuid4` for the assertion's `jti`
    jti: string,
    // the filesystem holding the private key, and the `.proxygen` directory
    fs: Fs<string>,
    dotDir: string)

  /** Why a token could not be obtained, with the Python exception that the
      source raises for it (`ExceptionName`). */
  datatype AuthError =
    | LoginPageFailed(status: int)
    | NoLoginForm
    | SubmissionFailed(status: int)
    | InvalidCredentials
    | NoRedirect
    | NoLocation
    | NoCode
    | TokenFailed(status: int)
    | NotJson
    | NoPrivateKey(problem: KeyProblem)
    | Undecodable
    | NoExpiry
    | MissingAccessToken

  /** The exception class raised for each failure. A failed login page
      names a class the module never defines, so no class is claimed. A
      missing key file fails while its message is built, on an attribute the
      credentials class does not have. */
  function ExceptionName(e: AuthError): Option<string> {
    match e
    case LoginPageFailed(_) => None
    case NoLoginForm => Some("KeyError")
    case SubmissionFailed(_) => Some("RuntimeError")
    case InvalidCredentials => Some("ValueError")
    case NoRedirect => Some("IndexError")
    case NoLocation => Some("KeyError")
    case NoCode => Some("KeyError")
    case TokenFailed(_) => Some("RuntimeError")
    case NotJson => Some("JSONDecodeError")
    case NoPrivateKey(NoKeyPath) => Some("TypeError")
    case NoPrivateKey(KeyMissing(_)) => Some("AttributeError")
    case NoPrivateKey(KeyIsDirectory(_)) => Some("IsADirectoryError")
    case Undecodable => Some("DecodeError")
    case NoExpiry => Some("KeyError")
    case MissingAccessToken => Some("KeyError")
  }

  const AuthPath := "/protocol/openid-connect/auth"
  const TokenPath := "/protocol/openid-connect/token"
  const CallbackPath := "/protocol/openid-connect/callback"
  const InvalidLoginText := "Invalid username or password"
  const AssertionType := "urn:ietf:params:oauth:client-assertion-type:jwt-bearer"
  /** Seconds of leeway: a token this close to expiry counts as expired. */
  const Leeway := 10
  /** Lifetime in seconds of a machine user's client assertion. */
  const AssertionLifetime := 300

  /** A form body as `requests` encodes a dict: fields whose value is None
      are dropped, the rest keep their order. */
  function Form(fields: seq<(string, Option<string>)>): (r: seq<(string, string)>)
    ensures |r| <= |fields|
    ensures forall i :: 0 <= i < |r| ==> (r[i].0, Some(r[i].1)) in fields
    ensures forall i :: 0 <= i < |fields| && fields[i].1.Some? ==> (fields[i].0, fields[i].1.value) in r
  {
    if |fields| == 0 then []
    else
      var rest := Form(fields[1..]);
      assert forall f :: f in fields[1..] ==> f in fields;
      if fields[0].1.Some? then [(fields[0].0, fields[0].1.value)] + rest else rest
  }

  /** Python truthiness of an optional string. */
  predicate Truthy(v: Option<string>) {
    v.Some? && v.value != ""
  }

  /** Sends `req`: it is appended to the requests sent so far, and the world
      answers it. */
  function Send(w: World, calls: seq<Request>, req: Request): (r: (seq<Request>, Reply))
    ensures r.0 == calls + [req]
  {
    (calls + [req], w.answer(calls, req))
  }

  // ---------------------------------------------------------------- refresh

  function RefreshRequest(c: Credentials, refreshToken: string): Request {
    Post(c.baseUrl + TokenPath, Form([
      ("grant_type", Some("refresh_token")),
      ("client_id", Some(c.clientId)),
      ("client_secret", c.clientSecret),
      ("refresh_token", Some(refreshToken))]))
  }

  /** Whether a request is a refresh-token grant. */
  predicate IsRefresh(req: Request) {
    req.Post? && ("grant_type", "refresh_token") in req.data
  }

  /** `_get_token_data_from_refresh_token`: the new token record on a 200
      reply and None on any other status; a 200 reply whose body is not JSON
      raises. */
  function Refresh(c: Credentials, w: World, calls: seq<Request>, refreshToken: string):
    (r: (seq<Request>, Result<Option<Payload>, AuthError>))
    ensures r.0 == calls + [RefreshRequest(c, refreshToken)]
    ensures var reply := w.answer(calls, RefreshRequest(c, refreshToken));
      && (r.1 == Ok(None) <==> reply.status != 200)
      && (r.1.Err? <==> reply.status == 200 && reply.json.None?)
      && (r.1.Ok? && r.1.value.Some? ==> reply.status == 200 && r.1.value == reply.json)
  {
    var (sent, reply) := Send(w, calls, RefreshRequest(c, refreshToken));
    if reply.status != 200 then (sent, Ok(None))
    else if reply.json.None? then (sent, Err(NotJson))
    else (sent, Ok(reply.json))
  }

  // ------------------------------------------------------------- user login

  function RedirectUri(c: Credentials): string {
    c.baseUrl + CallbackPath
  }

  /** The first request of the user flow: the identity provider's login page. */
  function LoginPageRequest(c: Credentials): Request {
    Get(c.baseUrl + AuthPath, [
      ("client_id", c.clientId),
      ("redirect_uri", RedirectUri(c)),
      ("response_type", "code"),
      ("state", "123"),
      ("scope", "openid")])
  }

  function SubmitRequest(c: Credentials, action: string): Request {
    Post(action, Form([("username", c.username), ("password", c.password), ("credentialId", Some(""))]))
  }

  function CodeRequest(c: Credentials, code: string): Request {
    Post(c.baseUrl + TokenPath, Form([
      ("grant_type", Some("authorization_code")),
      ("code", Some(code)),
      ("redirect_uri", Some(RedirectUri(c))),
      ("client_id", Some(c.clientId)),
      ("client_secret", c.clientSecret)]))
  }

  /** The query component of a URL: after the first `?` of the part before
      the first `#`, or empty. */
  function QueryOf(url: string): (q: string)
    ensures '#' !in q
  {
    var beforeFragment := match IndexOf(url, '#') case Some(i) => url[..i] case None => url;
    match IndexOf(beforeFragment, '?')
    case Some(i) => beforeFragment[i + 1..]
    case None => ""
  }

  /** The first non-empty `code` value among `name=value` query fields, as
      `parse_qs(query)["code"][0]` finds it: a field names `code` exactly
      when its text up to the first `=` is `code`, and blank values are
      dropped. */
  function FirstCode(fields: seq<string>): (r: Option<string>)
    ensures r.Some? ==> r.value != "" && "code=" + r.value in fields
    ensures r.None? ==> forall i :: 0 <= i < |fields| ==> !(StartsWith(fields[i], "code=") && |fields[i]| > 5)
  {
    if |fields| == 0 then None
    else
      var f := fields[0];
      var rest := FirstCode(fields[1..]);
      assert forall g :: g in fields[1..] ==> g in fields;
      if StartsWith(f, "code=") && |f| > 5 then
        assert f == "code=" + f[5..];
        Some(f[5..])
      else rest
  }

  /** The authorisation code carried by a redirect's `Location`: a non-empty
      value whose `code=` field is among the query's `&`-separated fields,
      and none when no query field carries a non-empty code. */
  function CodeOf(location: string): (r: Option<string>)
    ensures r.Some? ==> r.value != "" && "code=" + r.value in Split(QueryOf(location), '&')
    ensures r.None? ==> forall f :: f in Split(QueryOf(location), '&') ==> !(StartsWith(f, "code=") && |f| > 5)
  {
    FirstCode(Split(QueryOf(location), '&'))
  }

  /** A callback URL whose query starts with `code=<c>` yields `c`. */
  lemma CodeOfCallback(base: string, code: string, rest: seq<string>)
    requires '?' !in base && '#' !in base
    requires code != "" && '&' !in code && '#' !in code
    requires forall i :: 0 <= i < |rest| ==> '&' !in rest[i] && '#' !in rest[i]
    ensures CodeOf(base + "?" + Join(["code=" + code] + rest, '&')) == Some(code)
  {
    var head := "code=" + code;
    var parts := [head] + rest;
    CodeFieldClean(code);
    assert forall i :: 0 <= i < |parts| ==> '&' !in parts[i] && '#' !in parts[i] by {
      forall i | 0 <= i < |parts| ensures '&' !in parts[i] && '#' !in parts[i] {
        if i > 0 { assert parts[i] == rest[i - 1]; }
      }
    }
    var query := Join(parts, '&');
    QueryOfAfterMark(base, query, parts);
    SplitJoin(parts, '&');
    assert head[..5] == "code=" && head[5..] == code;
    assert FirstCode(parts) == Some(code);
  }

  lemma CodeFieldClean(code: string)
    requires '&' !in code && '#' !in code
    ensures '&' !in "code=" + code && '#' !in "code=" + code
  {
    NotInAppend("code=", code, '&');
    NotInAppend("code=", code, '#');
  }

  lemma NotInAppend(a: string, b: string, x: char)
    requires x !in a && x !in b
    ensures x !in a + b
  {
    assert forall k :: 0 <= k < |a + b| ==> (a + b)[k] == if k < |a| then a[k] else b[k - |a|];
  }

  /** The query of `base?query` is `query` when neither part holds a `#`
      and `base` holds no `?`. */
  lemma QueryOfAfterMark(base: string, query: string, parts: seq<string>)
    requires '?' !in base && '#' !in base
    requires query == Join(parts, '&')
    requires forall i :: 0 <= i < |parts| ==> '#' !in parts[i]
    ensures QueryOf(base + "?" + query) == query
  {
    var url := base + "?" + query;
    JoinHasNo(parts, '&', '#');
    assert forall k :: 0 <= k < |url| ==> url[k] == (if k < |base| then base[k] else if k == |base| then '?' else query[k - |base| - 1]);
    assert '#' !in url;
    assert IndexOf(url, '#') == None;
    IndexOfAfterPrefix(base, '?', query);
    assert base + ['?'] + query == url;
    assert url[|base| + 1..] == query;
  }

  /** A character held by no piece and not the separator is not in the join. */
  lemma {:induction false} JoinHasNo(parts: seq<string>, d: char, x: char)
    requires x != d
    requires forall i :: 0 <= i < |parts| ==> x !in parts[i]
    ensures x !in Join(parts, d)
  {
    if |parts| > 1 {
      JoinHasNo(parts[1..], d, x);
    }
  }

  /** `history[-1].headers["Location"]`: where the last redirect a reply
      followed pointed. IndexError when it followed none, KeyError when the
      last one carries no `Location`. */
  function LastLocation(reply: Reply): (r: Result<string, AuthError>)
    ensures |reply.redirects| == 0 ==> r == Err(NoRedirect)
    ensures |reply.redirects| > 0 ==>
      (r.Ok? <==> reply.redirects[|reply.redirects| - 1].Some?)
      && (r.Ok? ==> Some(r.value) == reply.redirects[|reply.redirects| - 1])
      && (r.Err? ==> r.error == NoLocation)
  {
    if |reply.redirects| == 0 then Err(NoRedirect)
    else match reply.redirects[|reply.redirects| - 1]
      case None => Err(NoLocation)
      case Some(location) => Ok(location)
  }

  /** The last step of both login flows: send the token request; a 200
      reply's body is the token record, any other status is a RuntimeError. */
  function Exchange(w: World, calls: seq<Request>, req: Request): (r: (seq<Request>, Result<Payload, AuthError>))
    ensures r.0 == calls + [req]
    ensures w.answer(calls, req).status != 200 ==> r.1 == Err(TokenFailed(w.answer(calls, req).status))
    ensures r.1.Ok? <==> w.answer(calls, req).status == 200 && w.answer(calls, req).json.Some?
    ensures r.1.Ok? ==> r.1.value == w.answer(calls, req).json.value
  {
    var (sent, token) := Send(w, calls, req);
    if token.status != 200 then (sent, Err(TokenFailed(token.status)))
    else if token.json.None? then (sent, Err(NotJson))
    else (sent, Ok(token.json.value))
  }

  /** `_get_token_data_from_user_login`: fetch the login page, submit the
      username and password to the action of its login form, take the code
      from where the last redirect pointed and exchange it for a token
      record. */
  function UserLogin(c: Credentials, w: World, calls: seq<Request>): (r: (seq<Request>, Result<Payload, AuthError>))
    ensures |calls| < |r.0| <= |calls| + 3 && r.0[..|calls|] == calls
    ensures r.0[|calls|] == LoginPageRequest(c)
    ensures |r.0| > |calls| + 1 ==>
      var page := w.answer(calls, LoginPageRequest(c));
      && page.status == 200 && w.formAction(page.text).Some?
      && r.0[|calls| + 1] == SubmitRequest(c, w.formAction(page.text).value)
    ensures |r.0| > |calls| + 2 ==>
      var submitted := w.answer(calls + [r.0[|calls|]], r.0[|calls| + 1]);
      && submitted.status == 200 && !Contains(submitted.text, InvalidLoginText)
      && LastLocation(submitted).Ok? && CodeOf(LastLocation(submitted).value).Some?
      && r.0[|calls| + 2] == CodeRequest(c, CodeOf(LastLocation(submitted).value).value)
    ensures r.1.Ok? ==> |r.0| == |calls| + 3
    ensures |r.0| == |calls| + 3 ==> r.1 == Exchange(w, r.0[..|calls| + 2], r.0[|calls| + 2]).1
  {
    var (sent1, page) := Send(w, calls, LoginPageRequest(c));
    if page.status != 200 then (sent1, Err(LoginPageFailed(page.status)))
    else match w.formAction(page.text)
      case None => (sent1, Err(NoLoginForm))
      case Some(action) => Submit(c, w, sent1, action)
  }

  /** The user flow from the form submission on. */
  function Submit(c: Credentials, w: World, sent: seq<Request>, action: string): (r: (seq<Request>, Result<Payload, AuthError>))
    ensures |sent| < |r.0| <= |sent| + 2 && r.0[..|sent|] == sent
    ensures r.0[|sent|] == SubmitRequest(c, action)
    ensures |r.0| > |sent| + 1 ==>
      var submitted := w.answer(sent, SubmitRequest(c, action));
      && submitted.status == 200 && !Contains(submitted.text, InvalidLoginText)
      && LastLocation(submitted).Ok? && CodeOf(LastLocation(submitted).value).Some?
      && r.0[|sent| + 1] == CodeRequest(c, CodeOf(LastLocation(submitted).value).value)
    ensures r.1.Ok? ==> |r.0| == |sent| + 2
    ensures |r.0| == |sent| + 2 ==> r.1 == Exchange(w, r.0[..|sent| + 1], r.0[|sent| + 1]).1
  {
    var (sent2, submitted) := Send(w, sent, SubmitRequest(c, action));
    if submitted.status != 200 then (sent2, Err(SubmissionFailed(submitted.status)))
    else if Contains(submitted.text, InvalidLoginText) then (sent2, Err(InvalidCredentials))
    else match LastLocation(submitted)
      case Err(e) => (sent2, Err(e))
      case Ok(location) =>
        match CodeOf(location)
        case None => (sent2, Err(NoCode))
        case Some(code) =>
          var r := Exchange(w, sent2, CodeRequest(c, code));
          assert r.0[..|sent2|] == sent2;
          r
  }

  /** A code exchange answered with any status other than 200 fails with
      RuntimeError after the three requests of the user flow. */
  lemma TokenExchangeStatusChecked(c: Credentials, w: World, calls: seq<Request>, action: string, location: string, code: string)
    requires w.answer(calls, LoginPageRequest(c)).status == 200
    requires w.formAction(w.answer(calls, LoginPageRequest(c)).text) == Some(action)
    requires var submitted := w.answer(calls + [LoginPageRequest(c)], SubmitRequest(c, action));
      && submitted.status == 200 && !Contains(submitted.text, InvalidLoginText)
      && LastLocation(submitted) == Ok(location) && CodeOf(location) == Some(code)
    requires w.answer(calls + [LoginPageRequest(c), SubmitRequest(c, action)], CodeRequest(c, code)).status != 200
    ensures UserLogin(c, w, calls) == (calls + [LoginPageRequest(c), SubmitRequest(c, action), CodeRequest(c, code)],
      Err(TokenFailed(w.answer(calls + [LoginPageRequest(c), SubmitRequest(c, action)], CodeRequest(c, code)).status)))
    ensures ExceptionName(UserLogin(c, w, calls).1.error) == Some("RuntimeError")
  {
    var sent1 := calls + [LoginPageRequest(c)];
    assert sent1 + [SubmitRequest(c, action)] == calls + [LoginPageRequest(c), SubmitRequest(c, action)];
    assert sent1 + [SubmitRequest(c, action), CodeRequest(c, code)]
        == calls + [LoginPageRequest(c), SubmitRequest(c, action), CodeRequest(c, code)];
    SubmitExchangeFails(c, w, sent1, action, location, code);
    UserLoginSubmits(c, w, calls, action);
    TokenFailedIsRuntimeError(UserLogin(c, w, calls).1.error.status);
  }

  /** A refused code exchange surfaces as RuntimeError. */
  lemma TokenFailedIsRuntimeError(status: int)
    ensures ExceptionName(TokenFailed(status)) == Some("RuntimeError")
  {
  }

  /** Once the login page offers a form, the rest of the user flow is the
      submission to the form's action. */
  lemma UserLoginSubmits(c: Credentials, w: World, calls: seq<Request>, action: string)
    requires w.answer(calls, LoginPageRequest(c)).status == 200
    requires w.formAction(w.answer(calls, LoginPageRequest(c)).text) == Some(action)
    ensures UserLogin(c, w, calls) == Submit(c, w, calls + [LoginPageRequest(c)], action)
  {
  }

  /** From the submission on: a good submission whose code exchange is not
      answered with 200 fails with that status after two requests. */
  lemma SubmitExchangeFails(c: Credentials, w: World, sent: seq<Request>, action: string, location: string, code: string)
    requires var submitted := w.answer(sent, SubmitRequest(c, action));
      && submitted.status == 200 && !Contains(submitted.text, InvalidLoginText)
      && LastLocation(submitted) == Ok(location) && CodeOf(location) == Some(code)
    requires w.answer(sent + [SubmitRequest(c, action)], CodeRequest(c, code)).status != 200
    ensures Submit(c, w, sent, action) == (sent + [SubmitRequest(c, action), CodeRequest(c, code)],
      Err(TokenFailed(w.answer(sent + [SubmitRequest(c, action)], CodeRequest(c, code)).status)))
  {
    var sent2 := sent + [SubmitRequest(c, action)];
    assert sent2 + [CodeRequest(c, code)] == sent + [SubmitRequest(c, action), CodeRequest(c, code)];
    var ex := Exchange(w, sent2, CodeRequest(c, code));
    assert ex.1 == Err(TokenFailed(w.answer(sent2, CodeRequest(c, code)).status));
  }

  /** A refused password stops the user flow after the submission: the
      code is never requested. */
  lemma InvalidCredentialsStop(c: Credentials, w: World, calls: seq<Request>, action: string)
    requires w.answer(calls, LoginPageRequest(c)).status == 200
    requires w.formAction(w.answer(calls, LoginPageRequest(c)).text) == Some(action)
    requires var submitted := w.answer(calls + [LoginPageRequest(c)], SubmitRequest(c, action));
      submitted.status == 200 && Contains(submitted.text, InvalidLoginText)
    ensures UserLogin(c, w, calls) == (calls + [LoginPageRequest(c), SubmitRequest(c, action)], Err(InvalidCredentials))
  {
    assert calls + [LoginPageRequest(c)] + [SubmitRequest(c, action)] == calls + [LoginPageRequest(c), SubmitRequest(c, action)];
  }

  /** A submission answered with any status other than 200 fails with
      RuntimeError, whatever its text says. */
  lemma SubmissionStatusCheckedFirst(c: Credentials, w: World, calls: seq<Request>, action: string)
    requires w.answer(calls, LoginPageRequest(c)).status == 200
    requires w.formAction(w.answer(calls, LoginPageRequest(c)).text) == Some(action)
    requires w.answer(calls + [LoginPageRequest(c)], SubmitRequest(c, action)).status != 200
    ensures UserLogin(c, w, calls).1.Err? && UserLogin(c, w, calls).1.error.SubmissionFailed?
    ensures ExceptionName(UserLogin(c, w, calls).1.error) == Some("RuntimeError")
  {
  }

  // ---------------------------------------------------------- machine user

  /** The claims a machine user asserts, for the given clock reading and jti. */
  function MachineClaims(c: Credentials, now: int, jti: string): (cl: Claims)
    ensures cl.sub == cl.iss == c.clientId
    ensures cl.aud == c.baseUrl
    ensures cl.exp - now == AssertionLifetime && cl.jti == jti
  {
    Claims(c.clientId, c.clientId, jti, c.baseUrl, now + AssertionLifetime)
  }

  function MachineRequest(c: Credentials, assertion: string): Request {
    Post(c.baseUrl + TokenPath, [
      ("grant_type", "client_credentials"),
      ("client_assertion_type", AssertionType),
      ("client_assertion", assertion)])
  }

  /** `_get_token_data_from_machine_user`: read the private key, sign the
      claims with it and send them as a client-credentials grant. */
  function MachineLogin(c: Credentials, w: World, calls: seq<Request>): (r: (seq<Request>, Result<Payload, AuthError>))
    ensures r.0 == calls <==> PrivateKey(c, w.fs, w.dotDir).Err?
    ensures PrivateKey(c, w.fs, w.dotDir).Err? ==> r.1 == Err(NoPrivateKey(PrivateKey(c, w.fs, w.dotDir).error))
    ensures r.0 != calls ==>
      && r.0 == calls + [MachineRequest(c, w.sign(MachineClaims(c, w.claimClock, w.jti), PrivateKey(c, w.fs, w.dotDir).value))]
      && (r.1.Ok? <==> w.answer(calls, r.0[|calls|]).status == 200 && w.answer(calls, r.0[|calls|]).json.Some?)
      && (r.1.Ok? ==> r.1.value == w.answer(calls, r.0[|calls|]).json.value)
  {
    match PrivateKey(c, w.fs, w.dotDir)
    case Err(problem) => (calls, Err(NoPrivateKey(problem)))
    case Ok(key) =>
      var assertion := w.sign(MachineClaims(c, w.claimClock, w.jti), key);
      Exchange(w, calls, MachineRequest(c, assertion))
  }

  // ----------------------------------------------------------- access_token

  /** What one call of `access_token` did: the requests it sent, the cache it
      wrote (None when it wrote none) and the token it returned. */
  datatype Outcome = Outcome(calls: seq<Request>, written: Option<Cache>, result: Result<string, AuthError>)

  /** `_read_cache`: the parsed cache file, or the empty cache when the file
      does not parse. */
  function ReadCache(parsed: Option<Cache>): (cache: Cache)
    ensures parsed.Some? ==> cache == parsed.value
    ensures parsed.None? ==> |cache| == 0
  {
    if parsed.Some? then parsed.value else map[]
  }

  /** Full login uses the password flow iff a username and a password are
      both set and non-empty. */
  predicate UsesUserFlow(c: Credentials) {
    Truthy(c.username) && Truthy(c.password)
  }

  /** Record `p` under `key`, write the cache and return its access token. */
  function StoreToken(cache: Cache, key: string, p: Payload, calls: seq<Request>): (o: Outcome)
    ensures o.calls == calls && o.written == Some(cache[key := p])
    ensures o.result.Ok? <==> "access_token" in p
    ensures o.result.Ok? ==> o.result.value == p["access_token"]
  {
    Outcome(calls, Some(cache[key := p]), if "access_token" in p then Ok(p["access_token"]) else Err(MissingAccessToken))
  }

  /** The full-login tail of `access_token`: a grant by the flow the
      credentials select, then the write-back. */
  function FullLogin(cache: Cache, key: string, c: Credentials, w: World, calls: seq<Request>): (o: Outcome)
    ensures |o.calls| >= |calls| && o.calls[..|calls|] == calls
    ensures UsesUserFlow(c) ==> |o.calls| > |calls| && o.calls[|calls|] == LoginPageRequest(c)
    ensures !UsesUserFlow(c) && |o.calls| > |calls| ==> o.calls[|calls|].Post? && ("grant_type", "client_credentials") in o.calls[|calls|].data
    ensures !UsesUserFlow(c) && |o.calls| > |calls| ==>
      PrivateKey(c, w.fs, w.dotDir).Ok? && o.calls[|calls|] == MachineRequest(c, w.sign(MachineClaims(c, w.claimClock, w.jti), PrivateKey(c, w.fs, w.dotDir).value))
    ensures o.written.Some? ==> |o.calls| > |calls| && key in o.written.value && o.written.value == cache[key := o.written.value[key]]
    ensures o.written.Some? && UsesUserFlow(c) ==>
      UserLogin(c, w, calls).1.Ok? && key in o.written.value && o.written.value[key] == UserLogin(c, w, calls).1.value
    ensures o.written.Some? && !UsesUserFlow(c) ==>
      MachineLogin(c, w, calls).1.Ok? && key in o.written.value && o.written.value[key] == MachineLogin(c, w, calls).1.value
    ensures o.result.Ok? ==>
      && o.written.Some? && key in o.written.value && "access_token" in o.written.value[key]
      && o.result.value == o.written.value[key]["access_token"]
  {
    var (sent, grant) := if UsesUserFlow(c) then UserLogin(c, w, calls) else MachineLogin(c, w, calls);
    match grant
    case Err(e) => Outcome(sent, None, Err(e))
    case Ok(p) => StoreToken(cache, key, p, sent)
  }

  /** The cached access token is still usable: it decodes and expires more
      than `Leeway` seconds from now. */
  predicate Fresh(cache: Cache, c: Credentials, w: World) {
    var key := w.fingerprint(c);
    && key in cache
    && "access_token" in cache[key]
    && w.expOf(cache[key]["access_token"]).ExpiresAt?
    && w.clock + Leeway < w.expOf(cache[key]["access_token"]).at
  }

  /** The cached access token has expired but its refresh token is still
      usable, so a refresh is tried. */
  predicate MayRefresh(cache: Cache, c: Credentials, w: World) {
    var key := w.fingerprint(c);
    && key in cache
    && "access_token" in cache[key]
    && w.expOf(cache[key]["access_token"]).ExpiresAt?
    && !(w.clock + Leeway < w.expOf(cache[key]["access_token"]).at)
    && "refresh_token" in cache[key]
    && w.expOf(cache[key]["refresh_token"]).ExpiresAt?
    && w.clock + Leeway < w.expOf(cache[key]["refresh_token"]).at
  }

  /** `access_token`: the cached token while it is fresh, else a refresh
      while the refresh token is usable, else a full login; a new token
      record is written back under this credentials' key. */
  function AccessToken(cache: Cache, c: Credentials, w: World): (o: Outcome)
    ensures o.written.Some? ==>
      && o.written.value.Keys == cache.Keys + {w.fingerprint(c)}
      && forall k :: k in cache && k != w.fingerprint(c) ==> o.written.value[k] == cache[k]
    ensures o.written.Some? ==> o.calls != []
    ensures o.result.Ok? && o.written.Some? ==>
      && w.fingerprint(c) in o.written.value && "access_token" in o.written.value[w.fingerprint(c)]
      && o.result.value == o.written.value[w.fingerprint(c)]["access_token"]
    ensures Fresh(cache, c, w) ==> o == Outcome([], None, Ok(cache[w.fingerprint(c)]["access_token"]))
    ensures o.calls == [] && o.result.Ok? <==> Fresh(cache, c, w)
    ensures o.result.Ok? && o.written.None? ==> Fresh(cache, c, w)
  {
    var key := w.fingerprint(c);
    var now := w.clock + Leeway;
    var o :=
      if key !in cache then FullLogin(cache, key, c, w, [])
      else
        var td := cache[key];
        if "access_token" !in td then Outcome([], None, Err(MissingAccessToken))
        else (match w.expOf(td["access_token"])
          case BadJwt => Outcome([], None, Err(Undecodable))
          case NoExp => Outcome([], None, Err(NoExpiry))
          case ExpiresAt(exp) =>
            if now < exp then Outcome([], None, Ok(td["access_token"]))
            else if "refresh_token" !in td then FullLogin(cache, key, c, w, [])
            else (match w.expOf(td["refresh_token"])
              case BadJwt => Outcome([], None, Err(Undecodable))
              case NoExp => Outcome([], None, Err(NoExpiry))
              case ExpiresAt(rexp) =>
                if !(now < rexp) then FullLogin(cache, key, c, w, [])
                else RefreshOrLogin(cache, key, c, w, td["refresh_token"])));
    WrittenUnder(cache, key, o.written);
    o
  }

  /** A cache written as `cache` with only `key` set holds the old keys
      plus `key`, and every other entry as it was. */
  lemma WrittenUnder(cache: Cache, key: string, written: Option<Cache>)
    ensures written.Some? && key in written.value && written.value == cache[key := written.value[key]] ==>
      && written.value.Keys == cache.Keys + {key}
      && forall k :: k in cache && k != key ==> written.value[k] == cache[k]
  {
  }

  /** The refresh branch of `access_token`: try the refresh token; store the
      record a 200 reply carries, and fall back to a full login on any other
      status. */
  function RefreshOrLogin(cache: Cache, key: string, c: Credentials, w: World, refreshToken: string): (o: Outcome)
    ensures |o.calls| > 0 && o.calls[0] == RefreshRequest(c, refreshToken)
    ensures o.written.Some? ==> key in o.written.value && o.written.value == cache[key := o.written.value[key]]
    ensures o.result.Ok? ==>
      && o.written.Some? && key in o.written.value && "access_token" in o.written.value[key]
      && o.result.value == o.written.value[key]["access_token"]
  {
    var r := Refresh(c, w, [], refreshToken);
    var sent, refreshed := r.0, r.1;
    match refreshed
    case Err(e) => Outcome(sent, None, Err(e))
    case Ok(Some(p)) =>
      StoreToken(cache, key, p, sent)
    case Ok(None) =>
      var o := FullLogin(cache, key, c, w, sent);
      assert o.calls[..|sent|][0] == sent[0];
      o
  }

  /** A token whose `exp` is exactly `Leeway` seconds away already counts as
      expired. */
  lemma ExpiryBoundary(cache: Cache, c: Credentials, w: World)
    requires w.fingerprint(c) in cache && "access_token" in cache[w.fingerprint(c)]
    requires w.expOf(cache[w.fingerprint(c)]["access_token"]) == ExpiresAt(w.clock + Leeway)
    ensures AccessToken(cache, c, w).calls != [] || AccessToken(cache, c, w).result.Err?
  {
  }

  /** The first request is a refresh exactly when the cached access token
      has expired and the refresh token has not. */
  lemma RefreshTriedIff(cache: Cache, c: Credentials, w: World)
    ensures var o := AccessToken(cache, c, w);
      (|o.calls| > 0 && IsRefresh(o.calls[0])) <==> MayRefresh(cache, c, w)
  {
    var key := w.fingerprint(c);
    if MayRefresh(cache, c, w) {
      RefreshIsRefresh(c, cache[key]["refresh_token"]);
    } else {
      FullLoginNeverRefreshes(cache, key, c, w);
    }
  }

  lemma RefreshIsRefresh(c: Credentials, token: string)
    ensures IsRefresh(RefreshRequest(c, token))
  {
    var fields := [
      ("grant_type", Some("refresh_token")),
      ("client_id", Some(c.clientId)),
      ("client_secret", c.clientSecret),
      ("refresh_token", Some(token))];
    assert fields[0].1.Some?;
  }

  /** A full login that starts from no requests never opens with a refresh. */
  lemma FullLoginNeverRefreshes(cache: Cache, key: string, c: Credentials, w: World)
    ensures var o := FullLogin(cache, key, c, w, []);
      |o.calls| > 0 ==> !IsRefresh(o.calls[0])
  {
    var o := FullLogin(cache, key, c, w, []);
    if |o.calls| > 0 && !UsesUserFlow(c) {
      var a := w.sign(MachineClaims(c, w.claimClock, w.jti), PrivateKey(c, w.fs, w.dotDir).value);
      assert o.calls[0] == MachineRequest(c, a);
      assert MachineRequest(c, a).data[0] == ("grant_type", "client_credentials");
    }
  }

  /** A refresh answered with a token record stores it under this
      credentials' key and returns its access token, after one request. */
  lemma RefreshSucceeds(cache: Cache, c: Credentials, w: World, p: Payload)
    requires MayRefresh(cache, c, w)
    requires var req := RefreshRequest(c, cache[w.fingerprint(c)]["refresh_token"]);
      w.answer([], req).status == 200 && w.answer([], req).json == Some(p)
    ensures var o := AccessToken(cache, c, w);
      && o.calls == [RefreshRequest(c, cache[w.fingerprint(c)]["refresh_token"])]
      && o.written == Some(cache[w.fingerprint(c) := p])
      && ("access_token" in p ==> o.result == Ok(p["access_token"]))
  {
  }

  /** A refresh refused with any status other than 200 is not fatal: a full
      login follows it. */
  lemma RefreshFallsBack(cache: Cache, c: Credentials, w: World)
    requires MayRefresh(cache, c, w)
    requires w.answer([], RefreshRequest(c, cache[w.fingerprint(c)]["refresh_token"])).status != 200
    ensures AccessToken(cache, c, w)
      == FullLogin(cache, w.fingerprint(c), c, w, [RefreshRequest(c, cache[w.fingerprint(c)]["refresh_token"])])
  {
    var req := RefreshRequest(c, cache[w.fingerprint(c)]["refresh_token"]);
    var r := Refresh(c, w, [], cache[w.fingerprint(c)]["refresh_token"]);
    assert r.0 == [req];
    assert r.1.Ok? && r.1.value.None?;
  }

  /** An unreadable cache file means a full login, never a cached token. */
  lemma UnreadableCacheLogsIn(c: Credentials, w: World)
    ensures AccessToken(ReadCache(None), c, w) == FullLogin(map[], w.fingerprint(c), c, w, [])
    ensures !Fresh(ReadCache(None), c, w)
  {
  }
}

=== FILE: cli.dfy ===
/** What the `instance` and `secret` command groups share: the environments
    `click.Choice` accepts, the ways a command ends, and the server, which
    answers each request with a parsed JSON body or with a body that is not
    JSON. */
module Cli {
  import opened Wrappers
  import opened Json
  import opened ProxygenApi
  import Spec

  /** The deployment environments, in declaration order. */
  const Envs: seq<string> := [
    "internal-dev", "internal-dev-sandbox", "internal-qa", "internal-qa-sandbox",
    "ref", "dev", "int", "sandbox", "prod"]

  predicate IsEnv(env: string) {
    env in Envs
  }

  /** No environment name holds a dot, so it reads back as one DNS label. */
  lemma EnvsHaveNoDot(env: string)
    requires IsEnv(env)
    ensures '.' !in env
  {
    var i :| 0 <= i < |Envs| && Envs[i] == env;
    assert i < 4 || i >= 4;
  }

  /** How a command stops short of printing its reply. */
  datatype CommandError =
    | UsageError(message: string)              // click.UsageError
    | BadChoice(env: string)                   // click.Choice rejects the environment
    | BadArgumentUsage(message: string)        // click.BadArgumentUsage
    | Aborted                                  // click.Abort after a declined prompt
    | SpecFailed(error: Spec.SpecError)        // `spec.resolve` raised
    | MissingArgument(parameter: string)       // TypeError: a required positional argument not passed
    | NotAssignable                            // TypeError: `spec["servers"] = …` on a non-dict refuses item assignment
    | ValueErrorRaised(message: string)
    | IsADirectory(path: string)               // `open` on a directory
    | NotJson(call: ApiCall)                   // `resp.json()` raised

  /** The server: the parsed body of the reply to each request, None when
      the body is not JSON. */
  type Server = ApiCall -> Option<Json>

  /** What a command did: the prompts it showed, the requests it sent in
      order, and the reply to its last request (which every command but
      `secret delete` prints) or the error it ended with. */
  datatype Run = Run(prompts: seq<string>, calls: seq<ApiCall>, result: Result<Option<Json>, CommandError>)

  /** Send one request whose reply must be JSON; that reply is the result. */
  function Reply(server: Server, prompts: seq<string>, calls: seq<ApiCall>, call: ApiCall): (r: Run)
    ensures r.prompts == prompts && r.calls == calls + [call]
    ensures r.result.Ok? <==> server(call).Some?
    ensures r.result.Ok? ==> r.result.value == server(call)
    ensures r.result.Err? ==> r.result.error == NotJson(call)
  {
    match Body(server(call))
    case Ok(body) => Run(prompts, calls + [call], Ok(Some(body)))
    case Err(_) => Run(prompts, calls + [call], Err(NotJson(call)))
  }
}

=== FILE: compare_version.dfy ===
/** The release-version gate of scripts/compare_version.py: a candidate
    version is accepted only when it bumps exactly one of major, minor or
    patch by one and resets the lower components. */
module CompareVersion {
  import opened Wrappers
  import opened Strings

  /** `Version(major, minor, micro)`, a named triple of Python ints. */
  datatype Version = Version(major: int, minor: int, micro: int)

  /** Why `parse` raises: `int(x)` rejects a piece (ValueError), or the number
      of pieces is not three (TypeError from `Version(*...)`). */
  datatype ParseError = NotAnInteger(piece: string) | WrongArity(pieces: nat)

  /** `int(x)` for an optionally signed run of ASCII digits. */
  function ParseInt(s: string): (r: Option<int>)
    ensures r.Some? ==> |s| > 0
  {
    if |s| == 0 then None
    else if s[0] == '-' || s[0] == '+' then
      var digits := s[1..];
      if |digits| > 0 && AllDigits(digits) then
        var v: int := DigitsValue(digits);
        Some(if s[0] == '-' then -v else v)
      else None
    else if AllDigits(s) then Some(DigitsValue(s))
    else None
  }

  /** Index of the first piece `int` rejects, if any. */
  function FirstBadPiece(pieces: seq<string>): (r: Option<nat>)
    ensures r.Some? ==> r.value < |pieces| && ParseInt(pieces[r.value]).None?
    ensures r.None? ==> forall i :: 0 <= i < |pieces| ==> ParseInt(pieces[i]).Some?
  {
    if |pieces| == 0 then None
    else if ParseInt(pieces[0]).None? then Some(0)
    else
      match FirstBadPiece(pieces[1..])
      case None => None
      case Some(i) => Some(i + 1)
  }

  /** `parse(version)`: split on dots, convert every piece with `int`, then
      build the triple. */
  function Parse(text: string): (r: Result<Version, ParseError>)
    ensures r.Ok? <==>
      |Split(text, '.')| == 3 && forall i :: 0 <= i < 3 ==> ParseInt(Split(text, '.')[i]).Some?
    ensures r.Ok? ==>
      && Some(r.value.major) == ParseInt(Split(text, '.')[0])
      && Some(r.value.minor) == ParseInt(Split(text, '.')[1])
      && Some(r.value.micro) == ParseInt(Split(text, '.')[2])
  {
    var pieces := Split(text, '.');
    match FirstBadPiece(pieces)
    case Some(i) => Err(NotAnInteger(pieces[i]))
    case None =>
      if |pieces| != 3 then Err(WrongArity(|pieces|))
      else Ok(Version(ParseInt(pieces[0]).value, ParseInt(pieces[1]).value, ParseInt(pieces[2]).value))
  }

  /** `str(n)` for a Python int. */
  function IntText(n: int): string {
    if n < 0 then "-" + Decimal(-n) else Decimal(n)
  }

  /** The dotted text `"a.b.c"` of a version. */
  function Format(v: Version): string {
    Join([IntText(v.major), IntText(v.minor), IntText(v.micro)], '.')
  }

  lemma ParseIntText(n: int)
    ensures ParseInt(IntText(n)) == Some(n)
    ensures '.' !in IntText(n)
  {
    var s := IntText(n);
    if n < 0 {
      var d := Decimal(-n);
      DecimalValue(-n);
      assert s[0] == '-' && s[1..] == d;
      forall i | 0 <= i < |s| ensures s[i] == '-' || IsDigit(s[i]) {
        if i > 0 { assert s[i] == d[i - 1]; }
      }
    } else {
      DecimalValue(n);
      assert IsDigit(s[0]);
    }
    NoDot(s);
  }

  lemma NoDot(s: string)
    requires forall i :: 0 <= i < |s| ==> s[i] == '-' || IsDigit(s[i])
    ensures '.' !in s
  {
  }

  /** `parse` reads back every version it could have been given as text. */
  lemma ParseFormat(v: Version)
    ensures Parse(Format(v)) == Ok(v)
  {
    var parts := [IntText(v.major), IntText(v.minor), IntText(v.micro)];
    ParseIntText(v.major);
    ParseIntText(v.minor);
    ParseIntText(v.micro);
    SplitJoin(parts, '.');
  }

  /** The acceptance rule of `main`: patch + 1; or minor + 1 with patch 0; or
      major + 1 with minor and patch 0. */
  predicate ValidBump(current: Version, candidate: Version)
    ensures ValidBump(current, candidate) ==> Before(current, candidate)
  {
    || (candidate.major == current.major && candidate.minor == current.minor
        && candidate.micro == current.micro + 1)
    || (candidate.major == current.major && candidate.minor == current.minor + 1
        && candidate.micro == 0)
    || (candidate.major == current.major + 1 && candidate.minor == 0
        && candidate.micro == 0)
  }

  /** Tuple order on versions (NamedTuple comparison). */
  predicate Before(a: Version, b: Version) {
    a.major < b.major
    || (a.major == b.major && a.minor < b.minor)
    || (a.major == b.major && a.minor == b.minor && a.micro < b.micro)
  }

  /** Every accepted candidate is strictly later than the current version;
      in particular the current version never passes as its own successor. */
  lemma ValidBumpIsLater(current: Version, candidate: Version)
    requires ValidBump(current, candidate)
    ensures Before(current, candidate)
    ensures candidate != current
  {
  }

  /** The accepted candidates are exactly the three next versions. */
  lemma ValidBumpCandidates(current: Version, candidate: Version)
    ensures ValidBump(current, candidate) <==>
      candidate in {Version(current.major, current.minor, current.micro + 1),
                    Version(current.major, current.minor + 1, 0),
                    Version(current.major + 1, 0, 0)}
  {
  }

  /** Bumping minor while keeping a non-zero patch is refused. */
  lemma MinorBumpNeedsPatchReset(current: Version, candidate: Version)
    requires candidate.major == current.major && candidate.minor == current.minor + 1
    requires candidate.micro != 0
    ensures !ValidBump(current, candidate)
  {
  }

  /** How `main` ends: exit 0 when the candidate is valid; exit 1 with a message
      when it is not; an uncaught exception (also exit status 1) when either
      argument does not parse. */
  datatype Outcome = Accepted | Rejected | Crashed(error: ParseError) {
    function ExitCode(): int {
      if Accepted? then 0 else 1
    }
  }

  /** `main(current, candidate)` */
  function Main(current: string, candidate: string): (o: Outcome)
    ensures o.ExitCode() == 0 <==>
      Parse(current).Ok? && Parse(candidate).Ok? && ValidBump(Parse(current).value, Parse(candidate).value)
    ensures o.Rejected? ==> o.ExitCode() == 1
    ensures o.Crashed? <==> Parse(current).Err? || Parse(candidate).Err?
  {
    match Parse(current)
    case Err(e) => Crashed(e)
    case Ok(cur) =>
      match Parse(candidate)
      case Err(e) => Crashed(e)
      case Ok(cand) => if ValidBump(cur, cand) then Accepted else Rejected
  }

  /** Handing `main` the current version twice always fails the gate. */
  lemma SameVersionRejected(v: Version)
    ensures Main(Format(v), Format(v)) == Rejected
  {
    ParseFormat(v);
  }
}

=== FILE: config.dfy ===
/** Per-API configuration of proxygen_cli/config.py: the field validators that
    pick a client and a user from the available credentials, the rule that an
    API is configured with a user or a machine user but not both, and the
    in-memory store that `set_api_config` and `get` maintain. */
module Config {
  import opened Wrappers
  import Strings
  import ProxygenApi

  /** The default of `ApiConfig.endpoint_url`, `https://proxygen.ptl.api.platform.nhs.uk`, kept
      as its scheme and host. */
  const DefaultScheme := "https"
  const DefaultHost := "proxygen.ptl.api.platform.nhs.uk"
  const DefaultEndpoint := DefaultScheme + "://" + DefaultHost

  /** A validated `ApiConfig`. */
  datatype ApiConfig = ApiConfig(
    name: Option<string>,
    client: Option<string>,
    user: Option<string>,
    machineUser: Option<string>,
    endpointUrl: string,
    output: string)

  /** Field values as keyword arguments or as `ApiConfig.dict()`: a key may be
      absent, or present with a string or None. */
  type Fields = map<string, Option<string>>

  datatype ConfigError = ConfigError(field: string, message: string)

  /** A present, non-empty value: Python truthiness of an optional string. */
  predicate Truthy(v: Option<string>) {
    v.Some? && v.value != ""
  }

  /** `validate_client`: no client and exactly one available id picks it; no
      client otherwise is an error; a given client must be an available id. */
  function ValidateClient(client: Option<string>, ids: seq<string>): (r: Result<string, string>)
    ensures client.None? ==> (r.Ok? <==> |ids| == 1)
    ensures client.None? && |ids| == 1 ==> r == Ok(ids[0])
    ensures client.Some? ==> (r.Ok? <==> client.value in ids)
    ensures client.Some? && r.Ok? ==> r.value == client.value
  {
    if client.None? && |ids| == 1 then Ok(ids[0])
    else if client.None? then Err("Client not specified, but mutiple available")
    else if client.value in ids then Ok(client.value)
    else Err("No credentials matching client '" + client.value + "'.")
  }

  /** `validate_user` for `user` and for `machine_user`: no name and exactly
      one candidate picks it; no name otherwise stays None; a given name must
      be a candidate. */
  function ValidateUser(name: Option<string>, candidates: seq<string>): (r: Result<Option<string>, string>)
    ensures name.None? && |candidates| == 1 ==> r == Ok(Some(candidates[0]))
    ensures name.None? && |candidates| != 1 ==> r == Ok(None)
    ensures name.Some? ==> (r.Ok? <==> name.value in candidates)
    ensures name.Some? && r.Ok? ==> r.value == name
  {
    if name.None? && |candidates| == 1 then Ok(Some(candidates[0]))
    else if name.Some? && name.value !in candidates then Err("No credentials matching user '" + name.value + "'.")
    else Ok(name)
  }

  /** The value given for `key`, or None when it is absent. */
  function Given(fields: Fields, key: string): Option<string> {
    if key in fields then fields[key] else None
  }

  /** The credentials an `ApiConfig` may refer to. */
  datatype Available = Available(clientIds: seq<string>, users: seq<string>, machineUsers: seq<string>)

  /** How constructing an `ApiConfig` can fail: a validation error listing
      the failed fields, or an exception that escapes the validators. */
  datatype Failure = Invalid(errors: seq<ConfigError>) | KeyErrorRaised(key: string) | TypeErrorRaised(message: string)

  /** The values a root validator receives: every field whose own validator
      succeeded, under its field name. */
  type Values = map<string, Option<string>>

  /** `only_user_or_machine` as written: on a clash it formats `values['api']`,
      a key no field provides, so the lookup raises KeyError before the
      intended message is built. */
  function OnlyUserOrMachineAsWritten(values: Values): (r: Result<Values, Failure>)
    ensures r.Ok? <==> !(Truthy(Given(values, "user")) && Truthy(Given(values, "machine_user")))
    ensures r.Ok? ==> r.value == values
  {
    if Truthy(Given(values, "user")) && Truthy(Given(values, "machine_user")) then
      if "api" in values then Err(Invalid([ConfigError("__root__", "Please choose one of user/machine_user.")]))
      else Err(KeyErrorRaised("api"))
    else Ok(values)
  }

  /** `only_user_or_machine` as evidently intended: a clash is a validation
      error naming the API. */
  function OnlyUserOrMachine(values: Values): (r: Result<Values, ConfigError>)
    ensures r.Ok? <==> !(Truthy(Given(values, "user")) && Truthy(Given(values, "machine_user")))
    ensures r.Ok? ==> r.value == values
    ensures r.Err? ==> r.error.field == "__root__"
  {
    if Truthy(Given(values, "user")) && Truthy(Given(values, "machine_user")) then
      var name := if Given(values, "name").Some? then Given(values, "name").value else "None";
      Err(ConfigError("__root__", "Invalid config for [" + name + "]. Please choose one of user/machine_user."))
    else Ok(values)
  }

  /** The values the field validators hand to the root validator never hold
      an `api` key, so the validator as written turns every clash into a
      KeyError rather than a validation error. */
  lemma OnlyUserOrMachineRaisesKeyError(user: string, machine: string, others: Values)
    requires user != "" && machine != ""
    requires "api" !in others
    ensures OnlyUserOrMachineAsWritten(others["user" := Some(user)]["machine_user" := Some(machine)])
      == Err(KeyErrorRaised("api"))
    ensures OnlyUserOrMachine(others["user" := Some(user)]["machine_user" := Some(machine)]).Err?
  {
  }

  /** The `AnyUrl` field `endpoint_url`: the default when absent; otherwise
      a URL with a scheme and an authority. */
  function ValidateEndpoint(fields: Fields): (r: Result<string, string>)
    ensures r.Ok? ==> ProxygenApi.IsAbsoluteUrl(r.value)
    ensures "endpoint_url" !in fields ==> r == Ok(DefaultEndpoint)
    ensures "endpoint_url" in fields ==>
      (r.Ok? <==> fields["endpoint_url"].Some? && ProxygenApi.IsAbsoluteUrl(fields["endpoint_url"].value))
    ensures "endpoint_url" in fields && r.Ok? ==> r.value == fields["endpoint_url"].value
  {
    if "endpoint_url" !in fields then DefaultEndpointIsUrl(); Ok(DefaultEndpoint)
    else if fields["endpoint_url"].None? then Err("none is not an allowed value")
    else if !ProxygenApi.IsAbsoluteUrl(fields["endpoint_url"].value) then Err("invalid or missing URL scheme")
    else Ok(fields["endpoint_url"].value)
  }

  /** The default endpoint has a scheme and an authority. */
  lemma DefaultEndpointIsUrl()
    ensures ProxygenApi.IsAbsoluteUrl(DefaultEndpoint)
  {
    ProxygenApi.SchemeAndAuthority(DefaultScheme, DefaultHost);
  }

  /** Adds `key := v` to the root validator's values when the field validated. */
  function WithField<T>(values: Values, key: string, v: Result<Option<string>, T>): Values {
    if v.Ok? then values[key := v.value] else values
  }

  /** Constructing an `ApiConfig`: each field validator in declaration order,
      then the root check on the fields that validated. Unknown keys are
      ignored. */
  function MakeApiConfig(fields: Fields, avail: Available): (r: Result<ApiConfig, Failure>)
    ensures r.Ok? ==> !(Truthy(r.value.user) && Truthy(r.value.machineUser))
    ensures r.Ok? ==> r.value.client.Some? && r.value.client.value in avail.clientIds
    ensures r.Ok? ==> r.value.output == "json" || r.value.output == "yaml"
    ensures r.Ok? ==> ProxygenApi.IsAbsoluteUrl(r.value.endpointUrl)
    ensures r.Ok? && "endpoint_url" !in fields ==> r.value.endpointUrl == DefaultEndpoint
    ensures r.Ok? && "endpoint_url" in fields ==> fields["endpoint_url"] == Some(r.value.endpointUrl)
    ensures r.Ok? && "output" !in fields ==> r.value.output == "yaml"
    ensures r.Ok? && "output" in fields ==> fields["output"] == Some(r.value.output)
    ensures r.Ok? && r.value.user.Some? ==> r.value.user.value in avail.users
    ensures r.Ok? && r.value.machineUser.Some? ==> r.value.machineUser.value in avail.machineUsers
    ensures r.Ok? ==> r.value.name == Given(fields, "name")
    ensures r.Ok? && Given(fields, "client").Some? ==> r.value.client == Given(fields, "client")
    ensures r.Ok? && Given(fields, "user").Some? ==> r.value.user == Given(fields, "user")
    ensures r.Ok? && Given(fields, "machine_user").Some? ==> r.value.machineUser == Given(fields, "machine_user")
    ensures r.Err? ==> r.error.Invalid? && |r.error.errors| > 0
  {
    var client := ValidateClient(Given(fields, "client"), avail.clientIds);
    var user := ValidateUser(Given(fields, "user"), avail.users);
    var machine := ValidateUser(Given(fields, "machine_user"), avail.machineUsers);
    var endpoint := ValidateEndpoint(fields);
    var output := ValidateOutput(fields);
    var values := WithField(WithField(map["name" := Given(fields, "name")], "user", user), "machine_user", machine);
    var root := OnlyUserOrMachine(values);
    var errors :=
      ErrorOf("client", client) + ErrorOf("user", user) + ErrorOf("machine_user", machine)
      + ErrorOf("endpoint_url", endpoint) + ErrorOf("output", output)
      + (if root.Err? then [root.error] else []);
    if |errors| > 0 then Err(Invalid(errors))
    else
      assert client.Ok? && user.Ok? && machine.Ok? && endpoint.Ok? && output.Ok? && root.Ok?;
      assert values == map["name" := Given(fields, "name")]["user" := user.value]["machine_user" := machine.value];
      RootValues(Given(fields, "name"), user.value, machine.value);
      Ok(ApiConfig(Given(fields, "name"), Some(client.value), user.value, machine.value, endpoint.value, output.value))
  }

  /** What the root validator reads back from the values of the three
      fields it sees. */
  lemma RootValues(name: Option<string>, user: Option<string>, machine: Option<string>)
    ensures var values := map["name" := name]["user" := user]["machine_user" := machine];
      Given(values, "user") == user && Given(values, "machine_user") == machine
  {
    assert "user" != "machine_user";
  }

  /** An `endpoint_url` that is None or not a URL is reported against that
      field, and the configuration is refused. */
  lemma BadEndpointRefused(fields: Fields, avail: Available)
    requires "endpoint_url" in fields
    requires fields["endpoint_url"].None? || !ProxygenApi.IsAbsoluteUrl(fields["endpoint_url"].value)
    ensures MakeApiConfig(fields, avail).Err? && MakeApiConfig(fields, avail).error.Invalid?
    ensures ConfigError("endpoint_url", ValidateEndpoint(fields).error) in MakeApiConfig(fields, avail).error.errors
  {
  }

  /** The error a field validator reported, if it failed. */
  function ErrorOf<T>(field: string, r: Result<T, string>): (e: seq<ConfigError>)
    ensures r.Ok? <==> |e| == 0
    ensures r.Err? ==> e == [ConfigError(field, r.error)]
  {
    if r.Err? then [ConfigError(field, r.error)] else []
  }

  /** The `Literal["json", "yaml"]` field `output`, `yaml` when absent. */
  function ValidateOutput(fields: Fields): (r: Result<string, string>)
    ensures r.Ok? ==> r.value == "json" || r.value == "yaml"
    ensures "output" !in fields ==> r == Ok("yaml")
    ensures "output" in fields ==> (r.Ok? <==> fields["output"] == Some("json") || fields["output"] == Some("yaml"))
    ensures "output" in fields && r.Ok? ==> fields["output"] == Some(r.value)
  {
    if "output" !in fields then Ok("yaml")
    else if fields["output"] == Some("json") || fields["output"] == Some("yaml") then Ok(fields["output"].value)
    else Err("unexpected value; permitted: 'json', 'yaml'")
  }

  /** Configuring both a user and a machine user is an error. */
  lemma UserAndMachineExclusive(fields: Fields, avail: Available)
    requires Truthy(Given(fields, "user")) && Given(fields, "user").value in avail.users
    requires Truthy(Given(fields, "machine_user")) && Given(fields, "machine_user").value in avail.machineUsers
    ensures MakeApiConfig(fields, avail).Err?
  {
  }

  /** Defaulting happens before the exclusivity check: with one user and one
      machine user available and neither named, both are picked and the
      configuration is refused. */
  lemma DefaultsCanClash(fields: Fields, avail: Available)
    requires "user" !in fields && "machine_user" !in fields
    requires |avail.users| == 1 && avail.users[0] != ""
    requires |avail.machineUsers| == 1 && avail.machineUsers[0] != ""
    ensures MakeApiConfig(fields, avail).Err?
  {
  }

  /** The fields of an `ApiConfig`. */
  const FieldNames: set<string> := {"name", "client", "user", "machine_user", "endpoint_url", "output"}

  /** `ApiConfig.dict()` */
  function ToFields(c: ApiConfig): Fields {
    map["name" := c.name, "client" := c.client, "user" := c.user, "machine_user" := c.machineUser,
        "endpoint_url" := Some(c.endpointUrl), "output" := Some(c.output)]
  }

  /** Re-validating a validated configuration gives it back unchanged, so an
      update that passes no keyword arguments changes nothing. */
  lemma RevalidateIsIdentity(fields: Fields, avail: Available)
    requires MakeApiConfig(fields, avail).Ok?
    ensures MakeApiConfig(ToFields(MakeApiConfig(fields, avail).value), avail) == MakeApiConfig(fields, avail)
  {
    var c := MakeApiConfig(fields, avail).value;
    FieldsOf(c);
    RevalidateUser(Given(fields, "user"), avail.users);
    RevalidateUser(Given(fields, "machine_user"), avail.machineUsers);
  }

  /** What each field validator reads back from `ApiConfig.dict()`. */
  lemma FieldsOf(c: ApiConfig)
    requires ProxygenApi.IsAbsoluteUrl(c.endpointUrl)
    requires c.output == "json" || c.output == "yaml"
    ensures Given(ToFields(c), "name") == c.name && Given(ToFields(c), "client") == c.client
    ensures Given(ToFields(c), "user") == c.user && Given(ToFields(c), "machine_user") == c.machineUser
    ensures ValidateEndpoint(ToFields(c)) == Ok(c.endpointUrl)
    ensures ValidateOutput(ToFields(c)) == Ok(c.output)
  {
    var f := ToFields(c);
    assert f["endpoint_url"] == Some(c.endpointUrl) && f["output"] == Some(c.output);
  }

  /** A name `validate_user` accepted or picked validates to itself. */
  lemma RevalidateUser(name: Option<string>, candidates: seq<string>)
    requires ValidateUser(name, candidates).Ok?
    ensures ValidateUser(ValidateUser(name, candidates).value, candidates) == ValidateUser(name, candidates)
  {
  }

  /** The module-level state: the configured APIs and the default API name
      (`None` is itself a possible key, as in the Python dict). */
  datatype Store = Store(apis: map<Option<string>, ApiConfig>, defaultApi: Option<string>)

  /** A configuration holds every value it was built from: its name is the
      `name` given, and each field given a value other than None has that
      value. (A None client or user is the one spot where validation may
      pick a value of its own.) */
  predicate Keeps(fields: Fields, c: ApiConfig) {
    && c.name == Given(fields, "name")
    && forall k :: k in fields && k in ToFields(c) && fields[k].Some? ==> ToFields(c)[k] == fields[k]
  }

  /** Every configuration `MakeApiConfig` builds keeps its fields. */
  lemma MadeConfigKeeps(fields: Fields, avail: Available)
    requires MakeApiConfig(fields, avail).Ok?
    ensures Keeps(fields, MakeApiConfig(fields, avail).value)
  {
    KeepsByField(fields, MakeApiConfig(fields, avail).value);
  }

  /** A configuration keeps its fields when it holds each given field. */
  lemma KeepsByField(fields: Fields, c: ApiConfig)
    requires c.name == Given(fields, "name")
    requires Given(fields, "client").Some? ==> c.client == Given(fields, "client")
    requires Given(fields, "user").Some? ==> c.user == Given(fields, "user")
    requires Given(fields, "machine_user").Some? ==> c.machineUser == Given(fields, "machine_user")
    requires "endpoint_url" in fields ==> fields["endpoint_url"] == Some(c.endpointUrl)
    requires "output" in fields ==> fields["output"] == Some(c.output)
    ensures Keeps(fields, c)
  {
    forall k | k in fields && k in ToFields(c) && fields[k].Some?
      ensures ToFields(c)[k] == fields[k]
    {
      assert Given(fields, k) == fields[k];
    }
  }

  /** `set_api_config(api_name, default, **kwargs)`: create the entry from the
      keyword arguments, or merge them over the existing entry's fields;
      then, with `default`, make this API the default. */
  function SetApiConfig(s: Store, apiName: Option<string>, default: bool, kwargs: Fields, avail: Available):
    (r: Result<(Store, ApiConfig), Failure>)
    ensures r.Ok? ==> r.value.0.apis == s.apis[apiName := r.value.1]
    ensures r.Ok? ==> r.value.0.defaultApi == (if default then apiName else s.defaultApi)
    ensures apiName !in s.apis && "name" in kwargs ==> r.Err? && r.error.TypeErrorRaised?
    ensures r.Ok? && apiName !in s.apis ==> Keeps(kwargs[("name") := apiName], r.value.1)
    ensures r.Ok? && apiName in s.apis ==> Keeps(ToFields(s.apis[apiName]) + kwargs, r.value.1)
  {
    var fields :=
      if apiName !in s.apis then kwargs[("name") := apiName]
      else ToFields(s.apis[apiName]) + kwargs;
    if apiName !in s.apis && "name" in kwargs then
      Err(TypeErrorRaised("got multiple values for keyword argument 'name'"))
    else
      var c :- MakeApiConfig(fields, avail);
      MadeConfigKeeps(fields, avail);
      Ok((Store(s.apis[apiName := c], if default then apiName else s.defaultApi), c))
  }

  /** A new entry is named after its API, and every keyword argument with a
      value is what it holds. */
  lemma NewEntryKeepsArguments(s: Store, apiName: Option<string>, default: bool, kwargs: Fields, avail: Available, k: string)
    requires SetApiConfig(s, apiName, default, kwargs, avail).Ok? && apiName !in s.apis
    requires k in kwargs && k in FieldNames && kwargs[k].Some?
    ensures SetApiConfig(s, apiName, default, kwargs, avail).value.1.name == apiName
    ensures ToFields(SetApiConfig(s, apiName, default, kwargs, avail).value.1)[k] == kwargs[k]
  {
    var fields := kwargs[("name") := apiName];
    assert k != "name";
    assert k in fields && fields[k] == kwargs[k];
  }

  /** On an update, a keyword argument with a value overrides the stored
      field, and a `name` argument renames the entry. */
  lemma UpdateOverrides(s: Store, apiName: Option<string>, default: bool, kwargs: Fields, avail: Available, k: string)
    requires SetApiConfig(s, apiName, default, kwargs, avail).Ok? && apiName in s.apis
    requires k in kwargs && k in FieldNames && (kwargs[k].Some? || k == "name")
    ensures ToFields(SetApiConfig(s, apiName, default, kwargs, avail).value.1)[k] == kwargs[k]
  {
    var fields := ToFields(s.apis[apiName]) + kwargs;
    assert k in fields && fields[k] == kwargs[k];
    assert Given(fields, "name") == fields["name"];
  }

  /** On an update, a field the keyword arguments leave out keeps its stored
      value: the name, client, endpoint and output always, a user or machine
      user whenever one was stored. */
  lemma UpdateKeepsUnmentioned(s: Store, apiName: Option<string>, default: bool, kwargs: Fields, avail: Available, k: string)
    requires SetApiConfig(s, apiName, default, kwargs, avail).Ok? && apiName in s.apis
    requires k in FieldNames && k !in kwargs
    requires ToFields(s.apis[apiName])[k].Some? || k == "name"
    ensures ToFields(SetApiConfig(s, apiName, default, kwargs, avail).value.1)[k] == ToFields(s.apis[apiName])[k]
  {
    var fields := ToFields(s.apis[apiName]) + kwargs;
    assert k in fields && fields[k] == ToFields(s.apis[apiName])[k];
    assert Given(fields, "name") == fields["name"];
  }

  /** Changing only the output of an entry that was validated against the
      same credentials stores that entry with the new output and nothing
      else changed. */
  lemma UpdateOutputOnly(s: Store, apiName: Option<string>, default: bool, avail: Available, fields: Fields, output: string)
    requires apiName in s.apis
    requires MakeApiConfig(fields, avail).Ok? && s.apis[apiName] == MakeApiConfig(fields, avail).value
    requires output == "json" || output == "yaml"
    ensures SetApiConfig(s, apiName, default, map["output" := Some(output)], avail).Ok?
    ensures SetApiConfig(s, apiName, default, map["output" := Some(output)], avail).value.1
         == s.apis[apiName].(output := output)
  {
    OutputOverride(s.apis[apiName], output);
    RevalidateWithOutput(fields, avail, output);
  }

  /** Merging a new output over a configuration's fields gives the fields
      of the configuration with that output. */
  lemma OutputOverride(c: ApiConfig, output: string)
    ensures ToFields(c) + map["output" := Some(output)] == ToFields(c.(output := output))
  {
  }

  /** A validated configuration with another permitted output validates to
      itself. */
  lemma RevalidateWithOutput(fields: Fields, avail: Available, output: string)
    requires MakeApiConfig(fields, avail).Ok?
    requires output == "json" || output == "yaml"
    ensures var c := MakeApiConfig(fields, avail).value.(output := output);
      MakeApiConfig(ToFields(c), avail) == Ok(c)
  {
    var c := MakeApiConfig(fields, avail).value;
    FieldsOf(c);
    FieldsOf(c.(output := output));
    RevalidateIsIdentity(fields, avail);
  }

  /** `get(api_name)`: the named API's configuration; no name means the
      default API. A name with no entry raises KeyError. */
  function Get(s: Store, apiName: Option<string>): (r: Result<ApiConfig, string>)
    ensures apiName.Some? ==> (r.Ok? <==> apiName in s.apis)
    ensures apiName.None? ==> (r.Ok? <==> s.defaultApi in s.apis)
    ensures r.Ok? ==> r.value == s.apis[if apiName.None? then s.defaultApi else apiName]
  {
    var key := if apiName.None? then s.defaultApi else apiName;
    if key in s.apis then Ok(s.apis[key]) else Err("KeyError")
  }

  /** After `set_api_config(name, default=True, ...)`, `get()` returns the
      configuration just stored, and so does `get(name)`. */
  lemma SetDefaultThenGet(s: Store, apiName: Option<string>, kwargs: Fields, avail: Available)
    requires SetApiConfig(s, apiName, true, kwargs, avail).Ok?
    ensures var (s', c) := SetApiConfig(s, apiName, true, kwargs, avail).value;
      Get(s', None) == Ok(c) && (apiName.Some? ==> Get(s', apiName) == Ok(c))
  {
  }

  /** Updating an entry that was validated against the same credentials with
      no keyword arguments stores the same configuration again. */
  lemma EmptyUpdateKeepsConfig(s: Store, apiName: Option<string>, default: bool, avail: Available, fields: Fields)
    requires apiName in s.apis
    requires MakeApiConfig(fields, avail).Ok? && s.apis[apiName] == MakeApiConfig(fields, avail).value
    ensures SetApiConfig(s, apiName, default, map[], avail).Ok?
    ensures SetApiConfig(s, apiName, default, map[], avail).value.1 == s.apis[apiName]
  {
    assert ToFields(s.apis[apiName]) + map[] == ToFields(s.apis[apiName]);
    RevalidateIsIdentity(fields, avail);
  }

  /** Setting one API leaves every other API's configuration as it was. */
  lemma SetApiConfigFrame(s: Store, apiName: Option<string>, default: bool, kwargs: Fields, avail: Available, other: Option<string>)
    requires SetApiConfig(s, apiName, default, kwargs, avail).Ok?
    requires other != apiName && other.Some?
    ensures Get(SetApiConfig(s, apiName, default, kwargs, avail).value.0, other) == Get(s, other)
  {
  }
}

=== FILE: credentials.dfy ===
/** Credential loading of proxygen_cli/lib/credentials.py: the field rules the
    settings class enforces, resolution of the private key path under the
    `.proxygen` directory, and the guard that turns a failed load into a usage
    error. */
module Credentials {
  import opened Wrappers
  import opened Strings
  import opened Paths

  /** The default of `base_url`: the producers' realm of the identity
      service. */
  const IdentityHost := "identity.prod.api.platform.nhs.uk"
  const RealmPath := "/auth/realms/api-producers"
  const DefaultBaseUrl := "https" + "://" + IdentityHost + RealmPath

  /** A setting that is not `Optional`: left out, given as null, or given.
      pydantic tells the first two apart for such fields ("field required",
      "none is not an allowed value"); for an `Optional` field both are
      None. */
  datatype Setting = Absent | Null | Given(value: string)

  /** The settings as supplied (keyword arguments, environment, YAML file):
      any field may be absent. */
  datatype RawCredentials = RawCredentials(
    baseUrl: Setting,
    privateKeyPath: Option<string>,
    clientId: Setting,
    clientSecret: Option<string>,
    username: Option<string>,
    password: Option<string>)

  /** A validated credential set. */
  datatype Credentials = Credentials(
    baseUrl: string,
    privateKeyPath: Option<string>,
    clientId: string,
    clientSecret: Option<string>,
    username: Option<string>,
    password: Option<string>)

  /** One validation failure: the field and the message reported for it. */
  datatype FieldError = FieldError(field: string, message: string)

  const FieldRequired := "field required"
  const NoneNotAllowed := "none is not an allowed value"
  const SchemeMissing := "invalid or missing URL scheme"
  const SchemeNotPermitted := "URL scheme not permitted"
  const HostInvalid := "URL host invalid"

  /** A character that may open a URL scheme. */
  predicate SchemeStart(c: char) {
    'a' <= c <= 'z' || 'A' <= c <= 'Z'
  }

  /** A character that may continue a URL scheme. */
  predicate SchemeChar(c: char) {
    SchemeStart(c) || IsDigit(c) || c == '+' || c == '-' || c == '.'
  }

  /** The scheme pydantic's URL pattern finds at the start of `url`: a letter
      and at least one more scheme character, ended by the first `:`. */
  function UrlScheme(url: string): (r: Option<string>)
    ensures r.Some? ==> |r.value| >= 2 && StartsWith(url, r.value + ":") && ':' !in r.value
    ensures r.Some? ==> SchemeStart(r.value[0]) && forall k :: 1 <= k < |r.value| ==> SchemeChar(r.value[k])
  {
    match IndexOf(url, ':')
    case None => None
    case Some(i) =>
      if i >= 2 && SchemeStart(url[0]) && forall k :: 1 <= k < i ==> SchemeChar(url[k]) then
        assert url[..i + 1] == url[..i] + ":";
        Some(url[..i])
      else None
  }

  /** `c.lower()` for an ASCII character. */
  function LowerChar(c: char): char {
    if 'A' <= c <= 'Z' then (c as int + 32) as char else c
  }

  /** `s.lower()` for ASCII text. */
  function Lower(s: string): (r: string)
    ensures |r| == |s| && forall k :: 0 <= k < |s| ==> r[k] == LowerChar(s[k])
  {
    seq(|s|, k requires 0 <= k < |s| => LowerChar(s[k]))
  }

  /** The schemes `AnyHttpUrl` allows, in any case. */
  predicate HttpScheme(scheme: string) {
    Lower(scheme) == "http" || Lower(scheme) == "https"
  }

  /** The host after `scheme:` in the URL pattern: nothing unless `//`
      follows; then the authority up to the first `/`, `?` or `#`, after its
      last `@` and before its first `:`. */
  function UrlHost(rest: string): (h: string)
    ensures h != "" ==> StartsWith(rest, "//")
    ensures '@' !in h && ':' !in h && '/' !in h
  {
    if !StartsWith(rest, "//") then ""
    else
      var authority := AuthorityOf(rest[2..]);
      var host := AfterLast(authority, '@');
      match IndexOf(host, ':')
      case Some(i) => host[..i]
      case None => host
  }

  /** The text before the first `/`, `?` or `#`. */
  function AuthorityOf(s: string): (a: string)
    ensures StartsWith(s, a) && '/' !in a && '?' !in a && '#' !in a
    ensures |a| < |s| ==> s[|a|] == '/' || s[|a|] == '?' || s[|a|] == '#'
  {
    if |s| == 0 || s[0] == '/' || s[0] == '?' || s[0] == '#' then ""
    else [s[0]] + AuthorityOf(s[1..])
  }

  /** The text after the last `d`, or all of `s` when there is none. */
  function AfterLast(s: string, d: char): (r: string)
    ensures d !in r && |r| <= |s| && r == s[|s| - |r|..]
    ensures |r| < |s| ==> s[|s| - |r| - 1] == d
    decreases |s|
  {
    match IndexOf(s, d)
    case None => s
    case Some(i) => AfterLast(s[i + 1..], d)
  }

  /** pydantic's `AnyHttpUrl` check, in its order: a scheme must be found,
      it must be `http` or `https` in any case, and a host must follow
      `//`. A URL that passes is kept as given. */
  function CheckHttpUrl(url: string): (r: Result<string, string>)
    ensures r.Ok? ==> r.value == url
    ensures r == Err(SchemeMissing) <==> UrlScheme(url).None?
    ensures r == Err(SchemeNotPermitted) <==> UrlScheme(url).Some? && !HttpScheme(UrlScheme(url).value)
    ensures r.Ok? <==> (UrlScheme(url).Some? && HttpScheme(UrlScheme(url).value)
                        && UrlHost(url[|UrlScheme(url).value| + 1..]) != "")
    ensures r.Err? ==> r.error in {SchemeMissing, SchemeNotPermitted, HostInvalid}
  {
    match UrlScheme(url)
    case None => Err(SchemeMissing)
    case Some(scheme) =>
      if !HttpScheme(scheme) then Err(SchemeNotPermitted)
      else if UrlHost(url[|scheme| + 1..]) == "" then Err(HostInvalid)
      else Ok(url)
  }

  /** The check of `base_url`: the default when left out, a refusal when
      null, `AnyHttpUrl`'s check when given. */
  function CheckBaseUrl(s: Setting): (r: Result<string, string>)
    ensures s.Absent? ==> r == Ok(DefaultBaseUrl)
    ensures s.Null? ==> r == Err(NoneNotAllowed)
    ensures s.Given? ==> r == CheckHttpUrl(s.value)
  {
    match s
    case Absent => Ok(DefaultBaseUrl)
    case Null => Err(NoneNotAllowed)
    case Given(url) => CheckHttpUrl(url)
  }

  /** `validate_humans_users`: with no usable private key path a human field
      must be present; with one, any value (also None) is kept. `keyPath` is
      what validation of `private_key_path` left in `values`. */
  function ValidateHumanField(keyPath: Option<string>, value: Option<string>): (r: Result<Option<string>, string>)
    ensures r.Err? <==> keyPath.None? && value.None?
    ensures r.Err? ==> r.error == FieldRequired
    ensures r.Ok? ==> r.value == value
  {
    if keyPath.None? && value.None? then Err(FieldRequired) else Ok(value)
  }

  /** Where a private key path points, as `validate_private_key_path` and
      `private_key` write it: an absolute path as given, a relative one under
      the `.proxygen` directory `dotDir`. Both branches of the source come to
      what `joinpath` gives. */
  function KeyFile(dotDir: string, path: string): (f: string)
    ensures IsAbsolute(path) ==> f == Normal(path)
    ensures IsAbsolute(path) && IsNormal(path) ==> f == path
    ensures !IsAbsolute(path) && IsNormal(dotDir) && IsNormal(path) && dotDir != "/" && dotDir != "." && path != "." ==>
      f == dotDir + "/" + path
    ensures !IsAbsolute(path) ==> Parts(f) == Parts(dotDir) + Parts(path) && IsAbsolute(f) == IsAbsolute(dotDir)
  {
    if !IsAbsolute(path) && IsNormal(dotDir) && IsNormal(path) && dotDir != "/" && dotDir != "." && path != "." then
      JoinWithSeparator(dotDir, path);
      JoinPath(dotDir, path)
    else JoinPath(dotDir, path)
  }

  /** `validate_private_key_path`: an empty or absent path validates to None;
      otherwise the resolved file must exist and must not be a directory, and
      the resolved path is kept. The directory message names the given path
      after it was made a `pathlib.Path`, so in its normal form. */
  function ValidatePrivateKeyPath(path: Option<string>, fs: Fs<string>, dotDir: string): (r: Result<Option<string>, string>)
    ensures (path.None? || path == Some("")) ==> r == Ok(None)
    ensures r.Ok? && r.value.Some? ==>
      path.Some? && r.value.value == KeyFile(dotDir, path.value) && fs.IsFile(r.value.value)
    ensures path.Some? && path.value != "" && !fs.Exists(KeyFile(dotDir, path.value)) ==>
      r == Err(KeyFile(dotDir, path.value) + " does not exist")
    ensures path.Some? && path.value != "" && fs.IsDir(KeyFile(dotDir, path.value)) ==>
      r == Err(Normal(path.value) + " is a directory, not a file")
  {
    if path.None? || path.value == "" then Ok(None)
    else
      var file := KeyFile(dotDir, path.value);
      if !fs.Exists(file) then Err(file + " does not exist")
      else if fs.IsDir(file) then Err(Normal(path.value) + " is a directory, not a file")
      else Ok(Some(file))
  }

  /** A directory given as `./name/` is reported as `name`, the way
      `pathlib` writes it. */
  lemma DirectoryNamedAsPathlibWritesIt(fs: Fs<string>, dotDir: string, name: string)
    requires IsPart(name)
    requires fs.IsDir(KeyFile(dotDir, "./" + name + "/"))
    ensures ValidatePrivateKeyPath(Some("./" + name + "/"), fs, dotDir) == Err(name + " is a directory, not a file")
  {
    DotSlashAroundPart(name);
  }

  /** The name of the per-user settings directory. */
  const DotDirName := ".proxygen"

  /** The `.proxygen` directory under a home directory. */
  lemma DotDirUnderHome(home: string)
    requires IsNormal(home) && home != "/" && home != "."
    ensures JoinPath(home, DotDirName) == home + "/" + DotDirName
  {
    assert IsPart(DotDirName) by {
      assert forall i :: 0 <= i < |DotDirName| ==> DotDirName[i] != '/';
    }
    JoinName(home, DotDirName);
  }

  /** A relative key file name that does not exist is reported under
      `.proxygen` in the home directory, with the resolved path in the
      message. */
  lemma MissingRelativeKeyMessage(fs: Fs<string>, home: string, name: string)
    requires IsAbsolute(home) && IsNormal(home) && home != "/"
    requires IsPart(name)
    requires !fs.Exists(home + "/" + DotDirName + "/" + name)
    ensures ValidatePrivateKeyPath(Some(name), fs, JoinPath(home, DotDirName))
         == Err(home + "/" + DotDirName + "/" + name + " does not exist")
  {
    var dir := JoinPath(home, DotDirName);
    DotDirUnderHome(home);
    assert dir == home + "/" + DotDirName && |dir| > 1;
    assert dir + "/" + name == home + "/" + DotDirName + "/" + name;
    MissingKeyUnder(fs, dir, name);
  }

  /** A key file given by bare name that does not exist in the settings
      directory is reported with the directory in front of it. */
  lemma MissingKeyUnder(fs: Fs<string>, dir: string, name: string)
    requires IsNormal(dir) && dir != "/" && dir != "."
    requires IsPart(name)
    requires !fs.Exists(dir + "/" + name)
    ensures ValidatePrivateKeyPath(Some(name), fs, dir) == Err(dir + "/" + name + " does not exist")
  {
    JoinName(dir, name);
    assert KeyFile(dir, name) == dir + "/" + name;
  }

  /** The error for field `name`, if its check failed. */
  function ErrorOf<T>(name: string, r: Result<T, string>): seq<FieldError> {
    if r.Err? then [FieldError(name, r.error)] else []
  }

  /** Building the settings object: every field is checked in declaration
      order (base URL, private key path, client id, client secret, username,
      password) and every failure is reported. `client_id` is a plain `str`:
      left out it is required, null it is refused, and given it always
      passes `validate_humans_users`. */
  function Validate(raw: RawCredentials, fs: Fs<string>, dotDir: string): (r: Result<Credentials, seq<FieldError>>)
    ensures r.Err? ==> |r.error| > 0
    ensures r.Ok? <==> (CheckBaseUrl(raw.baseUrl).Ok? && ValidatePrivateKeyPath(raw.privateKeyPath, fs, dotDir).Ok?
                        && raw.clientId.Given?
                        && (ValidatePrivateKeyPath(raw.privateKeyPath, fs, dotDir).value.None? ==>
                              raw.clientSecret.Some? && raw.username.Some? && raw.password.Some?))
    ensures r.Ok? ==> r.value.baseUrl == (if raw.baseUrl.Given? then raw.baseUrl.value else DefaultBaseUrl)
    ensures r.Ok? ==> raw.clientId == Given(r.value.clientId)
    ensures r.Ok? && r.value.privateKeyPath.None? ==>
      r.value.username.Some? && r.value.password.Some? && r.value.clientSecret.Some?
    ensures r.Ok? && r.value.privateKeyPath.Some? ==> fs.IsFile(r.value.privateKeyPath.value)
    ensures r.Ok? ==>
      r.value.username == raw.username && r.value.password == raw.password && r.value.clientSecret == raw.clientSecret
    ensures CheckBaseUrl(raw.baseUrl).Err? ==> r.Err? && r.error[0] == FieldError("base_url", CheckBaseUrl(raw.baseUrl).error)
    ensures raw.clientId.Absent? ==> r.Err? && FieldError("client_id", FieldRequired) in r.error
    ensures raw.clientId.Null? ==> r.Err? && FieldError("client_id", NoneNotAllowed) in r.error
  {
    var base := CheckBaseUrl(raw.baseUrl);
    var key := ValidatePrivateKeyPath(raw.privateKeyPath, fs, dotDir);
    var keyValue := if key.Ok? then key.value else None;
    var id: Result<string, string> := match raw.clientId
      case Absent => Err(FieldRequired)
      case Null => Err(NoneNotAllowed)
      case Given(v) => Ok(v);
    var secret := ValidateHumanField(keyValue, raw.clientSecret);
    var user := ValidateHumanField(keyValue, raw.username);
    var pass := ValidateHumanField(keyValue, raw.password);
    var errors := ErrorOf("base_url", base) + ErrorOf("private_key_path", key) + ErrorOf("client_id", id)
      + ErrorOf("client_secret", secret) + ErrorOf("username", user) + ErrorOf("password", pass);
    if |errors| > 0 then Err(errors)
    else Ok(Credentials(base.value, keyValue, id.value, secret.value, user.value, pass.value))
  }

  /** A scheme written with scheme characters is found up to its `:`. */
  lemma SchemeFound(scheme: string, rest: string)
    requires |scheme| >= 2 && SchemeStart(scheme[0]) && forall k :: 1 <= k < |scheme| ==> SchemeChar(scheme[k])
    ensures UrlScheme(scheme + ":" + rest) == Some(scheme)
  {
    assert ':' !in scheme by {
      forall k | 0 <= k < |scheme| ensures scheme[k] != ':' {
        if k > 0 { assert SchemeChar(scheme[k]); }
      }
    }
    var url := scheme + ":" + rest;
    assert url == scheme + [':'] + rest;
    IndexOfAfterPrefix(scheme, ':', rest);
    assert url[..|scheme|] == scheme;
  }

  /** The authority of `host + tail` is `host` when `tail` starts where an
      authority ends. */
  lemma {:induction false} AuthorityBeforeTail(host: string, tail: string)
    requires forall k :: 0 <= k < |host| ==> host[k] != '/' && host[k] != '?' && host[k] != '#'
    requires tail == "" || tail[0] == '/' || tail[0] == '?' || tail[0] == '#'
    ensures AuthorityOf(host + tail) == host
  {
    if |host| > 0 {
      assert (host + tail)[1..] == host[1..] + tail;
      AuthorityBeforeTail(host[1..], tail);
    } else {
      assert host + tail == tail;
    }
  }

  /** A plain host after `//` is the host the URL pattern finds. */
  lemma HostFound(host: string, tail: string)
    requires forall k :: 0 <= k < |host| ==> host[k] != '/' && host[k] != '?' && host[k] != '#' && host[k] != '@' && host[k] != ':'
    requires tail == "" || tail[0] == '/' || tail[0] == '?' || tail[0] == '#'
    ensures UrlHost("//" + host + tail) == host
  {
    var rest := "//" + host + tail;
    assert StartsWith(rest, "//");
    assert rest[2..] == host + tail;
    AuthorityBeforeTail(host, tail);
    assert '@' !in host && ':' !in host;
  }

  /** An `http` or `https` scheme in any case, a plain host and a path, query
      or fragment after it make a URL `AnyHttpUrl` accepts as it is. */
  lemma HttpUrlAccepted(scheme: string, host: string, tail: string)
    requires HttpScheme(scheme)
    requires host != ""
    requires forall k :: 0 <= k < |host| ==> host[k] != '/' && host[k] != '?' && host[k] != '#' && host[k] != '@' && host[k] != ':'
    requires tail == "" || tail[0] == '/' || tail[0] == '?' || tail[0] == '#'
    ensures CheckHttpUrl(scheme + "://" + host + tail) == Ok(scheme + "://" + host + tail)
  {
    assert |scheme| >= 4 && forall k :: 0 <= k < |scheme| ==> SchemeStart(scheme[k]) by {
      forall k | 0 <= k < |scheme| ensures SchemeStart(scheme[k]) {
        assert 'a' <= Lower(scheme)[k] <= 'z';
      }
    }
    var url := scheme + "://" + host + tail;
    assert url == scheme + ":" + ("//" + host + tail);
    SchemeFound(scheme, "//" + host + tail);
    assert url[|scheme| + 1..] == "//" + host + tail;
    HostFound(host, tail);
  }

  /** The default base URL passes `AnyHttpUrl`'s check. */
  lemma DefaultBaseUrlValid()
    ensures CheckHttpUrl(DefaultBaseUrl) == Ok(DefaultBaseUrl)
  {
    assert Lower("https") == "https";
    assert forall k :: 0 <= k < |IdentityHost| ==> 'a' <= IdentityHost[k] <= 'z' || IdentityHost[k] == '.';
    HttpUrlAccepted("https", IdentityHost, RealmPath);
  }

  /** The scheme is compared without regard to case. */
  lemma UpperCaseSchemeAccepted(host: string)
    requires host != ""
    requires forall k :: 0 <= k < |host| ==> host[k] != '/' && host[k] != '?' && host[k] != '#' && host[k] != '@' && host[k] != ':'
    ensures CheckHttpUrl("HTTPS://" + host) == Ok("HTTPS://" + host)
  {
    assert Lower("HTTPS") == "https";
    assert "HTTPS://" + host == "HTTPS" + "://" + host + "";
    HttpUrlAccepted("HTTPS", host, "");
  }

  /** A scheme other than `http` or `https` is refused before the host is
      looked at. */
  lemma OtherSchemeRefused(scheme: string, rest: string)
    requires |scheme| >= 2 && SchemeStart(scheme[0]) && forall k :: 1 <= k < |scheme| ==> SchemeChar(scheme[k])
    requires !HttpScheme(scheme)
    ensures CheckHttpUrl(scheme + ":" + rest) == Err(SchemeNotPermitted)
  {
    SchemeFound(scheme, rest);
  }

  /** Without a host after `https://`, the URL is refused for its host. */
  lemma MissingHostRefused(tail: string)
    requires tail == "" || tail[0] == '/' || tail[0] == '?' || tail[0] == '#'
    ensures CheckHttpUrl("https://" + tail) == Err(HostInvalid)
  {
    assert Lower("https") == "https";
    assert SchemeStart('h') && SchemeChar('t') && SchemeChar('p') && SchemeChar('s');
    assert "https://" + tail == "https" + ":" + ("//" + "" + tail);
    SchemeFound("https", "//" + "" + tail);
    HostFound("", tail);
  }

  /** Text without a `:` has no scheme. */
  lemma NoSchemeRefused(url: string)
    requires ':' !in url
    ensures CheckHttpUrl(url) == Err(SchemeMissing)
  {
  }

  /** A usable private key path lets every human field be left out. */
  lemma KeyPathMakesHumanFieldsOptional(raw: RawCredentials, fs: Fs<string>, dotDir: string)
    requires raw.clientId.Given? && CheckBaseUrl(raw.baseUrl).Ok?
    requires raw.privateKeyPath.Some? && raw.privateKeyPath.value != ""
    requires fs.IsFile(KeyFile(dotDir, raw.privateKeyPath.value))
    ensures Validate(raw, fs, dotDir).Ok?
    ensures Validate(raw, fs, dotDir).value.privateKeyPath == Some(KeyFile(dotDir, raw.privateKeyPath.value))
  {
  }

  /** Without a private key path, a missing human field is reported as
      required. */
  lemma HumanFieldsRequiredWithoutKey(raw: RawCredentials, fs: Fs<string>, dotDir: string)
    requires raw.privateKeyPath.None?
    requires raw.username.None?
    ensures Validate(raw, fs, dotDir).Err?
    ensures FieldError("username", FieldRequired) in Validate(raw, fs, dotDir).error
  {
  }

  /** Why `Credentials.private_key()` could not read the key. */
  datatype KeyProblem =
    | NoKeyPath                    // no path is set: `joinpath(None)` fails
    | KeyMissing(file: string)     // nothing exists at the resolved path
    | KeyIsDirectory(file: string) // the resolved path is a directory

  /** `Credentials.private_key()`: the contents of the key file, looked up
      under the `.proxygen` directory. */
  function PrivateKey(c: Credentials, fs: Fs<string>, dotDir: string): (r: Result<string, KeyProblem>)
    ensures r.Ok? <==> c.privateKeyPath.Some? && fs.IsFile(KeyFile(dotDir, c.privateKeyPath.value))
    ensures r.Ok? ==> r.value == fs.files[KeyFile(dotDir, c.privateKeyPath.value)]
    ensures c.privateKeyPath.None? ==> r == Err(NoKeyPath)
    ensures c.privateKeyPath.Some? && !fs.Exists(KeyFile(dotDir, c.privateKeyPath.value)) ==>
      r == Err(KeyMissing(KeyFile(dotDir, c.privateKeyPath.value)))
    ensures c.privateKeyPath.Some? && fs.IsDir(KeyFile(dotDir, c.privateKeyPath.value)) ==>
      r == Err(KeyIsDirectory(KeyFile(dotDir, c.privateKeyPath.value)))
  {
    if c.privateKeyPath.None? then Err(NoKeyPath)
    else
      var file := KeyFile(dotDir, c.privateKeyPath.value);
      if !fs.Exists(file) then Err(KeyMissing(file))
      else if fs.IsDir(file) then Err(KeyIsDirectory(file))
      else Ok(fs.files[file])
  }

  /** `get_credentials()`: the loaded credentials, or a usage error when
      loading them failed. */
  function GetCredentials(loaded: Result<Credentials, seq<FieldError>>): (r: Result<Credentials, string>)
    ensures r.Err? <==> loaded.Err?
    ensures r.Ok? ==> r.value == loaded.value
    ensures r.Err? ==> r.error == "This command requires credentials which are invalid or not configured"
  {
    match loaded
    case Ok(c) => Ok(c)
    case Err(_) => Err("This command requires credentials which are invalid or not configured")
  }
}

=== FILE: credentials_file.dfy ===
/** The INI-style credentials reader of proxygen_cli/credentials.py: sections
    titled `client NAME` and `user NAME` become typed credentials, and one
    client and one user are then selected, by the configured default name or
    because there is only one. Every value is read through ConfigParser's
    default BasicInterpolation, so `%%` reads as `%`, `%(name)s` as the
    section's `name` value, and any other `%` raises. */
module CredentialsFile {
  import opened Wrappers
  import opened Strings

  /** The three credential shapes; `name` is the section title after its prefix. */
  datatype Cred =
    | Client(name: string, id: string, secret: string, baseUrl: Option<string>)
    | User(name: string, password: string)
    | Machine(name: string, privateKeyPath: string)

  /** One section of the credentials file: its title and its key/value pairs. */
  datatype Section = Section(title: string, fields: map<string, string>)

  /** Why reading credentials raises. */
  datatype CredError =
    | NoMatch(kind: string, name: string)   // ValueError: no item has the default name
    | NoCredentials(kind: string)           // ValueError: nothing to choose from
    | Ambiguous(kind: string)               // ValueError: several items and no default
    | BadClient(title: string)              // TypeError from the dataclass constructor
    | BadUser(title: string)                // TypeError: neither user nor machine shape
    | BadValue(title: string)               // InterpolationError reading a value of the section
    | BadDefault(kind: string)              // InterpolationError reading `kind` in `[default]`

  // ------------------------------------------------------------------
  // BasicInterpolation

  /** configparser's `MAX_INTERPOLATION_DEPTH`. */
  const MaxInterpolationDepth: nat := 10

  /** Why BasicInterpolation refuses a value. */
  datatype InterpolationError =
    | BadSyntax                      // InterpolationSyntaxError: `%` followed by neither `%` nor `(`
    | BadReference                   // InterpolationSyntaxError: `%(` that does not match `%(name)s`
    | MissingOption(name: string)    // InterpolationMissingOptionError
    | TooDeep                        // InterpolationDepthError

  /** The `%(name)s` reference opening `rest`, as `_KEYCRE` (`%\(([^)]+)\)s`)
      matches it: the name and the length of the match. */
  function Reference(rest: string): (r: Option<(string, nat)>)
    requires StartsWith(rest, "%(")
    ensures r.Some? ==> var (name, end) := r.value;
      && 0 < |name| && end == |name| + 4 <= |rest| && ')' !in name
      && rest[..end] == "%(" + name + ")s"
  {
    match IndexOf(rest[2..], ')')
    case None => None
    case Some(j) =>
      if 0 < j && j + 3 < |rest| && rest[j + 3] == 's' then
        assert rest[2..j + 2] == rest[2..][..j];
        assert rest[..j + 4] == "%(" + rest[2..j + 2] + ")s";
        Some((rest[2..j + 2], j + 4))
      else None
  }

  /** `BasicInterpolation._interpolate_some` at nesting `depth`: copy text up
      to each `%`; `%%` gives `%`; `%(name)s` gives the raw value of `name`
      in `d`, itself interpolated one level deeper when it holds a `%`; any
      other `%` is a syntax error. */
  function Interp(d: map<string, string>, rest: string, depth: nat): (r: Result<string, InterpolationError>)
    decreases MaxInterpolationDepth + 1 - depth, |rest|
  {
    if depth > MaxInterpolationDepth then Err(TooDeep)
    else if |rest| == 0 then Ok("")
    else if rest[0] != '%' then
      var tail :- Interp(d, rest[1..], depth);
      Ok([rest[0]] + tail)
    else if StartsWith(rest, "%%") then
      var tail :- Interp(d, rest[2..], depth);
      Ok("%" + tail)
    else if StartsWith(rest, "%(") then
      match Reference(rest)
      case None => Err(BadReference)
      case Some((name, end)) =>
        if name !in d then Err(MissingOption(name))
        else
          var v :- if '%' in d[name] then Interp(d, d[name], depth + 1) else Ok(d[name]);
          var tail :- Interp(d, rest[end..], depth);
          Ok(v + tail)
    else Err(BadSyntax)
  }

  /** `parser.get(section, option)`: the value interpolated against the
      section's own raw values, starting at depth 1. */
  function Interpolate(d: map<string, string>, value: string): Result<string, InterpolationError> {
    Interp(d, value, 1)
  }

  /** A value without `%` reads back unchanged. */
  lemma {:induction false} PlainValueUnchanged(d: map<string, string>, s: string, depth: nat)
    requires '%' !in s && depth <= MaxInterpolationDepth
    ensures Interp(d, s, depth) == Ok(s)
  {
    if |s| > 0 {
      PlainValueUnchanged(d, s[1..], depth);
      assert [s[0]] + s[1..] == s;
    }
  }

  /** `s.replace("%", "%%")`: how a value must be written to read as `s`. */
  function Escape(s: string): (r: string)
    ensures '%' !in s ==> r == s
    ensures |r| >= |s|
  {
    if |s| == 0 then ""
    else if s[0] == '%' then "%%" + Escape(s[1..])
    else [s[0]] + Escape(s[1..])
  }

  /** Reading an escaped value gives the text back. */
  lemma {:induction false} EscapeRoundTrip(d: map<string, string>, s: string, depth: nat)
    requires depth <= MaxInterpolationDepth
    ensures Interp(d, Escape(s), depth) == Ok(s)
  {
    if |s| > 0 {
      EscapeRoundTrip(d, s[1..], depth);
      var e := Escape(s);
      if s[0] == '%' {
        assert StartsWith(e, "%%") && e[2..] == Escape(s[1..]);
      } else {
        assert e[0] == s[0] && e[1..] == Escape(s[1..]);
      }
      assert [s[0]] + s[1..] == s;
    }
  }

  /** A `%` followed by neither `%` nor `(`, such as the one in `p%ss`, is a
      syntax error. */
  lemma {:induction false} LonePercentRefused(d: map<string, string>, a: string, b: string, depth: nat)
    requires '%' !in a && depth <= MaxInterpolationDepth
    requires |b| == 0 || (b[0] != '%' && b[0] != '(')
    ensures Interp(d, a + "%" + b, depth) == Err(BadSyntax)
  {
    if |a| > 0 {
      LonePercentRefused(d, a[1..], b, depth);
      assert (a + "%" + b)[1..] == a[1..] + "%" + b;
    } else {
      var rest := a + "%" + b;
      assert rest == "%" + b;
      assert !StartsWith(rest, "%%") && !StartsWith(rest, "%(") by {
        if |rest| >= 2 { assert rest[1] == b[0]; }
      }
    }
  }

  /** `%(name)s` reads as the raw value of `name` when that holds no `%`. */
  lemma ReferenceReplaced(d: map<string, string>, name: string, b: string, depth: nat)
    requires 0 < |name| && ')' !in name && name in d && '%' !in d[name]
    requires '%' !in b && depth <= MaxInterpolationDepth
    ensures Interp(d, "%(" + name + ")s" + b, depth) == Ok(d[name] + b)
  {
    var rest := "%(" + name + ")s" + b;
    ReferenceFound(name, b);
    assert rest[|name| + 4..] == b;
    PlainValueUnchanged(d, b, depth);
  }

  /** `%(name)s` naming no value of the section is refused. */
  lemma MissingReferenceRefused(d: map<string, string>, name: string, b: string, depth: nat)
    requires 0 < |name| && ')' !in name && name !in d && depth <= MaxInterpolationDepth
    ensures Interp(d, "%(" + name + ")s" + b, depth) == Err(MissingOption(name))
  {
    ReferenceFound(name, b);
  }

  /** `_KEYCRE` matches a well-formed reference up to its `s`. */
  lemma ReferenceFound(name: string, b: string)
    requires 0 < |name| && ')' !in name
    ensures StartsWith("%(" + name + ")s" + b, "%(")
    ensures Reference("%(" + name + ")s" + b) == Some((name, |name| + 4))
  {
    var rest := "%(" + name + ")s" + b;
    assert rest[2..][..|name|] == name && rest[2..][|name|] == ')';
    assert rest[2..|name| + 2] == name;
    assert rest[..2] == "%(";
  }

  /** A value that refers to itself nests until the depth limit. */
  lemma {:induction false} SelfReferenceTooDeep(d: map<string, string>, name: string, depth: nat)
    requires 0 < |name| && ')' !in name && name in d && d[name] == "%(" + name + ")s"
    ensures Interp(d, d[name], depth) == Err(TooDeep)
    decreases MaxInterpolationDepth + 1 - depth
  {
    if depth <= MaxInterpolationDepth {
      ReferenceFound(name, "");
      assert d[name] == "%(" + name + ")s" + "";
      assert '%' in d[name] by { assert d[name][0] == '%'; }
      SelfReferenceTooDeep(d, name, depth + 1);
    }
  }

  /** `{k: v for k, v in credentials[section].items()}`: every value of the
      section read through BasicInterpolation; None when any read raises. */
  function ReadSection(fields: map<string, string>): (r: Option<map<string, string>>)
    ensures r.Some? <==> forall k :: k in fields ==> Interpolate(fields, fields[k]).Ok?
    ensures r.Some? ==> r.value.Keys == fields.Keys
    ensures r.Some? ==> forall k :: k in fields ==> Interpolate(fields, fields[k]) == Ok(r.value[k])
  {
    if forall k | k in fields :: Interpolate(fields, fields[k]).Ok? then
      Some(map k | k in fields :: Interpolate(fields, fields[k]).value)
    else None
  }

  /** A section without `%` in its values reads as written. */
  lemma PlainSectionUnchanged(fields: map<string, string>)
    requires forall k :: k in fields ==> '%' !in fields[k]
    ensures ReadSection(fields) == Some(fields)
  {
    forall k | k in fields ensures Interpolate(fields, fields[k]) == Ok(fields[k]) {
      PlainValueUnchanged(fields, fields[k], 1);
    }
    assert ReadSection(fields).Some?;
    var r := ReadSection(fields).value;
    assert r.Keys == fields.Keys && forall k :: k in r ==> r[k] == fields[k];
    assert r == fields;
  }

  /** Position of the first item named `n`. */
  function FirstNamed(items: seq<Cred>, n: string): (r: Option<nat>)
    ensures r.Some? ==> r.value < |items| && items[r.value].name == n
    ensures r.Some? ==> forall i :: 0 <= i < r.value ==> items[i].name != n
    ensures r.None? ==> forall i :: 0 <= i < |items| ==> items[i].name != n
  {
    if |items| == 0 then None
    else if items[0].name == n then Some(0)
    else
      match FirstNamed(items[1..], n)
      case None => None
      case Some(i) => Some(i + 1)
  }

  /** `_select_default(items, default_name, cred_type, ...)` */
  function SelectDefault(items: seq<Cred>, defaultName: Option<string>, kind: string): (r: Result<Cred, CredError>)
    ensures defaultName.Some? ==>
      (r.Ok? <==> exists i :: 0 <= i < |items| && items[i].name == defaultName.value)
    ensures defaultName.Some? && r.Ok? ==>
      r.value.name == defaultName.value &&
      exists i :: 0 <= i < |items| && items[i] == r.value && forall k :: 0 <= k < i ==> items[k].name != defaultName.value
    ensures defaultName.Some? && r.Err? ==> r.error == NoMatch(kind, defaultName.value)
    ensures defaultName.None? ==> (r.Ok? <==> |items| == 1)
    ensures defaultName.None? && |items| == 1 ==> r == Ok(items[0])
    ensures defaultName.None? && |items| == 0 ==> r == Err(NoCredentials(kind))
    ensures defaultName.None? && |items| >= 2 ==> r == Err(Ambiguous(kind))
  {
    match defaultName
    case Some(n) =>
      (match FirstNamed(items, n)
       case None => Err(NoMatch(kind, n))
       case Some(i) => Ok(items[i]))
    case None =>
      if |items| == 1 then Ok(items[0])
      else if |items| == 0 then Err(NoCredentials(kind))
      else Err(Ambiguous(kind))
  }

  const ClientPrefix := "client "
  const UserPrefix := "user "

  /** `ClientCredentials(**fields, name=...)`: needs `id` and `secret`, allows
      `base_url`, and nothing else (a `name` key clashes with the keyword). */
  function AsClient(name: string, d: map<string, string>): (r: Option<Cred>)
    ensures r.Some? ==> r.value.Client? && r.value.name == name
  {
    if "id" in d && "secret" in d && d.Keys <= {"id", "secret", "base_url"} then
      Some(Client(name, d["id"], d["secret"], if "base_url" in d then Some(d["base_url"]) else None))
    else None
  }

  /** `UserCredentials(**fields, name=...)`: exactly a `password`. */
  function AsUser(name: string, d: map<string, string>): Option<Cred> {
    if d.Keys == {"password"} then Some(User(name, d["password"])) else None
  }

  /** `MachineCredentials(**fields, name=...)`: exactly a `private_key_path`. */
  function AsMachine(name: string, d: map<string, string>): Option<Cred> {
    if d.Keys == {"private_key_path"} then Some(Machine(name, d["private_key_path"])) else None
  }

  /** The user loop tries both shapes in turn, keeping the last that fits. */
  function AsUserOrMachine(name: string, d: map<string, string>): (r: Option<Cred>)
    ensures r.Some? ==> (r.value.User? || r.value.Machine?) && r.value.name == name
    ensures r.None? <==> AsUser(name, d).None? && AsMachine(name, d).None?
  {
    match AsMachine(name, d)
    case Some(m) => Some(m)
    case None => AsUser(name, d)
  }

  /** A section the loop cannot turn into a credential: one holding a value
      that does not interpolate, whatever its title; a `client ` section that
      does not fit the client shape; or a `user ` section that fits neither
      user shape. */
  predicate IsBad(s: Section) {
    match ReadSection(s.fields)
    case None => true
    case Some(fields) =>
      || (StartsWith(s.title, ClientPrefix) && AsClient(s.title[|ClientPrefix|..], fields).None?)
      || (!StartsWith(s.title, ClientPrefix) && StartsWith(s.title, UserPrefix)
          && AsUserOrMachine(s.title[|UserPrefix|..], fields).None?)
  }

  /** The exception a bad section raises. */
  function ErrorFor(s: Section): CredError {
    if ReadSection(s.fields).None? then BadValue(s.title)
    else if StartsWith(s.title, ClientPrefix) then BadClient(s.title)
    else BadUser(s.title)
  }

  /** The section loop of `read_credentials`: every section's values are
      read first; then clients and users are taken in file order, sections
      with any other title skipped; the loop stops at the first section that
      raises. */
  function Classify(sections: seq<Section>): (r: Result<(seq<Cred>, seq<Cred>), CredError>)
    ensures r.Ok? ==> forall c :: c in r.value.0 ==> c.Client?
    ensures r.Ok? ==> forall u :: u in r.value.1 ==> u.User? || u.Machine?
  {
    if |sections| == 0 then Ok(([], []))
    else
      var s := sections[0];
      var fields :- (match ReadSection(s.fields) case None => Err(BadValue(s.title)) case Some(f) => Ok(f));
      if StartsWith(s.title, ClientPrefix) then
        match AsClient(s.title[|ClientPrefix|..], fields)
        case None => Err(BadClient(s.title))
        case Some(c) =>
          var rest :- Classify(sections[1..]);
          Ok(([c] + rest.0, rest.1))
      else if StartsWith(s.title, UserPrefix) then
        match AsUserOrMachine(s.title[|UserPrefix|..], fields)
        case None => Err(BadUser(s.title))
        case Some(u) =>
          var rest :- Classify(sections[1..]);
          Ok((rest.0, [u] + rest.1))
      else Classify(sections[1..])
  }

  /** The read fails exactly when some section is bad, and then with the
      exception of the first bad section. */
  lemma {:induction false} ClassifyReportsFirstBad(sections: seq<Section>)
    ensures Classify(sections).Err? <==> exists i :: 0 <= i < |sections| && IsBad(sections[i])
    ensures Classify(sections).Err? ==>
      exists i :: 0 <= i < |sections| && IsBad(sections[i]) && (forall k :: 0 <= k < i ==> !IsBad(sections[k]))
        && Classify(sections).error == ErrorFor(sections[i])
  {
    if |sections| > 0 {
      ClassifyReportsFirstBad(sections[1..]);
      ClassifyStep(sections);
      var s := sections[0];
      if !IsBad(s) {
        if Classify(sections).Err? {
          var i :| 0 <= i < |sections| - 1 && IsBad(sections[1..][i])
            && (forall k :: 0 <= k < i ==> !IsBad(sections[1..][k]))
            && Classify(sections[1..]).error == ErrorFor(sections[1..][i]);
          assert sections[i + 1] == sections[1..][i];
          forall k | 0 <= k < i + 1 ensures !IsBad(sections[k]) {
            if k > 0 { assert sections[k] == sections[1..][k - 1]; }
          }
        }
        if exists i :: 0 <= i < |sections| && IsBad(sections[i]) {
          var i :| 0 <= i < |sections| && IsBad(sections[i]);
          assert i > 0 && sections[1..][i - 1] == sections[i];
        }
      } else {
        assert 0 <= 0 < |sections| && IsBad(sections[0]);
      }
    }
  }

  /** A value with a lone `%`, such as the password `p%ss`, fails the whole
      read, even in a section whose title the loop would skip. */
  lemma LonePercentFailsRead(sections: seq<Section>, i: nat, key: string, a: string, b: string)
    requires i < |sections| && key in sections[i].fields
    requires sections[i].fields[key] == a + "%" + b && '%' !in a
    requires |b| == 0 || (b[0] != '%' && b[0] != '(')
    ensures Classify(sections).Err?
  {
    LonePercentRefused(sections[i].fields, a, b, 1);
    assert IsBad(sections[i]);
    ClassifyReportsFirstBad(sections);
  }

  /** One step of the loop: a bad first section raises its own error, and a
      good one leaves the outcome to the rest. */
  lemma ClassifyStep(sections: seq<Section>)
    requires |sections| > 0
    ensures IsBad(sections[0]) ==> Classify(sections) == Err(ErrorFor(sections[0]))
    ensures !IsBad(sections[0]) ==> (Classify(sections).Err? <==> Classify(sections[1..]).Err?)
    ensures !IsBad(sections[0]) && Classify(sections).Err? ==> Classify(sections).error == Classify(sections[1..]).error
  {
  }

  /** No title carries both prefixes. */
  lemma PrefixesExclusive(t: string)
    ensures StartsWith(t, ClientPrefix) ==> !StartsWith(t, UserPrefix)
  {
    if StartsWith(t, ClientPrefix) {
      assert t[0] == t[..|ClientPrefix|][0] == 'c';
      assert UserPrefix[0] == 'u';
    }
  }

  /** Names taken from titles with the given prefix, in order. */
  function NamesAfter(sections: seq<Section>, prefix: string): seq<string> {
    if |sections| == 0 then []
    else if StartsWith(sections[0].title, prefix) then
      [sections[0].title[|prefix|..]] + NamesAfter(sections[1..], prefix)
    else NamesAfter(sections[1..], prefix)
  }

  function Names(items: seq<Cred>): seq<string> {
    if |items| == 0 then [] else [items[0].name] + Names(items[1..])
  }

  /** Classification keeps one client per `client ` section and one user per
      `user ` section, named after the text following the prefix. */
  lemma {:induction false} ClassifyNames(sections: seq<Section>)
    requires Classify(sections).Ok?
    ensures Names(Classify(sections).value.0) == NamesAfter(sections, ClientPrefix)
    ensures Names(Classify(sections).value.1) == NamesAfter(sections, UserPrefix)
  {
    if |sections| > 0 {
      ClassifyNames(sections[1..]);
      var s := sections[0];
      PrefixesExclusive(s.title);
    }
  }

  /** A `user ` section fitting neither shape makes the whole read fail. */
  lemma {:induction false} ClassifyRejectsBadUser(sections: seq<Section>, i: nat)
    requires i < |sections|
    requires StartsWith(sections[i].title, UserPrefix)
    requires ReadSection(sections[i].fields).Some? ==>
      AsUserOrMachine(sections[i].title[|UserPrefix|..], ReadSection(sections[i].fields).value).None?
    ensures Classify(sections).Err?
  {
    if i > 0 {
      ClassifyRejectsBadUser(sections[1..], i - 1);
    } else {
      PrefixesExclusive(sections[0].title);
    }
  }

  /** `defaults.get(kind)`: None without an entry, else the entry read
      through BasicInterpolation against the `[default]` section. */
  function DefaultName(defaults: map<string, string>, kind: string): Result<Option<string>, CredError> {
    if kind !in defaults then Ok(None)
    else
      match Interpolate(defaults, defaults[kind])
      case Err(_) => Err(BadDefault(kind))
      case Ok(v) => Ok(Some(v))
  }

  /** `read_credentials()`: classify the sections, then select the client and
      the user named in the `[default]` section of the config file (an empty
      map when there is none), or the only one when no name is set. */
  function ReadCredentials(sections: seq<Section>, defaults: map<string, string>): (r: Result<(Cred, Cred), CredError>)
    ensures r.Ok? ==> r.value.0.Client? && (r.value.1.User? || r.value.1.Machine?)
    ensures r.Ok? ==> Classify(sections).Ok?
    ensures r.Ok? && "client" in defaults ==>
      && Interpolate(defaults, defaults["client"]).Ok?
      && r.value.0.name == Interpolate(defaults, defaults["client"]).value
      && r.value.0 in Classify(sections).value.0
    ensures r.Ok? && "client" !in defaults ==> Classify(sections).value.0 == [r.value.0]
    ensures r.Ok? && "user" in defaults ==>
      && Interpolate(defaults, defaults["user"]).Ok?
      && r.value.1.name == Interpolate(defaults, defaults["user"]).value
      && r.value.1 in Classify(sections).value.1
    ensures r.Ok? && "user" !in defaults ==> Classify(sections).value.1 == [r.value.1]
    ensures Classify(sections).Err? ==> r == Err(Classify(sections).error)
    ensures Classify(sections).Ok? && "client" in defaults && Interpolate(defaults, defaults["client"]).Err? ==>
      r == Err(BadDefault("client"))
  {
    var (clients, users) :- Classify(sections);
    var clientName :- DefaultName(defaults, "client");
    var client :- SelectDefault(clients, clientName, "client");
    var userName :- DefaultName(defaults, "user");
    var user :- SelectDefault(users, userName, "user");
    Ok((client, user))
  }

  lemma {:induction false} NamesHas(items: seq<Cred>, c: Cred)
    requires c in items
    ensures c.name in Names(items)
  {
    if items[0] != c {
      NamesHas(items[1..], c);
    }
  }

  /** The selected client and user come from a `client ` and a `user `
      section of the file, by the text after the prefix. */
  lemma ReadCredentialsFromSections(sections: seq<Section>, defaults: map<string, string>)
    requires ReadCredentials(sections, defaults).Ok?
    ensures ReadCredentials(sections, defaults).value.0.name in NamesAfter(sections, ClientPrefix)
    ensures ReadCredentials(sections, defaults).value.1.name in NamesAfter(sections, UserPrefix)
  {
    var r := ReadCredentials(sections, defaults).value;
    var (clients, users) := Classify(sections).value;
    ClassifyNames(sections);
    if "client" in defaults { NamesHas(clients, r.0); } else { assert r.0 == clients[0]; NamesHas(clients, r.0); }
    if "user" in defaults { NamesHas(users, r.1); } else { assert r.1 == users[0]; NamesHas(users, r.1); }
  }
}

=== FILE: instance_command.dfy ===
/** The `instance` command group: where a base path is served in each
    environment, and the `describe`, `get` and `delete` commands, which deploy,
    fetch and remove the instance named by the quoted base path. The group
    itself does not insist on an API being set. */
module InstanceCommand {
  import opened Wrappers
  import opened Strings
  import opened Json
  import opened ProxygenApi
  import opened Cli
  import Spec
  import Percent

  const Scheme := "https://"
  const ProdHost := "https://api.service.nhs.uk/"
  const HostSuffix := ".api.service.nhs.uk/"

  /** `url(env, base_path)`: production is served from the bare API domain,
      every other environment from its own sub-domain. */
  function Url(env: string, basePath: string): (u: string)
    ensures StartsWith(u, Scheme) && |u| > |Scheme| + |basePath|
    ensures u[|u| - |basePath|..] == basePath
    ensures env != "prod" ==> |u| > |Scheme| + |env| && u[|Scheme|..|Scheme| + |env|] == env && u[|Scheme| + |env|] == '.'
  {
    if env == "prod" then ProdHost + basePath
    else
      var u := Scheme + env + HostSuffix + basePath;
      assert u[|Scheme|..|Scheme| + |env|] == env && u[|Scheme| + |env|] == HostSuffix[0];
      u
  }

  /** Reads the environment and base path back out of a URL `Url` built. */
  function Target(u: string): Option<(string, string)> {
    if StartsWith(u, Scheme) && IndexOf(u[|Scheme|..], '.').Some? then
      var rest := u[|Scheme|..];
      var i := IndexOf(rest, '.').value;
      if StartsWith(rest[i..], HostSuffix) && rest[..i] != "prod" then Some((rest[..i], rest[i + |HostSuffix|..]))
      else if StartsWith(u, ProdHost) then Some(("prod", u[|ProdHost|..]))
      else None
    else None
  }

  /** Every environment and base path can be read back from its URL. */
  lemma TargetOfUrl(env: string, basePath: string)
    requires '.' !in env
    ensures Target(Url(env, basePath)) == Some((env, basePath))
  {
    if env == "prod" {
      TargetOfProdUrl(basePath);
    } else {
      TargetOfSubdomainUrl(env, basePath);
    }
  }

  lemma TargetOfProdUrl(basePath: string)
    ensures Target(Url("prod", basePath)) == Some(("prod", basePath))
  {
    var u := ProdHost + basePath;
    assert u[..|Scheme|] == Scheme;
    var rest := u[|Scheme|..];
    var tail := "service.nhs.uk/" + basePath;
    assert rest == "api" + ['.'] + tail;
    IndexOfAfterPrefix("api", '.', tail);
    assert rest[3..][1] == 's';
    assert !StartsWith(rest[3..], HostSuffix);
    assert u[..|ProdHost|] == ProdHost;
    assert u[|ProdHost|..] == basePath;
  }

  lemma TargetOfSubdomainUrl(env: string, basePath: string)
    requires '.' !in env && env != "prod"
    ensures Target(Url(env, basePath)) == Some((env, basePath))
  {
    var u := Scheme + env + HostSuffix + basePath;
    assert u[..|Scheme|] == Scheme;
    var rest := u[|Scheme|..];
    var tail := HostSuffix[1..] + basePath;
    assert rest == env + ['.'] + tail;
    IndexOfAfterPrefix(env, '.', tail);
    var after := rest[|env|..];
    assert after == HostSuffix + basePath;
    assert after[..|HostSuffix|] == HostSuffix;
    assert rest[..|env|] == env;
    assert rest[|env| + |HostSuffix|..] == basePath;
  }

  /** Two deployments share a URL only if they are the same deployment. */
  lemma UrlInjective(env: string, basePath: string, env': string, basePath': string)
    requires IsEnv(env) && IsEnv(env')
    requires Url(env, basePath) == Url(env', basePath')
    ensures env == env' && basePath == basePath'
  {
    EnvsHaveNoDot(env);
    EnvsHaveNoDot(env');
    TargetOfUrl(env, basePath);
    TargetOfUrl(env', basePath');
  }

  /** The instance name a base path is deployed under. */
  function InstanceName(basePath: string): (name: string)
    ensures Percent.Unquote(name) == Some(basePath)
  {
    Percent.UnquoteQuote(basePath);
    Percent.Quote(basePath)
  }

  // ---------------------------------------------------------------- describe

  /** The `servers` entry `describe` writes: one server, at the deployment URL. */
  function Servers(env: string, basePath: string): Json {
    JArr([JObj([("url", JStr(Url(env, basePath)))])])
  }

  /** `paas_open_api["servers"] = …`: a dict gains or replaces its `servers`
      member in place; anything else raises TypeError. */
  function PointServers(spec: Json, env: string, basePath: string): (r: Result<Json, CommandError>)
    ensures r.Ok? <==> spec.JObj?
    ensures r.Err? ==> r.error == NotAssignable
    ensures r.Ok? ==> r.value.JObj? && Child(r.value, Key("servers")) == Some(Servers(env, basePath))
    ensures r.Ok? ==> forall k :: k != "servers" ==> Child(r.value, Key(k)) == Child(spec, Key(k))
  {
    if spec.JObj? then
      var ms := Assign(spec.members, "servers", Servers(env, basePath));
      assert forall k :: k != "servers" ==> Child(JObj(ms), Key(k)) == Child(spec, Key(k)) by {
        forall k | k != "servers" ensures Child(JObj(ms), Key(k)) == Child(spec, Key(k)) {
          var i := MemberIndex(ms, k);
          if i.Some? {
            assert ms[i.value] == spec.members[i.value];
          }
        }
      }
      Ok(JObj(ms))
    else Err(NotAssignable)
  }

  /** The prompt as the code builds it: the f-string interpolates the
      function object `url`, so the text is the function's repr whatever
      the environment and base path. */
  function DescribePromptAsWritten(urlRepr: string): string {
    "Deploy this spec to " + urlRepr + "?"
  }

  /** The prompt as intended: it names the URL being deployed to. */
  function DescribePrompt(env: string, basePath: string): string {
    "Deploy this spec to " + Url(env, basePath) + "?"
  }

  /** `describe` given its prompt text: resolve the spec, point its servers
      at the deployment URL, ask unless `--no-confirm`, then put the instance. */
  function DescribeWith(prompt: string, api: Option<string>, env: string, basePath: string,
                        docs: Spec.Docs, cwd: string, specFile: string,
                        noConfirm: bool, confirmed: bool, server: Server): (r: Run)
    ensures |r.calls| <= 1 && |r.prompts| <= 1
    ensures r.calls != [] <==>
      && IsEnv(env)
      && Spec.Resolve(docs, cwd, specFile).Ok?
      && Spec.Resolve(docs, cwd, specFile).value.JObj?
      && (noConfirm || confirmed)
    ensures r.prompts != [] <==>
      IsEnv(env) && !noConfirm && Spec.Resolve(docs, cwd, specFile).Ok? && Spec.Resolve(docs, cwd, specFile).value.JObj?
    ensures r.prompts != [] ==> r.prompts == [prompt]
    ensures r.calls != [] ==>
      var sent := r.calls[0];
      && sent.verb == "PUT"
      && sent.path == InstancePath(ApiText(api), env, InstanceName(basePath))
      && sent.json.Some? && Child(sent.json.value, Key("servers")) == Some(Servers(env, basePath))
      && (forall k :: k != "servers" ==>
            Child(sent.json.value, Key(k)) == Child(Spec.Resolve(docs, cwd, specFile).value, Key(k)))
    ensures r.result.Err? && r.result.error == Aborted ==> r.calls == []
  {
    if !IsEnv(env) then Run([], [], Err(BadChoice(env)))
    else
      match Spec.Resolve(docs, cwd, specFile)
      case Err(e) => Run([], [], Err(SpecFailed(e)))
      case Ok(spec) =>
        match PointServers(spec, env, basePath)
        case Err(e) => Run([], [], Err(e))
        case Ok(spec') =>
          var prompts := if noConfirm then [] else [prompt];
          if !noConfirm && !confirmed then Run(prompts, [], Err(Aborted))
          else Reply(server, prompts, [], PutInstance(api, env, InstanceName(basePath), spec'))
  }

  function DescribeAsWritten(urlRepr: string, api: Option<string>, env: string, basePath: string,
                             docs: Spec.Docs, cwd: string, specFile: string,
                             noConfirm: bool, confirmed: bool, server: Server): (r: Run)
    ensures r.prompts != [] ==> r.prompts == ["Deploy this spec to " + urlRepr + "?"]
    ensures r.calls != [] ==> r.calls[0].path == InstancePath(ApiText(api), env, InstanceName(basePath))
  {
    DescribeWith(DescribePromptAsWritten(urlRepr), api, env, basePath, docs, cwd, specFile, noConfirm, confirmed, server)
  }

  function Describe(api: Option<string>, env: string, basePath: string,
                    docs: Spec.Docs, cwd: string, specFile: string,
                    noConfirm: bool, confirmed: bool, server: Server): (r: Run)
    ensures r.prompts != [] ==> r.prompts == ["Deploy this spec to " + Url(env, basePath) + "?"]
    ensures r.calls != [] <==>
      && IsEnv(env)
      && Spec.Resolve(docs, cwd, specFile).Ok?
      && Spec.Resolve(docs, cwd, specFile).value.JObj?
      && (noConfirm || confirmed)
    ensures r.calls != [] ==> r.calls[0].verb == "PUT" && r.calls[0].path == InstancePath(ApiText(api), env, InstanceName(basePath))
  {
    DescribeWith(DescribePrompt(env, basePath), api, env, basePath, docs, cwd, specFile, noConfirm, confirmed, server)
  }

  /** `describe` as line 74 calls the resolver: with the spec file alone,
      while `resolve` declares the file name and the API as its parameters.
      Python raises TypeError for the missing `api` before anything is
      resolved, shown or sent. */
  function DescribeAsCalled(api: Option<string>, env: string, basePath: string,
                            docs: Spec.Docs, cwd: string, specFile: string,
                            noConfirm: bool, confirmed: bool, server: Server): (r: Run)
    ensures r.calls == [] && r.prompts == []
    ensures IsEnv(env) ==> r.result == Err(MissingArgument("api"))
    ensures !IsEnv(env) ==> r.result == Err(BadChoice(env))
  {
    if !IsEnv(env) then Run([], [], Err(BadChoice(env)))
    else Run([], [], Err(MissingArgument("api")))
  }

  /** A spec that resolves, deployed with `--no-confirm`: the command as
      called never sends it, while the intended command puts it. */
  lemma DescribeAsCalledNeverDeploys(api: Option<string>, env: string, basePath: string,
                                     docs: Spec.Docs, cwd: string, specFile: string, server: Server)
    requires IsEnv(env)
    requires Spec.Resolve(docs, cwd, specFile).Ok? && Spec.Resolve(docs, cwd, specFile).value.JObj?
    ensures DescribeAsCalled(api, env, basePath, docs, cwd, specFile, true, false, server).calls == []
    ensures Describe(api, env, basePath, docs, cwd, specFile, true, false, server).calls != []
  {
  }

  /** As written, deploying to production and to `dev` asks the very same
      question, so the prompt cannot tell the user where the spec goes. */
  lemma DescribePromptHidesTarget(urlRepr: string, api: Option<string>, basePath: string,
                                  docs: Spec.Docs, cwd: string, specFile: string, server: Server)
    requires Spec.Resolve(docs, cwd, specFile).Ok? && Spec.Resolve(docs, cwd, specFile).value.JObj?
    ensures DescribeAsWritten(urlRepr, api, "prod", basePath, docs, cwd, specFile, false, false, server).prompts
         == DescribeAsWritten(urlRepr, api, "dev", basePath, docs, cwd, specFile, false, false, server).prompts
    ensures Url("prod", basePath) != Url("dev", basePath)
  {
    assert IsEnv("prod") && IsEnv("dev");
    if Url("prod", basePath) == Url("dev", basePath) {
      UrlInjective("prod", basePath, "dev", basePath);
    }
  }

  /** With the intended prompt, different deployments ask different
      questions: the prompt names the target. */
  lemma DescribePromptNamesTarget(env: string, basePath: string, env': string, basePath': string)
    requires IsEnv(env) && IsEnv(env')
    requires DescribePrompt(env, basePath) == DescribePrompt(env', basePath')
    ensures env == env' && basePath == basePath'
  {
    var pre := "Deploy this spec to ";
    var u, u' := Url(env, basePath), Url(env', basePath');
    assert DescribePrompt(env, basePath)[|pre|..|pre| + |u|] == u;
    assert |u| == |u'|;
    assert DescribePrompt(env', basePath')[|pre|..|pre| + |u'|] == u';
    UrlInjective(env, basePath, env', basePath');
  }

  // -------------------------------------------------------------- get, delete

  /** `get`: fetch the instance deployed under the quoted base path. */
  function Get(api: Option<string>, env: string, basePath: string, server: Server): (r: Run)
    ensures IsEnv(env) ==> r.calls == [GetInstance(api, env, InstanceName(basePath))]
    ensures IsEnv(env) ==> (r.result.Ok? <==> server(GetInstance(api, env, InstanceName(basePath))).Some?)
    ensures !IsEnv(env) ==> r.calls == [] && r.result == Err(BadChoice(env))
    ensures r.prompts == []
  {
    if !IsEnv(env) then Run([], [], Err(BadChoice(env)))
    else Reply(server, [], [], GetInstance(api, env, InstanceName(basePath)))
  }

  function DeletePrompt(env: string, basePath: string): string {
    "Delete the api at " + Url(env, basePath) + "?"
  }

  /** `delete`: unless `--no-confirm`, show the instance and ask first; the
      delete request is sent only after a confirmation or with the flag, and
      a reply that is not JSON is printed as nothing. */
  function Delete(api: Option<string>, env: string, basePath: string,
                  noConfirm: bool, confirmed: bool, server: Server): (r: Run)
    ensures var del := DeleteInstance(api, env, InstanceName(basePath));
      (del in r.calls <==>
        IsEnv(env) && (noConfirm || (server(GetInstance(api, env, InstanceName(basePath))).Some? && confirmed)))
      && (del in r.calls ==> r.calls[|r.calls| - 1] == del && r.result == Ok(server(del)))
    ensures IsEnv(env) && !noConfirm ==> r.calls != [] && r.calls[0] == GetInstance(api, env, InstanceName(basePath))
    ensures r.result == Err(Aborted) <==>
      IsEnv(env) && !noConfirm && server(GetInstance(api, env, InstanceName(basePath))).Some? && !confirmed
    ensures r.prompts != [] ==> r.prompts == [DeletePrompt(env, basePath)]
  {
    var name := InstanceName(basePath);
    var del := DeleteInstance(api, env, name);
    if !IsEnv(env) then Run([], [], Err(BadChoice(env)))
    else if noConfirm then Run([], [del], Ok(DeleteInstanceBody(server(del))))
    else
      var shown := Reply(server, [], [], GetInstance(api, env, name));
      assert del != GetInstance(api, env, name);
      if shown.result.Err? then shown
      else if !confirmed then Run([DeletePrompt(env, basePath)], shown.calls, Err(Aborted))
      else Run([DeletePrompt(env, basePath)], shown.calls + [del], Ok(DeleteInstanceBody(server(del))))
  }
}

=== FILE: json.dfy ===
/** The JSON-like documents the client loads from YAML and JSON: objects keep
    their key order, as Python dicts do. Paths address nodes by object key or
    list index, as the spec resolver records them. */
module Json {
  import opened Wrappers

  datatype Json =
    | JNull
    | JBool(b: bool)
    | JNum(n: int)
    | JStr(s: string)
    | JArr(items: seq<Json>)
    | JObj(members: seq<(string, Json)>)

  /** One step of a path: a dict key or a list index. */
  datatype Step = Key(k: string) | Idx(i: nat)

  type Path = seq<Step>

  /** Position of the first member named `k`. */
  function MemberIndex<V>(ms: seq<(string, V)>, k: string): (r: Option<nat>)
    ensures r.Some? ==> r.value < |ms| && ms[r.value].0 == k
    ensures r.Some? ==> forall i :: 0 <= i < r.value ==> ms[i].0 != k
    ensures r.None? ==> forall i :: 0 <= i < |ms| ==> ms[i].0 != k
  {
    if |ms| == 0 then None
    else if ms[0].0 == k then Some(0)
    else
      match MemberIndex(ms[1..], k)
      case None => None
      case Some(i) => Some(i + 1)
  }

  /** `obj[step]` when it succeeds: a present key of a dict or an in-range
      index of a list. */
  function Child(j: Json, step: Step): (r: Option<Json>)
    ensures r.Some? ==> r.value < j
  {
    match (j, step)
    case (JObj(ms), Key(k)) =>
      (match MemberIndex(ms, k)
       case Some(i) => assert ms[i] in ms; Some(ms[i].1)
       case None => None)
    case (JArr(xs), Idx(i)) => if i < |xs| then Some(xs[i]) else None
    case _ => None
  }

  /** The node reached by following `p` from `j`, if every step succeeds. */
  function Get(j: Json, p: Path): Option<Json>
    decreases |p|
  {
    if |p| == 0 then Some(j)
    else
      match Child(j, p[0])
      case None => None
      case Some(c) => Get(c, p[1..])
  }

  /** `j` with the node at `step` replaced by `c` (`obj[step] = c`). */
  function SetChild(j: Json, step: Step, c: Json): (r: Json)
    requires Child(j, step).Some?
    ensures Child(r, step) == Some(c)
  {
    match (j, step)
    case (JObj(ms), Key(k)) =>
      var i := MemberIndex(ms, k).value;
      var ms' := ms[i := (k, c)];
      assert MemberIndex(ms', k) == Some(i) by { MemberIndexSameKeys(ms, ms', k); }
      JObj(ms')
    case (JArr(xs), Idx(i)) => JArr(xs[i := c])
  }

  lemma MemberIndexSameKeys<V>(ms: seq<(string, V)>, ms': seq<(string, V)>, k: string)
    requires |ms| == |ms'|
    requires forall i :: 0 <= i < |ms| ==> ms[i].0 == ms'[i].0
    ensures MemberIndex(ms, k) == MemberIndex(ms', k)
  {
    if |ms| > 0 {
      MemberIndexSameKeys(ms[1..], ms'[1..], k);
    }
  }

  /** Replacing one child leaves every other step where it was. */
  lemma SetChildOther(j: Json, step: Step, c: Json, other: Step)
    requires Child(j, step).Some?
    requires other != step
    ensures Child(SetChild(j, step, c), other) == Child(j, other)
  {
    match (j, step)
    case (JObj(ms), Key(k)) =>
      var i := MemberIndex(ms, k).value;
      var ms' := ms[i := (k, c)];
      if other.Key? {
        MemberIndexSameKeys(ms, ms', other.k);
      }
    case (JArr(xs), Idx(i)) =>
  }

  /** Every dict in the tree has distinct keys, as a Python dict does. */
  predicate UniqueKeys(j: Json) {
    match j
    case JObj(ms) =>
      && (forall a, b :: 0 <= a < b < |ms| ==> ms[a].0 != ms[b].0)
      && (forall i :: 0 <= i < |ms| ==> UniqueKeys(ms[i].1))
    case JArr(xs) => forall i :: 0 <= i < |xs| ==> UniqueKeys(xs[i])
    case _ => true
  }

  /** `p` is a prefix of `q`. */
  predicate IsPrefix(p: Path, q: Path) {
    |p| <= |q| && q[..|p|] == p
  }

  /** `d.pop(k, None)` on a dict: every member named `k` is gone, the others
      keep their order. */
  function Without<V(==, !new)>(ms: seq<(string, V)>, k: string): (r: seq<(string, V)>)
    ensures forall i :: 0 <= i < |r| ==> r[i].0 != k
    ensures forall m :: m in r <==> m in ms && m.0 != k
  {
    if |ms| == 0 then []
    else if ms[0].0 == k then Without(ms[1..], k)
    else [ms[0]] + Without(ms[1..], k)
  }

  lemma WithoutAbsent<V(!new)>(ms: seq<(string, V)>, k: string)
    requires MemberIndex(ms, k).None?
    ensures Without(ms, k) == ms
  {
    if |ms| > 0 {
      WithoutAbsent(ms[1..], k);
      assert [ms[0]] + ms[1..] == ms;
    }
  }

  /** `d[k] = v` on a dict: replaces the value in place, or appends a new key. */
  function Assign<V>(ms: seq<(string, V)>, k: string, v: V): (r: seq<(string, V)>)
    ensures MemberIndex(r, k).Some? && r[MemberIndex(r, k).value].1 == v
    ensures forall kk :: kk != k ==> MemberIndex(r, kk) == MemberIndex(ms, kk)
    ensures |r| >= |ms|
    ensures forall i :: 0 <= i < |ms| && ms[i].0 != k ==> r[i] == ms[i]
  {
    match MemberIndex(ms, k)
    case Some(i) =>
      var r := ms[i := (k, v)];
      assert MemberIndex(r, k) == Some(i) by { MemberIndexSameKeys(ms, r, k); }
      assert forall kk :: MemberIndex(r, kk) == MemberIndex(ms, kk) by {
        forall kk ensures MemberIndex(r, kk) == MemberIndex(ms, kk) {
          MemberIndexSameKeys(ms, r, kk);
        }
      }
      r
    case None =>
      var r := ms + [(k, v)];
      assert MemberIndex(r, k) == Some(|ms|) by { MemberIndexAppend(ms, k, v, k); }
      assert forall kk :: kk != k ==> MemberIndex(r, kk) == MemberIndex(ms, kk) by {
        forall kk | kk != k ensures MemberIndex(r, kk) == MemberIndex(ms, kk) {
          MemberIndexAppend(ms, k, v, kk);
        }
      }
      r
  }

  lemma MemberIndexAppend<V>(ms: seq<(string, V)>, k: string, v: V, kk: string)
    requires MemberIndex(ms, k).None?
    ensures MemberIndex(ms + [(k, v)], kk) ==
      (if MemberIndex(ms, kk).Some? then MemberIndex(ms, kk) else if kk == k then Some(|ms|) else None)
  {
    if |ms| > 0 {
      assert (ms + [(k, v)])[1..] == ms[1..] + [(k, v)];
      MemberIndexAppend(ms[1..], k, v, kk);
    }
  }
}

=== FILE: legacy_spec.dfy ===
/** The older resolver of proxygen_cli/spec.py. Its `_find_file_refs` and
    `_update_obj` are the same tree logic as Spec's; its `resolve` keeps the
    deployment data, looks references up next to the root file as given, and
    raises ValueError where the newer one raises ClickException. */
module LegacySpec {
  import opened Wrappers
  import opened Json
  import opened Paths
  import Spec

  /** `resolve(file_name)` */
  function Resolve(fs: Spec.Docs, fileName: string): (r: Result<Json, Spec.SpecError>)
    ensures !fs.IsFile(fileName) ==> r == Err(Spec.NoSuchFile(fileName))
    ensures fs.IsFile(fileName) && fs.files[fileName].None? ==> r == Err(Spec.InvalidYaml(fileName))
    ensures r.Ok? ==> fs.IsFile(fileName) && fs.files[fileName].Some?
    ensures r.Err? ==> !r.error.NotAMapping?
  {
    match Spec.Load(fs, fileName)
    case Err(e) => Err(e)
    case Ok(doc) => Spec.Substitute(doc, Spec.FindFileRefs(doc), Parent(fileName), fs)
  }

  /** The exception each failure surfaces as: ValueError for a missing file or
      target, the YAML loader's own error for a file that does not parse.
      `_update_obj` is the same function in both files, so a failed
      substitution raises what it raises for the newer resolver: ValueError
      for no keys, KeyError or IndexError for a missing step, TypeError for
      a step into None, a scalar, or a list or string by key. */
  function Raised(e: Spec.SpecError): (r: Spec.PyException)
    ensures r == Spec.ValueError <==> e.NoSuchFile? || e.Unresolvable? || e == Spec.UpdateFailed(Spec.NoKeys)
    ensures r == Spec.YamlError <==> e.InvalidYaml?
    ensures e.UpdateFailed? && e.error.Unreachable? && |e.error.rest| >= 2 ==>
      r == Spec.StepRaises(e.error.at, e.error.rest)
  {
    match e
    case NoSuchFile(_) => Spec.ValueError
    case InvalidYaml(_) => Spec.YamlError
    case Unresolvable(_, _) => Spec.ValueError
    case NotAMapping(root) => Spec.Raised(Spec.NotAMapping(root))
    case UpdateFailed(_) => Spec.Raised(e)
  }

  /** A missing or directory root, and an unresolvable reference, raise
      ValueError. */
  lemma MissingFilesRaiseValueError(fs: Spec.Docs, fileName: string)
    ensures !fs.IsFile(fileName) ==> Raised(Resolve(fs, fileName).error) == Spec.ValueError
    ensures Resolve(fs, fileName).Err? && Resolve(fs, fileName).error.Unresolvable? ==>
      Raised(Resolve(fs, fileName).error) == Spec.ValueError
  {
  }

  /** A reference nested under another one whose file holds None, a
      boolean or a number: the later update subscripts that scalar and
      raises TypeError, in this resolver as in the newer one. */
  lemma ScalarOnTheWayRaisesTypeError(j: Json, keys: Path, sub: Json)
    requires |keys| >= 2 && (j.JNull? || j.JBool? || j.JNum?)
    ensures Spec.UpdateObj(j, keys, sub).Err?
    ensures Raised(Spec.UpdateFailed(Spec.UpdateObj(j, keys, sub).error)) == Spec.TypeError
  {
  }

  /** For an absolute root file without deployment data the two resolvers
      agree, outcome for outcome. */
  lemma AgreesWithNewResolver(fs: Spec.Docs, cwd: string, fileName: string)
    requires IsAbsolute(fileName)
    requires fs.IsFile(fileName) && fs.files[fileName].Some? && fs.files[fileName].value.JObj?
    requires MemberIndex(fs.files[fileName].value.members, Spec.DeploymentKey).None?
    ensures Spec.Resolve(fs, cwd, fileName) == Resolve(fs, fileName)
  {
    var doc := fs.files[fileName].value;
    WithoutAbsent(doc.members, Spec.DeploymentKey);
    assert Spec.Prepare(fs, fileName) == Ok(doc);
    assert Spec.SpecDir(cwd, fileName) == Parent(fileName);
  }
}

=== FILE: output.dfy ===
/** Presentation helpers of proxygen_cli/lib/output.py: the instance table
    (rows ordered by their raw `last_modified` text, which is then rewritten
    as `YYYY-MM-DD HH:MM`), the YAML representer that writes multi-line
    strings in block style, and the choice of spec output format. */
module Output {
  import opened Wrappers
  import opened Strings
  import Json

  // ------------------------------------------------------------------ rows

  /** One table row: a dict of strings in insertion order. */
  type Row = seq<(string, string)>

  /** `row.get(k)` */
  function Field(row: Row, k: string): (r: Option<string>)
    ensures r.None? <==> forall i :: 0 <= i < |row| ==> row[i].0 != k
    ensures r.Some? ==> (k, r.value) in row
  {
    match Json.MemberIndex(row, k)
    case Some(i) => Some(row[i].1)
    case None => None
  }

  // ------------------------------------------------------------ timestamps

  /** A `datetime` as `fromisoformat` returns it (time zone and seconds are
      not printed and not modelled). */
  datatype DateTime = DateTime(year: nat, month: nat, day: nat, hour: nat, minute: nat) {
    predicate Valid() {
      1 <= year <= 9999 && 1 <= month <= 12 && 1 <= day <= 31 && hour <= 23 && minute <= 59
    }
  }

  /** A number below 100 as two digits, as `%m`, `%d`, `%H` and `%M` write it. */
  function Pad2(n: nat): (s: string)
    requires n < 100
    ensures |s| == 2 && AllDigits(s) && DigitsValue(s) == n
  {
    DecimalValue(n);
    if n < 10 then
      var s := "0" + Decimal(n);
      assert s[..1] == "0";
      s
    else
      assert |Decimal(n)| == 2 by { DecimalLength(n); }
      Decimal(n)
  }

  lemma {:induction false} DecimalLength(n: nat)
    requires 10 <= n < 100
    ensures |Decimal(n)| == 2
  {
    assert n / 10 < 10;
  }

  /** `strftime("%Y-%m-%d %H:%M")`; the year is written without padding.
      With a four-digit year the stamp is sixteen characters and reads back
      as the same date and minute. */
  function Stamp(d: DateTime): (s: string)
    requires d.Valid()
    ensures d.year >= 1000 ==> |s| == 16 && ReadStamp(s) == Some(d)
  {
    var y := Decimal(d.year);
    var mo, da, ho, mi := Pad2(d.month), Pad2(d.day), Pad2(d.hour), Pad2(d.minute);
    var s := y + "-" + mo + "-" + da + " " + ho + ":" + mi;
    if d.year >= 1000 then
      DecimalValue(d.year);
      YearLength(d.year);
      assert s[..4] == y;
      assert s[5..7] == mo;
      assert s[8..10] == da;
      assert s[11..13] == ho;
      assert s[14..] == mi;
      s
    else s
  }

  /** Reads `YYYY-MM-DD HH:MM` back into its fields, if the text has that shape. */
  function ReadStamp(s: string): (r: Option<DateTime>)
    ensures r.Some? ==> |s| == 16
  {
    if |s| == 16 && s[4] == '-' && s[7] == '-' && s[10] == ' ' && s[13] == ':'
      && AllDigits(s[..4]) && AllDigits(s[5..7]) && AllDigits(s[8..10]) && AllDigits(s[11..13]) && AllDigits(s[14..])
    then Some(DateTime(DigitsValue(s[..4]), DigitsValue(s[5..7]), DigitsValue(s[8..10]), DigitsValue(s[11..13]), DigitsValue(s[14..])))
    else None
  }

  lemma {:induction false} YearLength(n: nat)
    requires 1000 <= n <= 9999
    ensures |Decimal(n)| == 4
  {
    assert Decimal(n) == Decimal(n / 10) + [('0' as int + n % 10) as char];
    assert Decimal(n / 10) == Decimal(n / 100) + [('0' as int + (n / 10) % 10) as char];
    assert Decimal(n / 100) == Decimal(n / 1000) + [('0' as int + (n / 100) % 10) as char];
    assert n / 1000 < 10;
  }

  datatype OutputError = KeyError(key: string) | ValueError(text: string)

  const LastModified := "last_modified"

  /** `_format_time(obj, keys)`: with no keys the row is returned as it is;
      for each key, `last_modified` is popped, parsed by `iso` (the role of
      `datetime.fromisoformat`) and stored back under that key as a stamp. */
  function FormatTime(row: Row, keys: Option<seq<string>>, iso: string -> Option<DateTime>): (r: Result<Row, OutputError>)
    ensures keys.None? ==> r == Ok(row)
  {
    if keys.None? then Ok(row) else FormatKeys(row, keys.value, iso)
  }

  function FormatKeys(row: Row, keys: seq<string>, iso: string -> Option<DateTime>): Result<Row, OutputError>
    decreases |keys|
  {
    if |keys| == 0 then Ok(row)
    else match Field(row, LastModified)
      case None => Err(KeyError(LastModified))
      case Some(text) =>
        match iso(text)
        case None => Err(ValueError(text))
        case Some(d) =>
          if !d.Valid() then Err(ValueError(text))
          else FormatKeys(Json.Assign(Json.Without(row, LastModified), keys[0], Stamp(d)), keys[1..], iso)
  }

  /** Formatting as the table does: the other fields keep their order and
      values, and `last_modified` moves to the end holding the stamp. */
  lemma FormatLastModified(row: Row, iso: string -> Option<DateTime>)
    requires Field(row, LastModified).Some?
    requires iso(Field(row, LastModified).value).Some? && iso(Field(row, LastModified).value).value.Valid()
    ensures FormatTime(row, Some([LastModified]), iso)
      == Ok(Json.Without(row, LastModified) + [(LastModified, Stamp(iso(Field(row, LastModified).value).value))])
  {
    var rest := Json.Without(row, LastModified);
    var d := iso(Field(row, LastModified).value).value;
    var formatted := Json.Assign(rest, LastModified, Stamp(d));
    assert formatted == rest + [(LastModified, Stamp(d))];
    assert FormatKeys(row, [LastModified], iso) == FormatKeys(formatted, [], iso);
  }

  // ---------------------------------------------------------------- sorting

  /** The sort key of a row: its raw `last_modified` text. */
  function Key(row: Row): string {
    Field(row, LastModified).GetOr("")
  }

  predicate Sorted(rows: seq<Row>) {
    forall i :: 0 <= i < |rows| - 1 ==> LessEq(Key(rows[i]), Key(rows[i + 1]))
  }

  /** The rows whose key is `k`, in their order. */
  function WithKey(rows: seq<Row>, k: string): seq<Row> {
    if |rows| == 0 then []
    else (if Key(rows[0]) == k then [rows[0]] else []) + WithKey(rows[1..], k)
  }

  /** Inserts `x` before the first row whose key is not below its own. */
  function Insert(x: Row, rows: seq<Row>): (r: seq<Row>)
    ensures |r| == |rows| + 1
    ensures multiset(r) == multiset{x} + multiset(rows)
    ensures r[0] == x || (|rows| > 0 && r[0] == rows[0])
    ensures Sorted(rows) ==> Sorted(r)
  {
    if |rows| == 0 then [x]
    else if LessEq(Key(x), Key(rows[0])) then [x] + rows
    else
      LessEqTotal(Key(x), Key(rows[0]));
      var tail := Insert(x, rows[1..]);
      assert rows == [rows[0]] + rows[1..];
      [rows[0]] + tail
  }

  /** `sorted(rows, key=lambda x: x["last_modified"])`: insertion sort. */
  function Sort(rows: seq<Row>): (r: seq<Row>)
    ensures |r| == |rows|
    ensures Sorted(r)
    ensures multiset(r) == multiset(rows)
  {
    if |rows| == 0 then []
    else
      assert rows == [rows[0]] + rows[1..];
      Insert(rows[0], Sort(rows[1..]))
  }

  lemma {:induction false} InsertWithKey(x: Row, rows: seq<Row>, k: string)
    ensures WithKey(Insert(x, rows), k) == (if Key(x) == k then [x] else []) + WithKey(rows, k)
  {
    if |rows| > 0 && !LessEq(Key(x), Key(rows[0])) {
      var tail := Insert(x, rows[1..]);
      assert Insert(x, rows) == [rows[0]] + tail;
      assert Key(rows[0]) != Key(x) by { LessEqReflexive(Key(x)); }
      InsertWithKey(x, rows[1..], k);
      PassOver(x, rows[0], rows[1..], tail, k);
      assert [rows[0]] + rows[1..] == rows;
    } else if |rows| > 0 {
      WithKeyCons(x, rows, k);
    }
  }

  /** `x` placed after a row with a different key: at most one of the two
      has key `k`, so the rows with key `k` come out in the same order. */
  lemma PassOver(x: Row, first: Row, rest: seq<Row>, tail: seq<Row>, k: string)
    requires Key(first) != Key(x)
    requires WithKey(tail, k) == (if Key(x) == k then [x] else []) + WithKey(rest, k)
    ensures WithKey([first] + tail, k) == (if Key(x) == k then [x] else []) + WithKey([first] + rest, k)
  {
    WithKeyCons(first, tail, k);
    WithKeyCons(first, rest, k);
  }

  lemma WithKeyCons(x: Row, rows: seq<Row>, k: string)
    ensures WithKey([x] + rows, k) == (if Key(x) == k then [x] else []) + WithKey(rows, k)
  {
    assert ([x] + rows)[1..] == rows;
  }

  lemma LessEqReflexive(a: string)
    ensures LessEq(a, a)
  {
    LessIrreflexive(a);
  }

  /** The sort is stable: rows with equal keys keep their relative order. */
  lemma {:induction false} SortStable(rows: seq<Row>, k: string)
    ensures WithKey(Sort(rows), k) == WithKey(rows, k)
  {
    if |rows| > 0 {
      SortStable(rows[1..], k);
      InsertWithKey(rows[0], Sort(rows[1..]), k);
    }
  }

  /** `print_table` up to rendering: every row needs a `last_modified`
      (the key function raises before anything is sorted); the rows are
      sorted by it and each is formatted in turn. */
  function TableRows(rows: seq<Row>, iso: string -> Option<DateTime>): (r: Result<seq<Row>, OutputError>)
    ensures (exists i :: 0 <= i < |rows| && Field(rows[i], LastModified).None?) ==> r == Err(KeyError(LastModified))
    ensures r.Ok? ==> |r.value| == |rows|
  {
    if exists i :: 0 <= i < |rows| && Field(rows[i], LastModified).None? then Err(KeyError(LastModified))
    else FormatAll(Sort(rows), iso)
  }

  function FormatAll(rows: seq<Row>, iso: string -> Option<DateTime>): (r: Result<seq<Row>, OutputError>)
    ensures r.Ok? ==> |r.value| == |rows|
    ensures r.Ok? ==> forall i :: 0 <= i < |rows| ==> FormatTime(rows[i], Some([LastModified]), iso) == Ok(r.value[i])
  {
    if |rows| == 0 then Ok([])
    else
      var head :- FormatTime(rows[0], Some([LastModified]), iso);
      var tail :- FormatAll(rows[1..], iso);
      Ok([head] + tail)
  }

  /** The table lists the rows in ascending raw `last_modified` order: row
      `i` of the table is the formatting of row `i` of a sorted permutation
      of the input. */
  lemma TableOrder(rows: seq<Row>, iso: string -> Option<DateTime>)
    requires TableRows(rows, iso).Ok?
    ensures var t := TableRows(rows, iso).value;
      && Sorted(Sort(rows)) && multiset(Sort(rows)) == multiset(rows)
      && forall i :: 0 <= i < |t| ==> FormatTime(Sort(rows)[i], Some([LastModified]), iso) == Ok(t[i])
  {
  }

  // --------------------------------------------------------- YAML strings

  /** The characters `str.splitlines` breaks at. */
  predicate IsLineBreak(c: char) {
    c == '\n' || c == '\r' || c == '\U{000B}' || c == '\U{000C}' || c == '\U{001C}' || c == '\U{001D}'
    || c == '\U{001E}' || c == '\U{0085}' || c == '\U{2028}' || c == '\U{2029}'
  }

  /** The characters `str.isspace` accepts, which `str.rstrip()` removes. */
  predicate IsSpace(c: char) {
    c == ' ' || c == '\t' || IsLineBreak(c) || c == '\U{001F}' || c == '\U{00A0}' || c == '\U{1680}'
    || ('\U{2000}' <= c <= '\U{200A}') || c == '\U{202F}' || c == '\U{205F}' || c == '\U{3000}'
  }

  predicate NoBreaks(s: string) {
    forall i :: 0 <= i < |s| ==> !IsLineBreak(s[i])
  }

  /** The index of the first line break in `s`, if any. */
  function FirstBreak(s: string): (r: Option<nat>)
    ensures r.Some? ==> r.value < |s| && IsLineBreak(s[r.value]) && NoBreaks(s[..r.value])
    ensures r.None? ==> NoBreaks(s)
  {
    if |s| == 0 then None
    else if IsLineBreak(s[0]) then Some(0)
    else
      match FirstBreak(s[1..])
      case None => None
      case Some(i) => assert s[1..][..i] == s[1..i + 1]; Some(i + 1)
  }

  /** `s.splitlines()`: the lines without their terminators; `\r\n` ends a
      single line, and a final terminator does not start an empty line. */
  function SplitLines(s: string): (lines: seq<string>)
    ensures forall i :: 0 <= i < |lines| ==> NoBreaks(lines[i])
    ensures |lines| == 0 <==> s == ""
    decreases |s|
  {
    if |s| == 0 then []
    else match FirstBreak(s)
      case None => [s]
      case Some(i) =>
        var skip := if s[i] == '\r' && i + 1 < |s| && s[i + 1] == '\n' then 2 else 1;
        [s[..i]] + SplitLines(s[i + skip..])
  }

  /** `s.rstrip()` */
  function RStrip(s: string): (r: string)
    ensures StartsWith(s, r)
    ensures |r| > 0 ==> !IsSpace(r[|r| - 1])
    ensures forall i :: |r| <= i < |s| ==> IsSpace(s[i])
  {
    if |s| == 0 || !IsSpace(s[|s| - 1]) then s
    else
      var r := RStrip(s[..|s| - 1]);
      assert s[..|s| - 1][..|r|] == s[..|r|];
      r
  }

  lemma RStripIdempotent(s: string)
    ensures RStrip(RStrip(s)) == RStrip(s)
  {
  }

  function RStripAll(lines: seq<string>): (r: seq<string>)
    ensures |r| == |lines|
    ensures forall i :: 0 <= i < |r| ==> r[i] == RStrip(lines[i])
  {
    if |lines| == 0 then [] else [RStrip(lines[0])] + RStripAll(lines[1..])
  }

  /** A YAML scalar as the representer emits it: its text, and whether it
      uses the `|` block style. */
  datatype Scalar = Scalar(text: string, block: bool)

  /** `yaml_multiline_string_pipe`: every line right-stripped, the lines
      joined with `\n`, block style iff there is more than one line. */
  function Styled(data: string): (r: Scalar)
    ensures r.block <==> |SplitLines(data)| > 1
    ensures data != "" ==> Split(r.text, '\n') == RStripAll(SplitLines(data))
  {
    var lines := RStripAll(SplitLines(data));
    if data != "" then
      StrippedLinesSplit(data);
      Scalar(Join(lines, '\n'), |lines| > 1)
    else Scalar(Join(lines, '\n'), |lines| > 1)
  }

  lemma StrippedLinesSplit(data: string)
    requires data != ""
    ensures var lines := RStripAll(SplitLines(data)); Split(Join(lines, '\n'), '\n') == lines
  {
    var lines := RStripAll(SplitLines(data));
    forall i | 0 <= i < |lines| ensures '\n' !in lines[i] {
      BreakFreePrefix(SplitLines(data)[i], lines[i]);
    }
    SplitJoin(lines, '\n');
  }

  /** A prefix of a break-free string holds no newline. */
  lemma BreakFreePrefix(s: string, p: string)
    requires NoBreaks(s) && StartsWith(s, p)
    ensures '\n' !in p
  {
    assert forall i :: 0 <= i < |p| ==> p[i] == s[i];
  }

  lemma {:induction false} FirstBreakAfter(p: string, rest: string)
    requires NoBreaks(p)
    ensures FirstBreak(p + "\n" + rest) == Some(|p|)
  {
    if |p| > 0 {
      assert (p + "\n" + rest)[1..] == p[1..] + "\n" + rest;
      FirstBreakAfter(p[1..], rest);
    }
  }

  /** Splitting lines undoes joining with `\n` when no line holds a break
      and the last line is not empty. */
  lemma {:induction false} SplitLinesJoin(lines: seq<string>)
    requires |lines| >= 1 && lines[|lines| - 1] != ""
    requires forall i :: 0 <= i < |lines| ==> NoBreaks(lines[i])
    ensures SplitLines(Join(lines, '\n')) == lines
  {
    if |lines| == 1 {
      assert FirstBreak(lines[0]) == None;
    } else {
      var rest := Join(lines[1..], '\n');
      assert Join(lines, '\n') == lines[0] + "\n" + rest;
      SplitLinesCons(lines[0], rest);
      SplitLinesJoin(lines[1..]);
      assert [lines[0]] + lines[1..] == lines;
    }
  }

  /** A break-free line followed by `\n` splits off as the first line. */
  lemma SplitLinesCons(p: string, rest: string)
    requires NoBreaks(p)
    ensures SplitLines(p + "\n" + rest) == [p] + SplitLines(rest)
  {
    var s := p + "\n" + rest;
    FirstBreakAfter(p, rest);
    assert s[..|p|] == p;
    assert s[|p| + 1..] == rest;
  }

  /** Styling styled text again changes nothing, unless the last line was
      blank once stripped (then the blank line is lost the first time). */
  lemma StyledIdempotent(data: string)
    requires data != ""
    requires RStrip(SplitLines(data)[|SplitLines(data)| - 1]) != ""
    ensures Styled(Styled(data).text) == Styled(data)
  {
    var lines := RStripAll(SplitLines(data));
    assert Styled(data) == Scalar(Join(lines, '\n'), |lines| > 1);
    StrippedNoBreaks(data);
    StripStripped(lines, SplitLines(data));
    StyledJoined(lines);
  }

  /** Lines that are already stripped, break-free and end non-empty style
      back to their own `\n`-join. */
  lemma StyledJoined(lines: seq<string>)
    requires |lines| >= 1 && lines[|lines| - 1] != ""
    requires forall i :: 0 <= i < |lines| ==> NoBreaks(lines[i])
    requires RStripAll(lines) == lines
    ensures Styled(Join(lines, '\n')) == Scalar(Join(lines, '\n'), |lines| > 1)
  {
    var text := Join(lines, '\n');
    SplitLinesJoin(lines);
    assert text != "" by { assert |SplitLines(text)| > 0; }
  }

  lemma StrippedNoBreaks(data: string)
    ensures forall i :: 0 <= i < |RStripAll(SplitLines(data))| ==> NoBreaks(RStripAll(SplitLines(data))[i])
  {
    var lines := RStripAll(SplitLines(data));
    forall i | 0 <= i < |lines| ensures NoBreaks(lines[i]) {
      var s := SplitLines(data)[i];
      assert forall k :: 0 <= k < |lines[i]| ==> lines[i][k] == s[k];
    }
  }

  lemma StripStripped(lines: seq<string>, raw: seq<string>)
    requires lines == RStripAll(raw)
    ensures RStripAll(lines) == lines
  {
    var again := RStripAll(lines);
    forall i | 0 <= i < |lines| ensures again[i] == lines[i] {
      RStripIdempotent(raw[i]);
    }
  }

  // ----------------------------------------------------------- print_spec

  /** What `print_spec` writes. */
  datatype Emitted = YamlDocument(spec: Json.Json) | JsonDocument(spec: Json.Json)

  /** `print_spec`: YAML for the `yaml` format setting, JSON for `json`,
      and nothing for any other value. */
  function PrintSpec(format: string, spec: Json.Json): (r: Option<Emitted>)
    ensures r.Some? <==> format == "yaml" || format == "json"
    ensures r.Some? ==> r.value.spec == spec && (r.value.YamlDocument? <==> format == "yaml")
  {
    if format == "yaml" then Some(YamlDocument(spec))
    else if format == "json" then Some(JsonDocument(spec))
    else None
  }
}

=== FILE: paths.dfy ===
/** An abstract file system and the `pathlib` operations the command line
    client uses on it. A path is what `pathlib` parses it into: a root or
    none, and a list of components; joining, taking the parent and making a
    path absolute work on that list, and `str()` writes it back. */
module Paths {
  import opened Strings

  /** Files (with whatever content the caller reads from them) and directories. */
  datatype Fs<T> = Fs(files: map<string, T>, dirs: set<string>) {

    /** `Path(p).exists()` */
    predicate Exists(p: string) {
      p in files || p in dirs
    }

    /** `Path(p).is_dir()` */
    predicate IsDir(p: string) {
      p in dirs
    }

    /** An existing path that is not a directory; `open(p).read()` succeeds. */
    predicate IsFile(p: string) {
      p in files && p !in dirs
    }
  }

  /** `Path(p).is_absolute()` on POSIX. */
  predicate IsAbsolute(p: string) {
    |p| > 0 && p[0] == '/'
  }

  /** A component `pathlib` keeps: not empty, not `.` and free of separators.
      (`..` is kept: only `resolve()` folds it.) */
  predicate IsPart(s: string) {
    s != "" && s != "." && '/' !in s
  }

  /** The pieces between separators, without the empty and `.` ones. */
  function Clean(pieces: seq<string>): (ps: seq<string>)
    requires forall i :: 0 <= i < |pieces| ==> '/' !in pieces[i]
    ensures forall i :: 0 <= i < |ps| ==> IsPart(ps[i])
    ensures |ps| <= |pieces|
  {
    if |pieces| == 0 then []
    else if pieces[0] == "" || pieces[0] == "." then Clean(pieces[1..])
    else [pieces[0]] + Clean(pieces[1..])
  }

  /** Pieces that are all components are kept as they are. */
  lemma {:induction false} CleanKeepsParts(ps: seq<string>)
    requires forall i :: 0 <= i < |ps| ==> IsPart(ps[i])
    ensures (forall i :: 0 <= i < |ps| ==> '/' !in ps[i]) && Clean(ps) == ps
  {
    if |ps| > 0 {
      CleanKeepsParts(ps[1..]);
    }
  }

  /** The components of `p` as `pathlib` parses it. */
  function Parts(p: string): (ps: seq<string>)
    ensures forall i :: 0 <= i < |ps| ==> IsPart(ps[i])
  {
    Clean(Split(p, '/'))
  }

  /** `str()` of a parsed path: the root, then the components joined by `/`;
      `.` for a relative path with no components. */
  function Render(absolute: bool, ps: seq<string>): string {
    if absolute then "/" + Join(ps, '/')
    else if |ps| == 0 then "."
    else Join(ps, '/')
  }

  /** `str(Path(p))` */
  function Normal(p: string): string {
    Render(IsAbsolute(p), Parts(p))
  }

  /** `p` is written the way `pathlib` writes it. */
  predicate IsNormal(p: string) {
    Normal(p) == p
  }

  /** A joined list of components starts with its first component. */
  lemma JoinStartsWithFirst(ps: seq<string>)
    requires |ps| > 0 && IsPart(ps[0])
    ensures |Join(ps, '/')| > 0 && Join(ps, '/')[0] == ps[0][0]
  {
  }

  /** Parsing a written path gives back its root and its components. */
  lemma {:induction false} RenderParts(absolute: bool, ps: seq<string>)
    requires forall i :: 0 <= i < |ps| ==> IsPart(ps[i])
    ensures Parts(Render(absolute, ps)) == ps
    ensures IsAbsolute(Render(absolute, ps)) == absolute
    ensures IsNormal(Render(absolute, ps))
  {
    var s := Render(absolute, ps);
    if absolute {
      IndexOfAfterPrefix("", '/', Join(ps, '/'));
      assert s == "" + ['/'] + Join(ps, '/');
      assert s[1..] == Join(ps, '/');
      if |ps| == 0 {
        assert Split(s, '/') == [""] + [""];
      } else {
        SplitJoin(ps, '/');
        assert Split(s, '/') == [""] + ps;
        assert ([""] + ps)[1..] == ps;
        CleanKeepsParts(ps);
      }
    } else if |ps| == 0 {
      assert s == ".";
      assert Split(s, '/') == ["."];
    } else {
      SplitJoin(ps, '/');
      CleanKeepsParts(ps);
      JoinStartsWithFirst(ps);
    }
  }

  /** Writing a path out and parsing it again changes nothing. */
  lemma NormalIsNormal(p: string)
    ensures IsNormal(Normal(p))
    ensures IsAbsolute(Normal(p)) == IsAbsolute(p) && Parts(Normal(p)) == Parts(p)
  {
    RenderParts(IsAbsolute(p), Parts(p));
  }

  /** `Path(dir).joinpath(p)`, written back: an absolute `p` replaces `dir`;
      otherwise the components of `p` follow those of `dir`, so `.` and
      `./` add nothing. */
  function JoinPath(dir: string, p: string): (r: string)
    ensures IsAbsolute(p) ==> r == Normal(p)
    ensures !IsAbsolute(p) ==> Parts(r) == Parts(dir) + Parts(p)
    ensures IsAbsolute(r) <==> IsAbsolute(dir) || IsAbsolute(p)
    ensures IsNormal(r)
  {
    if IsAbsolute(p) then NormalIsNormal(p); Normal(p)
    else
      var ps := Parts(dir) + Parts(p);
      assert forall i :: 0 <= i < |ps| ==> IsPart(ps[i]) by {
        forall i | 0 <= i < |ps| ensures IsPart(ps[i]) {
          if i >= |Parts(dir)| { assert ps[i] == Parts(p)[i - |Parts(dir)|]; }
        }
      }
      RenderParts(IsAbsolute(dir), ps);
      Render(IsAbsolute(dir), ps)
  }

  /** A lone component is written as itself. */
  lemma PartIsNormal(name: string)
    requires IsPart(name)
    ensures Parts(name) == [name] && IsNormal(name) && !IsAbsolute(name)
  {
    assert Render(false, [name]) == name;
    RenderParts(false, [name]);
  }

  /** Joining `.` gives the directory itself, and a leading `./` adds
      nothing to a relative path. */
  lemma JoinDot(dir: string, p: string)
    ensures JoinPath(dir, ".") == Normal(dir)
    ensures !IsAbsolute(p) ==> JoinPath(dir, "./" + p) == JoinPath(dir, p)
  {
    assert Split(".", '/') == ["."];
    assert Parts(".") == [];
    assert Parts(dir) + [] == Parts(dir);
    if !IsAbsolute(p) {
      IndexOfAfterPrefix(".", '/', p);
      assert "./" + p == "." + ['/'] + p;
      assert ("./" + p)[..1] == ".";
      assert ("./" + p)[2..] == p;
      assert Split("./" + p, '/') == ["."] + Split(p, '/');
      assert (["."] + Split(p, '/'))[1..] == Split(p, '/');
      assert Parts("./" + p) == Parts(p);
      assert !IsAbsolute("./" + p);
    }
  }

  /** A leading `./` and a trailing `/` around one component are not
      written back. */
  lemma DotSlashAroundPart(name: string)
    requires IsPart(name)
    ensures Normal("./" + name + "/") == name
  {
    var p := "./" + name + "/";
    assert p == "." + ['/'] + (name + ['/'] + "");
    SplitAfter(".", '/', name + ['/'] + "");
    SplitAfter(name, '/', "");
    assert Split("", '/') == [""];
    assert Split(p, '/') == ["."] + ([name] + [""]);
    assert Clean([""]) == [];
    assert Clean([name] + [""]) == [name];
    assert Parts(p) == [name];
  }

  /** Joining two non-empty lists of components puts a separator between
      their joins. */
  lemma {:induction false} JoinAppend(a: seq<string>, b: seq<string>)
    requires |a| > 0 && |b| > 0
    ensures Join(a + b, '/') == Join(a, '/') + "/" + Join(b, '/')
    decreases |a|
  {
    assert (a + b)[0] == a[0];
    if |a| == 1 {
      assert (a + b)[1..] == b;
    } else {
      assert (a + b)[1..] == a[1..] + b;
      JoinAppend(a[1..], b);
    }
  }

  /** Joining a relative path that names something onto a directory, both
      written as `pathlib` writes them, puts one separator between them. */
  lemma JoinWithSeparator(dir: string, p: string)
    requires IsNormal(dir) && IsNormal(p) && !IsAbsolute(p)
    requires dir != "/" && dir != "." && p != "."
    ensures JoinPath(dir, p) == dir + "/" + p
  {
    var ds, qs := Parts(dir), Parts(p);
    assert Normal(p) == Render(false, qs) == p;
    assert Normal(dir) == Render(IsAbsolute(dir), ds) == dir;
    RenderAppend(IsAbsolute(dir), ds, qs);
  }

  /** A single component joined onto a normal directory other than `/` and
      `.` follows it after one separator. */
  lemma JoinName(dir: string, name: string)
    requires IsNormal(dir) && dir != "/" && dir != "." && IsPart(name)
    ensures JoinPath(dir, name) == dir + "/" + name
  {
    PartIsNormal(name);
    JoinWithSeparator(dir, name);
  }

  /** Two non-empty lists of components, written out one after the other
      with a separator between them, are their concatenation written out. */
  lemma RenderAppend(absolute: bool, ds: seq<string>, qs: seq<string>)
    requires Render(absolute, ds) != "/" && Render(absolute, ds) != "." && Render(false, qs) != "."
    ensures Render(absolute, ds + qs) == Render(absolute, ds) + "/" + Render(false, qs)
  {
    JoinAppend(ds, qs);
  }

  /** `Path(p).parent`: the path without its last component; a path with no
      components is its own parent. */
  function Parent(p: string): (r: string)
    ensures IsAbsolute(r) == IsAbsolute(p)
    ensures IsNormal(r)
    ensures |Parts(p)| > 0 ==> Parts(r) + [Parts(p)[|Parts(p)| - 1]] == Parts(p)
    ensures |Parts(p)| == 0 ==> r == Normal(p)
  {
    var ps := Parts(p);
    var up := if |ps| == 0 then [] else ps[..|ps| - 1];
    RenderParts(IsAbsolute(p), up);
    Render(IsAbsolute(p), up)
  }

  /** The parent joined with the last component gives the path back. */
  lemma ParentJoin(p: string)
    requires |Parts(p)| > 0
    ensures JoinPath(Parent(p), Parts(p)[|Parts(p)| - 1]) == Normal(p)
  {
    PartIsNormal(Parts(p)[|Parts(p)| - 1]);
  }

  /** `Path(p).absolute()` with working directory `cwd`. */
  function Absolute(cwd: string, p: string): (r: string)
    ensures IsAbsolute(cwd) ==> IsAbsolute(r)
    ensures IsAbsolute(p) ==> r == Normal(p)
    ensures !IsAbsolute(p) ==> Parts(r) == Parts(cwd) + Parts(p)
  {
    JoinPath(cwd, p)
  }

  /** The directory of a bare file name, made absolute, is the working
      directory. */
  lemma BareNameDirectory(cwd: string, name: string)
    requires IsPart(name) && IsNormal(cwd)
    ensures Absolute(cwd, Parent(name)) == cwd
  {
    PartIsNormal(name);
    assert Parent(name) == ".";
    JoinDot(cwd, "x");
  }
}

=== FILE: percent.dfy ===
/** `urllib.parse.quote(s)` with its default `safe="/"`, which the instance
    commands apply to a base path to make the instance name: letters,
    digits, `_.-~` and `/` stay as they are; every other character is
    written as the `%XX` escapes of its UTF-8 bytes, in upper-case hex. A
    decoder for exactly that output is the partner that shows nothing is
    lost. */
module Percent {
  import opened Wrappers

  /** The characters `quote` never escapes with `safe="/"`. */
  predicate IsSafe(c: char) {
    ('A' <= c <= 'Z') || ('a' <= c <= 'z') || ('0' <= c <= '9') || c == '_' || c == '.' || c == '-' || c == '~' || c == '/'
  }

  const HexDigits := "0123456789ABCDEF"

  predicate IsHexDigit(c: char) {
    ('0' <= c <= '9') || ('A' <= c <= 'F')
  }

  function HexDigit(d: nat): (c: char)
    requires d < 16
    ensures IsHexDigit(c)
  {
    HexDigits[d]
  }

  /** The value of an upper-case hex digit. */
  function HexValue(c: char): (r: Option<nat>)
    ensures r.Some? ==> r.value < 16
  {
    if '0' <= c <= '9' then Some(c as int - '0' as int)
    else if 'A' <= c <= 'F' then Some(c as int - 'A' as int + 10)
    else None
  }

  lemma HexRoundTrip(d: nat)
    requires d < 16
    ensures HexValue(HexDigit(d)) == Some(d)
  {
  }

  /** The UTF-8 encoding of one character. */
  function Utf8(c: char): (bs: seq<nat>)
    ensures 1 <= |bs| <= 4
    ensures forall i :: 0 <= i < |bs| ==> bs[i] < 256
  {
    var n := c as int;
    var m := n / 64;
    var k := m / 64;
    if n < 0x80 then [n]
    else if n < 0x800 then [0xC0 + m, 0x80 + n % 64]
    else if n < 0x10000 then [0xE0 + k, 0x80 + m % 64, 0x80 + n % 64]
    else [0xF0 + k / 64, 0x80 + k % 64, 0x80 + m % 64, 0x80 + n % 64]
  }

  function Escape(b: nat): (s: string)
    requires b < 256
    ensures |s| == 3 && s[0] == '%' && IsHexDigit(s[1]) && IsHexDigit(s[2])
  {
    ['%', HexDigit(b / 16), HexDigit(b % 16)]
  }

  function Escapes(bs: seq<nat>): (s: string)
    requires forall i :: 0 <= i < |bs| ==> bs[i] < 256
    ensures |s| == 3 * |bs|
    ensures forall i :: 0 <= i < |s| ==> s[i] == '%' || IsHexDigit(s[i])
  {
    if |bs| == 0 then "" else Escape(bs[0]) + Escapes(bs[1..])
  }

  /** How one character is quoted. */
  function QuoteChar(c: char): string {
    if IsSafe(c) then [c] else Escapes(Utf8(c))
  }

  /** `quote(s)`: the output holds only safe characters, `%` and hex digits. */
  function Quote(s: string): (r: string)
    ensures forall i :: 0 <= i < |r| ==> IsSafe(r[i]) || r[i] == '%' || IsHexDigit(r[i])
  {
    if |s| == 0 then "" else QuoteChar(s[0]) + Quote(s[1..])
  }

  /** A string of safe characters is its own quotation. */
  lemma {:induction false} QuoteSafe(s: string)
    requires forall i :: 0 <= i < |s| ==> IsSafe(s[i])
    ensures Quote(s) == s
  {
    if |s| > 0 {
      QuoteSafe(s[1..]);
      assert [s[0]] + s[1..] == s;
    }
  }

  // ------------------------------------------------------------ decoding

  /** The bytes of `k` escapes at the start of `s`. */
  function ReadEscapes(s: string, k: nat): (r: Option<seq<nat>>)
    ensures r.Some? ==> |r.value| == k && 3 * k <= |s|
    ensures r.Some? ==> forall i :: 0 <= i < k ==> r.value[i] < 256
  {
    if k == 0 then Some([])
    else if |s| >= 3 && s[0] == '%' && HexValue(s[1]).Some? && HexValue(s[2]).Some? then
      match ReadEscapes(s[3..], k - 1)
      case None => None
      case Some(rest) => Some([HexValue(s[1]).value * 16 + HexValue(s[2]).value] + rest)
    else None
  }

  /** The length of the UTF-8 sequence a lead byte opens, or 0 for a byte
      that cannot lead. */
  function SequenceLength(b: nat): nat {
    if b < 0x80 then 1
    else if 0xC0 <= b < 0xE0 then 2
    else if 0xE0 <= b < 0xF0 then 3
    else if 0xF0 <= b < 0xF8 then 4
    else 0
  }

  predicate IsContinuation(b: nat) {
    0x80 <= b < 0xC0
  }

  /** The character a complete UTF-8 sequence encodes, if it is a
      character. */
  function DecodeUtf8(bs: seq<nat>): Option<char>
    requires 1 <= |bs| <= 4
  {
    var n: int :=
      if |bs| == 1 then bs[0]
      else if |bs| == 2 then (bs[0] as int - 0xC0) * 64 + (bs[1] as int - 0x80)
      else if |bs| == 3 then (bs[0] as int - 0xE0) * 4096 + (bs[1] as int - 0x80) * 64 + (bs[2] as int - 0x80)
      else (bs[0] as int - 0xF0) * 262144 + (bs[1] as int - 0x80) * 4096 + (bs[2] as int - 0x80) * 64 + (bs[3] as int - 0x80);
    if (forall i :: 1 <= i < |bs| ==> IsContinuation(bs[i])) && SequenceLength(bs[0]) == |bs|
      && 0 <= n < 0x11_0000 && !(0xD800 <= n < 0xE000)
    then Some(n as char)
    else None
  }

  /** The inverse of `Quote`: escapes are read as UTF-8 sequences, other
      characters stand for themselves. */
  function Unquote(s: string): Option<string>
    decreases |s|
  {
    if |s| == 0 then Some("")
    else if s[0] != '%' then
      match Unquote(s[1..])
      case None => None
      case Some(rest) => Some([s[0]] + rest)
    else
      match ReadEscapes(s, 1)
      case None => None
      case Some(lead) =>
        var k := SequenceLength(lead[0]);
        if k == 0 then None
        else match ReadEscapes(s, k)
          case None => None
          case Some(bs) =>
            match DecodeUtf8(bs)
            case None => None
            case Some(c) =>
              match Unquote(s[3 * k..])
              case None => None
              case Some(rest) => Some([c] + rest)
  }

  /** Reading a prefix of the escapes gives a prefix of the bytes. */
  lemma {:induction false} ReadEscapesPrefix(bs: seq<nat>, t: string, k: nat)
    requires forall i :: 0 <= i < |bs| ==> bs[i] < 256
    requires k <= |bs|
    ensures ReadEscapes(Escapes(bs) + t, k) == Some(bs[..k])
  {
    if k > 0 {
      var b := bs[0];
      var rest := Escapes(bs[1..]) + t;
      assert Escapes(bs) + t == Escape(b) + rest;
      ReadEscapesPrefix(bs[1..], t, k - 1);
      ReadEscapesStep(b, rest, k);
      assert [b] + bs[1..][..k - 1] == bs[..k];
    }
  }

  /** Reading `k` escapes after one escape: its byte, then `k - 1` more. */
  lemma ReadEscapesStep(b: nat, rest: string, k: nat)
    requires b < 256 && k > 0
    ensures ReadEscapes(Escape(b) + rest, k)
         == (match ReadEscapes(rest, k - 1) case None => None case Some(r) => Some([b] + r))
  {
    ReadEscape(b, rest);
  }

  /** One escape followed by anything reads back as its byte. */
  lemma ReadEscape(b: nat, rest: string)
    requires b < 256
    ensures var s := Escape(b) + rest;
      && |s| >= 3 && s[0] == '%'
      && HexValue(s[1]) == Some(b / 16) && HexValue(s[2]) == Some(b % 16)
      && s[3..] == rest
      && HexValue(s[1]).value * 16 + HexValue(s[2]).value == b
  {
    HexRoundTrip(b / 16);
    HexRoundTrip(b % 16);
    assert (Escape(b) + rest)[3..] == rest;
  }

  lemma ReadEscapesBack(bs: seq<nat>, t: string)
    requires forall i :: 0 <= i < |bs| ==> bs[i] < 256
    ensures ReadEscapes(Escapes(bs) + t, |bs|) == Some(bs)
  {
    ReadEscapesPrefix(bs, t, |bs|);
    assert bs[..|bs|] == bs;
  }

  lemma Utf8Decodes(c: char)
    ensures SequenceLength(Utf8(c)[0]) == |Utf8(c)|
    ensures DecodeUtf8(Utf8(c)) == Some(c)
  {
    var n := c as int;
    var m := n / 64;
    var k := m / 64;
    assert n == 64 * m + n % 64;
    assert m == 64 * k + m % 64;
    assert k == 64 * (k / 64) + k % 64;
  }

  /** Decoding a quoted character's text, followed by anything, gives the
      character back followed by the decoding of the rest. */
  lemma UnquoteChar(c: char, t: string)
    ensures Unquote(QuoteChar(c) + t) == (match Unquote(t) case None => None case Some(rest) => Some([c] + rest))
  {
    var s := QuoteChar(c) + t;
    if IsSafe(c) {
      assert s[1..] == t;
    } else {
      var bs := Utf8(c);
      ReadEscapesPrefix(bs, t, 1);
      assert bs[..1] == [bs[0]];
      Utf8Decodes(c);
      ReadEscapesBack(bs, t);
      assert s[3 * |bs|..] == t;
    }
  }

  /** Unquoting undoes quoting. */
  lemma {:induction false} UnquoteQuote(s: string)
    ensures Unquote(Quote(s)) == Some(s)
  {
    if |s| > 0 {
      UnquoteQuote(s[1..]);
      UnquoteChar(s[0], Quote(s[1..]));
      assert [s[0]] + s[1..] == s;
    }
  }

  /** Different base paths never share an instance name. */
  lemma QuoteInjective(a: string, b: string)
    requires Quote(a) == Quote(b)
    ensures a == b
  {
    UnquoteQuote(a);
    UnquoteQuote(b);
  }
}

=== FILE: proxygen_api.dfy ===
/** The Proxygen API client of proxygen_cli/lib/proxygen_api.py: the request
    each operation sends (method, path, parameters, body), the session that
    attaches a bearer token to `/apis/` paths and joins paths onto the
    endpoint URL, and the per-API session memo. */
module ProxygenApi {
  import opened Wrappers
  import opened Strings
  import Json

  type Headers = seq<(string, string)>

  const ApisPrefix := "/apis/"
  const StatusPath := "/_status"

  // ------------------------------------------------------------------ paths

  /** A request path from its segments, each preceded by `/`: the
      f-strings `/apis/{api}/environments/{environment}/...` of the client. */
  function Path(segments: seq<string>): string {
    Join([""] + segments, '/')
  }

  function ApiPath(api: string): string {
    Path(["apis", api])
  }

  function EnvironmentPath(api: string, env: string): string {
    Path(["apis", api, "environments", env])
  }

  function InstancesPath(api: string, env: string): string {
    Path(["apis", api, "environments", env, "instances"])
  }

  function InstancePath(api: string, env: string, name: string): string {
    Path(["apis", api, "environments", env, "instances", name])
  }

  function SecretPath(api: string, env: string, name: string): string {
    Path(["apis", api, "environments", env, "secrets", name])
  }

  lemma UnderApis(segments: seq<string>)
    requires |segments| >= 2 && segments[0] == "apis"
    ensures StartsWith(Path(segments), ApisPrefix)
  {
    var rest := Join(segments[1..], '/');
    assert ([""] + segments)[1..] == segments;
    assert Join(segments, '/') == "apis" + "/" + rest;
    assert Path(segments) == "" + "/" + ("apis" + "/" + rest);
  }

  /** Every path built from an API name is under `/apis/`. */
  lemma ApiPathsUnderApis(api: string, env: string, name: string)
    ensures StartsWith(ApiPath(api), ApisPrefix)
    ensures StartsWith(EnvironmentPath(api, env), ApisPrefix)
    ensures StartsWith(InstancesPath(api, env), ApisPrefix)
    ensures StartsWith(InstancePath(api, env, name), ApisPrefix)
    ensures StartsWith(SecretPath(api, env, name), ApisPrefix)
    ensures !StartsWith(StatusPath, ApisPrefix)
  {
    UnderApis(["apis", api]);
    UnderApis(["apis", api, "environments", env]);
    UnderApis(["apis", api, "environments", env, "instances"]);
    UnderApis(["apis", api, "environments", env, "instances", name]);
    UnderApis(["apis", api, "environments", env, "secrets", name]);
    assert StatusPath[1] != ApisPrefix[1];
  }

  /** A path splits back into an empty piece and its segments when no
      segment holds a `/`. */
  lemma PathSegments(segments: seq<string>)
    requires forall i :: 0 <= i < |segments| ==> '/' !in segments[i]
    ensures Split(Path(segments), '/') == [""] + segments
  {
    SplitJoin([""] + segments, '/');
  }

  /** A secret path splits back into its API, environment and secret name
      when none of them holds a `/`. */
  lemma SecretPathSegments(api: string, env: string, name: string)
    requires '/' !in api && '/' !in env && '/' !in name
    ensures Split(SecretPath(api, env, name), '/') == ["", "apis", api, "environments", env, "secrets", name]
  {
    PathSegments(["apis", api, "environments", env, "secrets", name]);
  }

  /** An instance path splits back into its API, environment and instance
      name when none of them holds a `/`. */
  lemma InstancePathSegments(api: string, env: string, name: string)
    requires '/' !in api && '/' !in env && '/' !in name
    ensures Split(InstancePath(api, env, name), '/') == ["", "apis", api, "environments", env, "instances", name]
  {
    PathSegments(["apis", api, "environments", env, "instances", name]);
  }

  // ------------------------------------------------------------- operations

  /** What an operation asks its session to send. */
  datatype ApiCall = ApiCall(
    api: Option<string>,
    verb: string,
    path: string,
    params: seq<(string, string)>,
    data: Option<string>,
    json: Option<Json.Json>)

  /** An optional API name as an f-string renders it: None becomes `None`. */
  function ApiText(api: Option<string>): string {
    if api.Some? then api.value else "None"
  }

  function Fetch(api: Option<string>, path: string): ApiCall {
    ApiCall(api, "GET", path, [], None, None)
  }

  function Status(): ApiCall { Fetch(None, StatusPath) }

  function GetApi(api: Option<string>): ApiCall { Fetch(api, ApiPath(ApiText(api))) }

  function GetApiEnvironment(api: Option<string>, env: string): ApiCall {
    Fetch(api, EnvironmentPath(ApiText(api), env))
  }

  /** `get_instances` ignores its `instance_name` argument. */
  function GetInstances(api: Option<string>, env: string, instanceName: string): ApiCall {
    Fetch(api, InstancesPath(ApiText(api), env))
  }

  /** Whether a path names the given API, environment, collection and item:
      its `/`-separated pieces are exactly those. */
  predicate Addresses(path: string, api: Option<string>, env: string, collection: string, name: string) {
    Split(path, '/') == ["", "apis", ApiText(api), "environments", env, collection, name]
  }

  /** None of the names holds a `/`, so each stays one path segment. */
  predicate PlainNames(api: Option<string>, env: string, name: string) {
    '/' !in ApiText(api) && '/' !in env && '/' !in name
  }

  /** `get_instance`: a bodiless GET under `/apis/` of the named instance. */
  function GetInstance(api: Option<string>, env: string, name: string): (r: ApiCall)
    ensures r.verb == "GET" && r.api == api && r.params == [] && r.data.None? && r.json.None?
    ensures StartsWith(r.path, ApisPrefix)
    ensures PlainNames(api, env, name) ==> Addresses(r.path, api, env, "instances", name)
  {
    ApiPathsUnderApis(ApiText(api), env, name);
    if PlainNames(api, env, name) then
      InstancePathSegments(ApiText(api), env, name);
      Fetch(api, InstancePath(ApiText(api), env, name))
    else Fetch(api, InstancePath(ApiText(api), env, name))
  }

  /** `delete_instance`: a bodiless DELETE of the named instance. */
  function DeleteInstance(api: Option<string>, env: string, name: string): (r: ApiCall)
    ensures r.verb == "DELETE" && r.api == api && r.params == [] && r.data.None? && r.json.None?
    ensures r.path == GetInstance(api, env, name).path
  {
    ApiCall(api, "DELETE", InstancePath(ApiText(api), env, name), [], None, None)
  }

  /** `put_instance`: the spec is the JSON body of a PUT to the named instance. */
  function PutInstance(api: Option<string>, env: string, name: string, spec: Json.Json): (r: ApiCall)
    ensures r.verb == "PUT" && r.api == api && r.params == [] && r.data.None? && r.json == Some(spec)
    ensures r.path == GetInstance(api, env, name).path
  {
    ApiCall(api, "PUT", InstancePath(ApiText(api), env, name), [], None, Some(spec))
  }

  /** `get_secret`: a bodiless GET under `/apis/` of the named secret. */
  function GetSecret(api: Option<string>, env: string, name: string): (r: ApiCall)
    ensures r.verb == "GET" && r.api == api && r.params == [] && r.data.None? && r.json.None?
    ensures StartsWith(r.path, ApisPrefix)
    ensures PlainNames(api, env, name) ==> Addresses(r.path, api, env, "secrets", name)
  {
    ApiPathsUnderApis(ApiText(api), env, name);
    if PlainNames(api, env, name) then
      SecretPathSegments(ApiText(api), env, name);
      Fetch(api, SecretPath(ApiText(api), env, name))
    else Fetch(api, SecretPath(ApiText(api), env, name))
  }

  /** `put_secret`: the value is the raw body; the `type` query parameter is
      sent iff a non-empty type is given. */
  function PutSecret(api: Option<string>, env: string, name: string, value: string, secretType: Option<string>): (r: ApiCall)
    ensures r.params == [] <==> !(secretType.Some? && secretType.value != "")
    ensures r.params != [] ==> r.params == [("type", secretType.value)]
    ensures r.data == Some(value) && r.path == SecretPath(ApiText(api), env, name) && r.verb == "PUT"
  {
    var params := if secretType.Some? && secretType.value != "" then [("type", secretType.value)] else [];
    ApiCall(api, "PUT", SecretPath(ApiText(api), env, name), params, Some(value), None)
  }

  /** `delete_secret`: a bodiless DELETE of the secret `get_secret` reads. */
  function DeleteSecret(api: Option<string>, env: string, name: string): (r: ApiCall)
    ensures r.verb == "DELETE" && r.api == api && r.params == [] && r.data.None? && r.json.None?
    ensures r.path == GetSecret(api, env, name).path
  {
    ApiCall(api, "DELETE", SecretPath(ApiText(api), env, name), [], None, None)
  }

  /** `resp.json()`: the parsed body, or a decoding error. */
  function Body(parsed: Option<Json.Json>): (r: Result<Json.Json, string>)
    ensures r.Ok? <==> parsed.Some?
    ensures r.Ok? ==> r.value == parsed.value
  {
    if parsed.Some? then Ok(parsed.value) else Err("JSONDecodeError")
  }

  /** `delete_instance`'s reply: the parsed body, or None when the body is
      not JSON; unlike every other operation it never fails on the body. */
  function DeleteInstanceBody(parsed: Option<Json.Json>): (r: Option<Json.Json>)
    ensures r.Some? <==> Body(parsed).Ok?
    ensures r.Some? ==> r.value == Body(parsed).value
  {
    parsed
  }

  // ----------------------------------------------------------- the session

  /** A URL with a scheme and an authority: its first `:` opens `://`. */
  predicate IsAbsoluteUrl(url: string) {
    match IndexOf(url, ':')
    case Some(i) => 0 < i && i + 3 <= |url| && url[i..i + 3] == "://"
    case None => false
  }

  /** A scheme without `:` followed by `://` makes an absolute URL. */
  lemma SchemeAndAuthority(scheme: string, rest: string)
    requires 0 < |scheme| && ':' !in scheme
    ensures IsAbsoluteUrl(scheme + "://" + rest)
  {
    var url := scheme + "://" + rest;
    assert url == scheme + [':'] + ("//" + rest);
    IndexOfAfterPrefix(scheme, ':', "//" + rest);
    assert url[|scheme|..|scheme| + 3] == "://";
  }

  /** The end of the authority: the first `/`, `?` or `#` at or after `from`. */
  function AuthorityEnd(url: string, from: nat): (e: nat)
    requires from <= |url|
    ensures from <= e <= |url|
    ensures forall k :: from <= k < e ==> url[k] != '/' && url[k] != '?' && url[k] != '#'
    ensures e < |url| ==> url[e] == '/' || url[e] == '?' || url[e] == '#'
    decreases |url| - from
  {
    if from == |url| || url[from] == '/' || url[from] == '?' || url[from] == '#' then from
    else AuthorityEnd(url, from + 1)
  }

  /** The scheme and authority of an absolute URL. */
  function Origin(url: string): (o: string)
    requires IsAbsoluteUrl(url)
    ensures StartsWith(url, o) && StartsWith(o, url[..IndexOf(url, ':').value + 3])
  {
    var i := IndexOf(url, ':').value;
    var o := url[..AuthorityEnd(url, i + 3)];
    assert o[..i + 3] == url[..i + 3];
    o
  }

  /** A reference as `urlsplit` divides it when it has no scheme or
      authority: the fragment follows the first `#`, the query the first `?`
      before that, and the path is what comes first. An absent part is None;
      a part that is present may be empty. */
  datatype Reference = Reference(path: string, query: Option<string>, fragment: Option<string>)

  /** The text a reference is made of, every mark kept. */
  function RefText(r: Reference): string {
    r.path + (if r.query.Some? then "?" + r.query.value else "")
      + (if r.fragment.Some? then "#" + r.fragment.value else "")
  }

  /** `url.split('?', 1)` on what precedes the fragment. */
  function SplitQuery(s: string): (r: (string, Option<string>))
    ensures RefText(Reference(r.0, r.1, None)) == s
    ensures '?' !in r.0
  {
    match IndexOf(s, '?')
    case Some(i) => assert s == s[..i] + "?" + s[i + 1..]; (s[..i], Some(s[i + 1..]))
    case None => (s, None)
  }

  /** `urlsplit` of a reference with no scheme or authority: it reads back as
      the text it was split from, and its path holds neither mark. */
  function SplitRef(ref: string): (r: Reference)
    ensures RefText(r) == ref
    ensures '?' !in r.path && '#' !in r.path
    ensures r.query.Some? ==> '#' !in r.query.value
    ensures StartsWith(ref, r.path)
    ensures |r.path| < |ref| ==> ref[|r.path|] == '?' || ref[|r.path|] == '#'
  {
    var r := (match IndexOf(ref, '#')
      case Some(i) =>
        var (p, q) := SplitQuery(ref[..i]);
        BeforeMark(ref, i, RefText(Reference(p, q, None)));
        WithFragment(p, q, ref[i + 1..]);
        Reference(p, q, Some(ref[i + 1..]))
      case None =>
        var (p, q) := SplitQuery(ref);
        Reference(p, q, None));
    RefTextMarks(r);
    r
  }

  /** What precedes the first `#` of `ref` is everything before index `i`. */
  lemma BeforeMark(ref: string, i: nat, s: string)
    requires IndexOf(ref, '#') == Some(i) && s == ref[..i]
    ensures ref == s + "#" + ref[i + 1..]
    ensures '#' !in s
  {
  }

  /** A fragment is written after the rest of the reference. */
  lemma WithFragment(p: string, q: Option<string>, f: string)
    ensures RefText(Reference(p, q, Some(f))) == RefText(Reference(p, q, None)) + "#" + f
  {
  }

  /** A reference's text opens with its path, followed by a mark when
      anything follows. */
  lemma RefTextMarks(r: Reference)
    ensures StartsWith(RefText(r), r.path)
    ensures |r.path| < |RefText(r)| ==> RefText(r)[|r.path|] == '?' || RefText(r)[|r.path|] == '#'
  {
    var rest := RefText(r)[|r.path|..];
    assert RefText(r) == r.path + rest;
  }

  /** `urlunsplit`: a query or fragment is written with its mark only when it
      is not empty, so the text comes back unchanged exactly when neither is
      present and empty. */
  function Unsplit(r: Reference): (s: string)
    ensures StartsWith(s, r.path)
    ensures s == RefText(r) <==> r.query != Some("") && r.fragment != Some("")
  {
    var q := if r.query.Some? && r.query.value != "" then "?" + r.query.value else "";
    var f := if r.fragment.Some? && r.fragment.value != "" then "#" + r.fragment.value else "";
    assert |RefText(r)| == |r.path + q + f| + (if r.query == Some("") then 1 else 0) + (if r.fragment == Some("") then 1 else 0);
    r.path + q + f
  }

  /** A base `urljoin` is modelled on: the scheme `http` or `https`, written
      in lower case as `urlsplit` would leave it, and no character that
      `urlsplit` strips or refuses (space, control characters, non-ASCII,
      square brackets). */
  predicate HttpBase(base: string) {
    && (StartsWith(base, "http://") || StartsWith(base, "https://"))
    && forall k :: 0 <= k < |base| ==> ' ' < base[k] < '\U{7f}' && base[k] != '[' && base[k] != ']'
  }

  /** The parameters `_splitparams` takes off the last segment (after its
      first `;`) come back unchanged: they are not empty, and the segment
      before them is not `.` or `..`, which the join would fold. */
  predicate PlainParams(last: string) {
    match IndexOf(last, ';')
    case None => true
    case Some(j) => j + 1 < |last| && last[..j] != "." && last[..j] != ".."
  }

  /** An absolute path `urljoin` gives back as written: it folds `.` and
      `..` segments (section 5.2.4 of RFC 3986), so none may occur. Empty
      segments are kept, as Python filters them only for relative
      references. */
  predicate PlainPath(path: string) {
    var segments := Split(path, '/');
    && (forall i :: 0 <= i < |segments| ==> segments[i] != "." && segments[i] != "..")
    && PlainParams(segments[|segments| - 1])
  }

  /** The references the join is modelled for: an absolute path (section
      5.2.2 of RFC 3986) without an authority, free of the tab and line
      breaks `urlsplit` deletes, whose path comes back as written, onto an
      `http` or `https` base. */
  predicate Joinable(base: string, ref: string) {
    && HttpBase(base)
    && StartsWith(ref, "/") && !StartsWith(ref, "//")
    && NoLineBreaks(ref)
    && PlainPath(SplitRef(ref).path)
  }

  /** Free of the tab and line breaks `urlsplit` deletes. */
  predicate NoLineBreaks(s: string) {
    forall k :: 0 <= k < |s| ==> s[k] != '\t' && s[k] != '\n' && s[k] != '\r'
  }

  /** `urljoin(base, ref)` for an absolute-path reference: the base's scheme
      and authority, then the reference's path, query and fragment as
      `urlunsplit` writes them. The URL ends in the reference exactly when
      the reference has no empty query or fragment. Other references and
      bases are not modelled and give None. */
  function UrlJoin(base: string, ref: string): (r: Option<string>)
    requires IsAbsoluteUrl(base)
    ensures r.Some? <==> Joinable(base, ref)
    ensures r.Some? ==> StartsWith(r.value, Origin(base) + SplitRef(ref).path)
    ensures r.Some? ==> (r.value == Origin(base) + ref <==>
      SplitRef(ref).query != Some("") && SplitRef(ref).fragment != Some(""))
  {
    if Joinable(base, ref) then
      var parts := SplitRef(ref);
      var u := Unsplit(parts);
      assert (Origin(base) + u == Origin(base) + ref) <==> u == ref;
      Some(Origin(base) + u)
    else None
  }

  /** An empty query or fragment mark is dropped: `/x?` and `/x#` join as
      `/x` does. */
  lemma EmptyQueryDropped(base: string, p: string)
    requires IsAbsoluteUrl(base)
    requires '?' !in p && '#' !in p
    ensures UrlJoin(base, p + "?") == UrlJoin(base, p)
    ensures UrlJoin(base, p + "#") == UrlJoin(base, p)
  {
    EmptyMarkDropped(base, p, '?');
    EmptyMarkDropped(base, p, '#');
  }

  /** One trailing mark with nothing after it changes nothing. */
  lemma EmptyMarkDropped(base: string, p: string, m: char)
    requires IsAbsoluteUrl(base)
    requires '?' !in p && '#' !in p && (m == '?' || m == '#')
    ensures UrlJoin(base, p + [m]) == UrlJoin(base, p)
  {
    TrailingMarkSplit(p, m);
    JoinableWithMark(base, p, m);
    assert Unsplit(SplitRef(p + [m])) == p;
  }

  /** A trailing mark does not change whether a path is joinable. */
  lemma JoinableWithMark(base: string, p: string, m: char)
    requires '?' !in p && '#' !in p && (m == '?' || m == '#')
    ensures Joinable(base, p + [m]) == Joinable(base, p)
  {
    TrailingMarkSplit(p, m);
    MarkAppended(p, m);
  }

  /** Appending a character other than a separator or line break keeps a
      text's leading separators and its freedom from line breaks. */
  lemma MarkAppended(p: string, m: char)
    requires m != '/' && m != '\t' && m != '\n' && m != '\r'
    ensures NoLineBreaks(p + [m]) == NoLineBreaks(p)
    ensures StartsWith(p + [m], "/") == StartsWith(p, "/")
    ensures StartsWith(p + [m], "//") == StartsWith(p, "//")
  {
    assert forall k :: 0 <= k < |p| ==> (p + [m])[k] == p[k];
    if |p| >= 2 {
      assert (p + [m])[..2] == p[..2];
    } else if |p| == 1 {
      assert (p + [m])[..1] == p == p[..1] && (p + [m])[..2][1] == m;
    } else {
      assert p + [m] == [m] && [m][..1][0] == m;
    }
  }

  /** How a path followed by one mark is split. */
  lemma TrailingMarkSplit(p: string, m: char)
    requires '?' !in p && '#' !in p && (m == '?' || m == '#')
    ensures SplitRef(p) == Reference(p, None, None)
    ensures SplitRef(p + [m]) == if m == '?' then Reference(p, Some(""), None) else Reference(p, None, Some(""))
  {
    IndexOfAfterPrefix(p, m, "");
    assert p + [m] == p + [m] + "";
  }

  /** A `..` segment is folded away by `urljoin`, so such a path is never
      joined as written. */
  lemma DotDotNotKept(base: string, head: string, rest: string)
    requires IsAbsoluteUrl(base)
    requires forall k :: 0 <= k < |head| ==> head[k] != '/' && head[k] != '?' && head[k] != '#'
    ensures UrlJoin(base, "/" + head + "/../" + rest) == None
  {
    var path := "/" + head + "/../" + rest;
    var n := |head| + 5;
    assert forall k :: 0 <= k < n ==> path[k] != '?' && path[k] != '#' by {
      forall k | 0 <= k < n ensures path[k] != '?' && path[k] != '#' {
        if 1 <= k <= |head| { assert path[k] == head[k - 1]; }
      }
    }
    var p := SplitRef(path).path;
    PathKeepsPrefix(path, n);
    assert path[..n] == "/" + head + "/../";
    DotDotSegment(head, p[n..]);
    assert p == p[..n] + p[n..];
    assert Split(p, '/')[2] == "..";
  }

  /** The path part of a reference runs at least to its first `?` or `#`. */
  lemma PathKeepsPrefix(ref: string, n: nat)
    requires n <= |ref|
    requires forall k :: 0 <= k < n ==> ref[k] != '?' && ref[k] != '#'
    ensures |SplitRef(ref).path| >= n && SplitRef(ref).path[..n] == ref[..n]
  {
  }

  /** The third `/`-separated segment of `/head/../tail` is `..`. */
  lemma DotDotSegment(head: string, tail: string)
    requires '/' !in head
    ensures |Split("/" + head + "/../" + tail, '/')| > 2
    ensures Split("/" + head + "/../" + tail, '/')[2] == ".."
  {
    DotDotShape(head, tail);
    SplitAfter("", '/', head + ['/'] + (".." + ['/'] + tail));
    SplitAfter(head, '/', ".." + ['/'] + tail);
    SplitAfter("..", '/', tail);
  }

  /** The text of `/head/../tail`, cut where `Split` sees its separators. */
  lemma DotDotShape(head: string, tail: string)
    ensures "/" + head + "/../" + tail == "" + ['/'] + (head + ['/'] + (".." + ['/'] + tail))
  {
  }

  lemma {:induction false} AuthorityRunsToEnd(url: string, from: nat)
    requires from <= |url|
    requires forall k :: from <= k < |url| ==> url[k] != '/' && url[k] != '?' && url[k] != '#'
    ensures AuthorityEnd(url, from) == |url|
    decreases |url| - from
  {
    if from < |url| {
      AuthorityRunsToEnd(url, from + 1);
    }
  }

  /** An endpoint with no path, query or fragment is its own scheme and
      authority. */
  lemma OriginOfBare(scheme: string, host: string)
    requires 0 < |scheme| && ':' !in scheme
    requires forall k :: 0 <= k < |host| ==> host[k] != '/' && host[k] != '?' && host[k] != '#'
    ensures IsAbsoluteUrl(scheme + "://" + host)
    ensures Origin(scheme + "://" + host) == scheme + "://" + host
  {
    var base := scheme + "://" + host;
    SchemeAndAuthority(scheme, host);
    assert base == scheme + [':'] + ("//" + host);
    IndexOfAfterPrefix(scheme, ':', "//" + host);
    var i := |scheme|;
    assert forall k :: i + 3 <= k < |base| ==> base[k] == host[k - i - 3];
    AuthorityRunsToEnd(base, i + 3);
    assert base[..|base|] == base;
  }

  /** An `http` or `https` endpoint with no path, query or fragment (such as
      `https://proxygen.prod.api.platform.nhs.uk`, the default of
      `endpoint_url` in lib/settings.py) is followed by the reference as
      written, when the reference is joinable and has no empty query or
      fragment. */
  lemma JoinOntoBareEndpoint(scheme: string, host: string, ref: string)
    requires 0 < |scheme| && ':' !in scheme
    requires forall k :: 0 <= k < |host| ==> host[k] != '/' && host[k] != '?' && host[k] != '#'
    requires Joinable(scheme + "://" + host, ref)
    requires SplitRef(ref).query != Some("") && SplitRef(ref).fragment != Some("")
    ensures IsAbsoluteUrl(scheme + "://" + host)
    ensures UrlJoin(scheme + "://" + host, ref) == Some(scheme + "://" + host + ref)
  {
    OriginOfBare(scheme, host);
  }

  /** What `ProxygenSession.request` hands to `requests`: the HTTP verb, the
      full URL and the headers (None when the caller supplied none and none
      were added), and whether it fetched an access token to do so. */
  datatype Prepared = Prepared(verb: string, url: Option<string>, headers: Option<Headers>, fetchedToken: bool)

  /** `ProxygenSession.request`: a path under `/apis/` gets an
      `Authorization: Bearer <token>` header, added to or replacing the one
      in the caller's headers; the path is joined onto the endpoint. `token`
      is what `access_token()` returns. */
  function Request(endpoint: string, verb: string, path: string, headers: Option<Headers>, token: string): (r: Prepared)
    requires IsAbsoluteUrl(endpoint)
    ensures r.fetchedToken <==> StartsWith(path, ApisPrefix)
    ensures r.fetchedToken ==> r.headers.Some? && |r.headers.value| >= |headers.GetOr([])|
    ensures r.fetchedToken ==>
      && Json.MemberIndex(r.headers.value, "Authorization").Some?
      && r.headers.value[Json.MemberIndex(r.headers.value, "Authorization").value].1 == "Bearer " + token
    ensures r.fetchedToken ==> forall h :: h != "Authorization" ==>
      Json.MemberIndex(r.headers.value, h) == Json.MemberIndex(headers.GetOr([]), h)
    ensures r.fetchedToken ==> forall i :: 0 <= i < |headers.GetOr([])| && headers.GetOr([])[i].0 != "Authorization" ==>
      r.headers.value[i] == headers.GetOr([])[i]
    ensures !r.fetchedToken ==> r.headers == headers
    ensures r.url == UrlJoin(endpoint, path)
  {
    if StartsWith(path, ApisPrefix) then
      Prepared(verb, UrlJoin(endpoint, path), Some(Json.Assign(headers.GetOr([]), "Authorization", "Bearer " + token)), true)
    else
      Prepared(verb, UrlJoin(endpoint, path), headers, false)
  }

  /** `_PROXYGEN_SESSIONS`: the session created for each API name (None is
      a name too), identified by number, and the next number to hand out. */
  datatype Sessions = Sessions(byApi: map<Option<string>, nat>, next: nat) {
    predicate Valid() {
      && (forall a :: a in byApi ==> byApi[a] < next)
      && (forall a, b :: a in byApi && b in byApi && a != b ==> byApi[a] != byApi[b])
    }
  }

  /** `_session(api)`: the memoised session, created on first use. */
  function Session(s: Sessions, api: Option<string>): (r: (Sessions, nat))
    requires s.Valid()
    ensures r.0.Valid()
    ensures api in s.byApi ==> r == (s, s.byApi[api])
    ensures api !in s.byApi ==> r.0.byApi == s.byApi[api := r.1] && forall a :: a in s.byApi ==> s.byApi[a] != r.1
  {
    if api in s.byApi then (s, s.byApi[api])
    else (Sessions(s.byApi[api := s.next], s.next + 1), s.next)
  }

  /** Asking twice for the same API's session gives the same session and
      changes nothing the second time. */
  lemma SessionMemoised(s: Sessions, api: Option<string>)
    requires s.Valid()
    ensures var (s1, id1) := Session(s, api);
      Session(s1, api) == (s1, id1)
  {
  }

  /** Different APIs never share a session. */
  lemma SessionsDistinct(s: Sessions, a: Option<string>, b: Option<string>)
    requires s.Valid() && a != b
    ensures var (s1, ida) := Session(s, a);
      var (s2, idb) := Session(s1, b);
      ida != idb
  {
  }

  /** Sending an operation's call through its API's session. */
  function Send(s: Sessions, endpoint: string, call: ApiCall, token: string): (r: (Sessions, nat, Prepared))
    requires s.Valid() && IsAbsoluteUrl(endpoint)
    ensures r.0.Valid()
    ensures (r.0, r.1) == Session(s, call.api)
    ensures r.2 == Request(endpoint, call.verb, call.path, None, token)
  {
    var (s', id) := Session(s, call.api);
    (s', id, Request(endpoint, call.verb, call.path, None, token))
  }

  /** Every operation on an API's resources sends a bearer token; the status
      check does not. */
  lemma TokenOnlyForApis(s: Sessions, endpoint: string, token: string, api: Option<string>, env: string, name: string)
    requires s.Valid() && IsAbsoluteUrl(endpoint)
    ensures Send(s, endpoint, PutSecret(api, env, name, "", None), token).2.fetchedToken
    ensures Send(s, endpoint, DeleteInstance(api, env, name), token).2.fetchedToken
    ensures !Send(s, endpoint, Status(), token).2.fetchedToken
  {
    ApiPathsUnderApis(ApiText(api), env, name);
  }
}

=== FILE: secret_command.dfy ===
/** The `secret` command group: it refuses to run without an API, then `put`
    takes the secret from exactly one of a value or a file, `describe`
    fetches it, and `delete` asks for confirmation after looking it up. The
    `list` sub-command is not part of this model. */
module SecretCommand {
  import opened Wrappers
  import opened Json
  import opened ProxygenApi
  import opened Cli
  import opened Paths

  const NoApiMessage := "You must set the API before using this command: see `proxygen settings`"
  const NeitherMessage := "Please specify one of --secret-value and --secret-file."
  const BothMessage := "Please specify one of --secret-value and --secret-file, not both."
  const ApiKeyType := "apikey"

  /** The group callback, which runs before the sub-command's arguments are
      checked: a missing API is a usage error. */
  function Group(api: Option<string>): (r: Result<string, CommandError>)
    ensures r.Ok? <==> api.Some?
    ensures r.Ok? ==> r.value == api.value
    ensures r.Err? ==> r.error == UsageError(NoApiMessage)
  {
    if api.None? then Err(UsageError(NoApiMessage)) else Ok(api.value)
  }

  function MissingFileMessage(file: string): string {
    "Cannot find secret file " + file + "."
  }

  /** The secret's text: the value given, or the contents of the file given.
      A missing file is reported as a ValueError; a directory is not caught. */
  function SecretText(value: Option<string>, file: Option<string>, fs: Fs<string>): (r: Result<string, CommandError>)
    ensures r.Ok? <==> (value.Some? != file.Some?) && (file.Some? ==> fs.IsFile(file.value))
    ensures r.Ok? && value.Some? ==> r.value == value.value
    ensures r.Ok? && file.Some? ==> r.value == fs.files[file.value]
    ensures value.None? && file.None? ==> r == Err(UsageError(NeitherMessage))
    ensures value.Some? && file.Some? ==> r == Err(UsageError(BothMessage))
    ensures value.None? && file.Some? && !fs.Exists(file.value) ==> r == Err(ValueErrorRaised(MissingFileMessage(file.value)))
    ensures value.None? && file.Some? && fs.IsDir(file.value) ==> r == Err(IsADirectory(file.value))
  {
    if value.None? && file.None? then Err(UsageError(NeitherMessage))
    else if value.Some? && file.Some? then Err(UsageError(BothMessage))
    else if value.Some? then Ok(value.value)
    else if !fs.Exists(file.value) then Err(ValueErrorRaised(MissingFileMessage(file.value)))
    else if fs.IsDir(file.value) then Err(IsADirectory(file.value))
    else Ok(fs.files[file.value])
  }

  /** `--apikey` tags the secret with the `apikey` type; otherwise it has none. */
  function SecretType(apikey: bool): (t: Option<string>)
    ensures t.Some? <==> apikey
    ensures t.Some? ==> t.value == ApiKeyType
  {
    if apikey then Some(ApiKeyType) else None
  }

  /** `secret put`: one request, and only once the API, the environment and
      exactly one source of the secret are in order. */
  function Put(api: Option<string>, env: string, name: string, value: Option<string>, file: Option<string>,
               apikey: bool, fs: Fs<string>, server: Server): (r: Run)
    ensures |r.calls| <= 1 && r.prompts == []
    ensures r.calls != [] <==>
      api.Some? && IsEnv(env) && (value.Some? != file.Some?) && (file.Some? ==> fs.IsFile(file.value))
    ensures r.calls != [] ==>
      var sent := r.calls[0];
      && sent.verb == "PUT"
      && sent.path == SecretPath(api.value, env, name)
      && sent.data == Some(if value.Some? then value.value else fs.files[file.value])
      && sent.params == (if apikey then [("type", ApiKeyType)] else [])
    ensures api.None? ==> r.result == Err(UsageError(NoApiMessage))
  {
    match Group(api)
    case Err(e) => Run([], [], Err(e))
    case Ok(_) =>
      if !IsEnv(env) then Run([], [], Err(BadChoice(env)))
      else
        match SecretText(value, file, fs)
        case Err(e) => Run([], [], Err(e))
        case Ok(text) => Reply(server, [], [], PutSecret(api, env, name, text, SecretType(apikey)))
  }

  /** `secret describe`: fetch the secret. */
  function Describe(api: Option<string>, env: string, name: string, server: Server): (r: Run)
    ensures r.calls != [] <==> api.Some? && IsEnv(env)
    ensures r.calls != [] ==> r.calls == [GetSecret(api, env, name)] && (r.result.Ok? <==> server(GetSecret(api, env, name)).Some?)
  {
    match Group(api)
    case Err(e) => Run([], [], Err(e))
    case Ok(_) =>
      if !IsEnv(env) then Run([], [], Err(BadChoice(env)))
      else Reply(server, [], [], GetSecret(api, env, name))
  }

  function AbsentMessage(name: string, env: string): string {
    "A secret named " + name + " does not exist in " + env + "."
  }

  function DeletePrompt(name: string, env: string): string {
    "Delete secret " + name + " from " + env + "?"
  }

  /** `secret delete`: unless `--no-confirm`, look the secret up, refuse a
      secret that comes back as null, and ask; the delete request is sent
      only when every check passed. */
  function Delete(api: Option<string>, env: string, name: string, noConfirm: bool, confirmed: bool, server: Server): (r: Run)
    ensures var lookup := server(GetSecret(api, env, name));
      var del := DeleteSecret(api, env, name);
      && (del in r.calls <==>
            api.Some? && IsEnv(env) && (noConfirm || (lookup.Some? && lookup.value != JNull && confirmed)))
      && (r.result == Err(BadArgumentUsage(AbsentMessage(name, env))) <==>
            api.Some? && IsEnv(env) && !noConfirm && lookup == Some(JNull))
      && (r.result == Err(Aborted) <==>
            api.Some? && IsEnv(env) && !noConfirm && lookup.Some? && lookup.value != JNull && !confirmed)
    ensures api.Some? && IsEnv(env) && !noConfirm ==> r.calls != [] && r.calls[0] == GetSecret(api, env, name)
    ensures r.prompts != [] ==> r.prompts == [DeletePrompt(name, env)]
  {
    var del := DeleteSecret(api, env, name);
    match Group(api)
    case Err(e) => Run([], [], Err(e))
    case Ok(_) =>
      if !IsEnv(env) then Run([], [], Err(BadChoice(env)))
      else if noConfirm then Reply(server, [], [], del)
      else
        var get := GetSecret(api, env, name);
        var shown := Reply(server, [], [], get);
        assert del != get;
        if shown.result.Err? then shown
        else if shown.result.value == Some(JNull) then Run([], shown.calls, Err(BadArgumentUsage(AbsentMessage(name, env))))
        else if !confirmed then Run([DeletePrompt(name, env)], shown.calls, Err(Aborted))
        else Reply(server, [DeletePrompt(name, env)], shown.calls, del)
  }
}

=== FILE: spec.dfy ===
/** The OpenAPI `$ref` resolver of proxygen_cli/lib/spec.py: find every
    reference to a local file in a loaded spec, then replace the node holding
    each reference by the document the referenced file holds. The tree logic
    (`_find_file_refs`, `_update_obj`) is textually the same in the older
    proxygen_cli/spec.py, whose `resolve` is modelled in LegacySpec. */
module Spec {
  import opened Wrappers
  import opened Strings
  import opened Json
  import opened Paths

  // ---------------------------------------------------------------------
  // Which strings are file references

  predicate IsAsciiLetter(c: char) {
    ('a' <= c <= 'z') || ('A' <= c <= 'Z')
  }

  /** `urllib.parse.scheme_chars`: letters, digits, `+`, `-` and `.`. */
  predicate IsSchemeChar(c: char) {
    IsAsciiLetter(c) || IsDigit(c) || c == '+' || c == '-' || c == '.'
  }

  /** `urlparse(s).scheme` is non-empty: text before the first `:` that starts
      with a letter and holds only scheme characters. */
  predicate HasScheme(s: string) {
    match IndexOf(s, ':')
    case None => false
    case Some(i) =>
      i > 0 && IsAsciiLetter(s[0]) && forall k :: 0 <= k < i ==> IsSchemeChar(s[k])
  }

  /** A `$ref` value names a local file: it is neither internal (`#...`) nor
      remote (has a URL scheme). */
  predicate IsFileRef(s: string) {
    !(|s| > 0 && s[0] == '#') && !HasScheme(s)
  }

  // ---------------------------------------------------------------------
  // `_find_file_refs`

  /** A file reference found in a spec: where it sits and what it names. */
  datatype FileRef = FileRef(path: Path, ref: string)

  function NumChildren(j: Json): nat {
    match j
    case JObj(ms) => |ms|
    case JArr(xs) => |xs|
    case _ => 0
  }

  /** The step leading to the `i`-th child: its key, or its index. */
  function StepAt(j: Json, i: nat): Step
    requires i < NumChildren(j)
  {
    match j
    case JObj(ms) => Key(ms[i].0)
    case JArr(xs) => Idx(i)
  }

  function ChildAt(j: Json, i: nat): (c: Json)
    requires i < NumChildren(j)
    ensures c < j
  {
    match j
    case JObj(ms) => assert ms[i] in ms; ms[i].1
    case JArr(xs) => xs[i]
  }

  /** The file references under `j`, which sits at `loc`: dict values in key
      order, list items in index order, and a string leaf when it is the value
      of a `$ref` key and names a file. */
  function Refs(j: Json, loc: Path): seq<FileRef>
    decreases j, 1
  {
    match j
    case JStr(s) =>
      if |loc| > 0 && loc[|loc| - 1] == Key("$ref") && IsFileRef(s) then [FileRef(loc, s)] else []
    case JObj(_) => RefsFrom(j, 0, loc)
    case JArr(_) => RefsFrom(j, 0, loc)
    case _ => []
  }

  /** The file references under the children of `j` from the `i`-th on. */
  function RefsFrom(j: Json, i: nat, loc: Path): seq<FileRef>
    decreases j, 0, NumChildren(j) - i
  {
    if i >= NumChildren(j) then []
    else Refs(ChildAt(j, i), loc + [StepAt(j, i)]) + RefsFrom(j, i + 1, loc)
  }

  /** `_find_file_refs(spec)`: every reported reference is a string reached
      by its own path, that path ends in a `$ref` key, and the string names a
      file. */
  function FindFileRefs(spec: Json): (refs: seq<FileRef>)
    ensures UniqueKeys(spec) ==> forall k :: 0 <= k < |refs| ==>
      && Get(spec, refs[k].path) == Some(JStr(refs[k].ref))
      && |refs[k].path| > 0 && refs[k].path[|refs[k].path| - 1] == Key("$ref")
      && IsFileRef(refs[k].ref)
  {
    var refs := Refs(spec, []);
    if UniqueKeys(spec) then
      assert forall k :: 0 <= k < |refs| ==> Get(spec, refs[k].path) == Some(JStr(refs[k].ref)) by {
        forall k | 0 <= k < |refs| ensures Get(spec, refs[k].path) == Some(JStr(refs[k].ref)) {
          RefsSound(spec, [], refs[k]);
          assert refs[k].path[0..] == refs[k].path;
        }
      }
      assert forall k :: 0 <= k < |refs| ==>
        (|refs[k].path| > 0 && refs[k].path[|refs[k].path| - 1] == Key("$ref") && IsFileRef(refs[k].ref)) by {
        forall k | 0 <= k < |refs|
          ensures |refs[k].path| > 0 && refs[k].path[|refs[k].path| - 1] == Key("$ref") && IsFileRef(refs[k].ref)
        {
          RefsSound(spec, [], refs[k]);
        }
      }
      refs
    else refs
  }

  /** With distinct dict keys, the step of the `i`-th child leads back to it. */
  lemma ChildAtStep(j: Json, i: nat)
    requires UniqueKeys(j)
    requires i < NumChildren(j)
    ensures Child(j, StepAt(j, i)) == Some(ChildAt(j, i))
    ensures UniqueKeys(ChildAt(j, i))
  {
    match j
    case JObj(ms) =>
      var r := MemberIndex(ms, ms[i].0);
    case JArr(xs) =>
  }

  /** Every reported reference lies under `loc`, is the value of a `$ref` key,
      names a file, and is what its path reaches. */
  lemma {:induction false} RefsSound(j: Json, loc: Path, r: FileRef)
    requires UniqueKeys(j)
    requires r in Refs(j, loc)
    ensures IsPrefix(loc, r.path)
    ensures Get(j, r.path[|loc|..]) == Some(JStr(r.ref))
    ensures |r.path| > 0 && r.path[|r.path| - 1] == Key("$ref") && IsFileRef(r.ref)
    decreases j, 1
  {
    match j
    case JStr(s) =>
      assert r == FileRef(loc, s);
      assert r.path[|loc|..] == [];
    case JObj(_) => RefsFromSound(j, 0, loc, r);
    case JArr(_) => RefsFromSound(j, 0, loc, r);
  }

  lemma {:induction false} RefsFromSound(j: Json, i: nat, loc: Path, r: FileRef)
    requires UniqueKeys(j)
    requires r in RefsFrom(j, i, loc)
    ensures IsPrefix(loc, r.path) && |r.path| > |loc|
    ensures Get(j, r.path[|loc|..]) == Some(JStr(r.ref))
    ensures |r.path| > 0 && r.path[|r.path| - 1] == Key("$ref") && IsFileRef(r.ref)
    decreases j, 0, NumChildren(j) - i
  {
    var here := Refs(ChildAt(j, i), loc + [StepAt(j, i)]);
    if r in here {
      var loc' := loc + [StepAt(j, i)];
      ChildAtStep(j, i);
      RefsSound(ChildAt(j, i), loc', r);
      assert r.path[..|loc|] == loc' [..|loc|] == loc;
      var rest := r.path[|loc|..];
      assert rest[0] == StepAt(j, i);
      assert rest[1..] == r.path[|loc'|..];
    } else {
      RefsFromSound(j, i + 1, loc, r);
    }
  }

  lemma {:induction false} RefsFromContains(j: Json, i: nat, k: nat, loc: Path, r: FileRef)
    requires i <= k < NumChildren(j)
    requires r in Refs(ChildAt(j, k), loc + [StepAt(j, k)])
    ensures r in RefsFrom(j, i, loc)
    decreases k - i
  {
    if i < k {
      RefsFromContains(j, i + 1, k, loc, r);
    }
  }

  /** Every string reached by a path ending in a `$ref` key that names a file
      is reported. */
  lemma {:induction false} RefsComplete(j: Json, loc: Path, p: Path, s: string)
    requires Get(j, p) == Some(JStr(s))
    requires |loc + p| > 0 && (loc + p)[|loc + p| - 1] == Key("$ref") && IsFileRef(s)
    ensures FileRef(loc + p, s) in Refs(j, loc)
    decreases |p|
  {
    if |p| == 0 {
      assert loc + p == loc;
    } else {
      var c := Child(j, p[0]).value;
      var k: nat;
      match j {
        case JObj(ms) =>
          k := MemberIndex(ms, p[0].k).value;
        case JArr(xs) =>
          k := p[0].i;
      }
      assert StepAt(j, k) == p[0] && ChildAt(j, k) == c;
      var loc' := loc + [p[0]];
      assert loc' + p[1..] == loc + p;
      RefsComplete(c, loc', p[1..], s);
      RefsFromContains(j, 0, k, loc, FileRef(loc + p, s));
    }
  }

  /** `_find_file_refs` reports exactly the file references of a spec: a pair
      is reported iff its path reaches its string, ends in a `$ref` key, and
      the string names a file. */
  lemma FindFileRefsExact(spec: Json, p: Path, s: string)
    requires UniqueKeys(spec)
    ensures FileRef(p, s) in FindFileRefs(spec) <==>
      Get(spec, p) == Some(JStr(s)) && |p| > 0 && p[|p| - 1] == Key("$ref") && IsFileRef(s)
  {
    if FileRef(p, s) in FindFileRefs(spec) {
      FoundRefSound(spec, p, s);
    }
    if Get(spec, p) == Some(JStr(s)) && |p| > 0 && p[|p| - 1] == Key("$ref") && IsFileRef(s) {
      FileRefFound(spec, p, s);
    }
  }

  lemma FoundRefSound(spec: Json, p: Path, s: string)
    requires UniqueKeys(spec)
    requires FileRef(p, s) in FindFileRefs(spec)
    ensures Get(spec, p) == Some(JStr(s)) && |p| > 0 && p[|p| - 1] == Key("$ref") && IsFileRef(s)
  {
    RefsSound(spec, [], FileRef(p, s));
    assert p[0..] == p;
  }

  lemma FileRefFound(spec: Json, p: Path, s: string)
    requires Get(spec, p) == Some(JStr(s)) && |p| > 0 && p[|p| - 1] == Key("$ref") && IsFileRef(s)
    ensures FileRef(p, s) in FindFileRefs(spec)
  {
    assert [] + p == p;
    RefsComplete(spec, [], p, s);
  }

  /** Which child a step selects: the position of the first member with that
      key, or the list index. */
  function Position(j: Json, step: Step): (r: Option<nat>)
    ensures r.Some? ==> r.value < NumChildren(j)
  {
    match (j, step)
    case (JObj(ms), Key(k)) => MemberIndex(ms, k)
    case (JArr(xs), Idx(i)) => if i < |xs| then Some(i) else None
    case _ => None
  }

  /** The child positions a path walks through: its place in document order. */
  function Positions(j: Json, p: Path): (r: Option<seq<nat>>)
    ensures r.Some? ==> |r.value| == |p|
    decreases |p|
  {
    if |p| == 0 then Some([])
    else
      match Position(j, p[0])
      case None => None
      case Some(i) =>
        match Positions(ChildAt(j, i), p[1..])
        case None => None
        case Some(t) => Some([i] + t)
  }

  /** Strict lexicographic order on position sequences. */
  predicate SeqLess(a: seq<nat>, b: seq<nat>)
    decreases |a|
  {
    |a| > 0 && |b| > 0 && (a[0] < b[0] || (a[0] == b[0] && SeqLess(a[1..], b[1..])))
  }

  /** `a` comes before `b` in the document order of the tree `j` at `loc`. */
  predicate Before(j: Json, loc: Path, a: FileRef, b: FileRef) {
    && IsPrefix(loc, a.path) && IsPrefix(loc, b.path)
    && Positions(j, a.path[|loc|..]).Some? && Positions(j, b.path[|loc|..]).Some?
    && SeqLess(Positions(j, a.path[|loc|..]).value, Positions(j, b.path[|loc|..]).value)
  }

  predicate Ordered(j: Json, loc: Path, refs: seq<FileRef>) {
    forall x, y :: 0 <= x < y < |refs| ==> Before(j, loc, refs[x], refs[y])
  }

  /** Where a reference found under `loc` sits, relative to `j`. */
  predicate Placed(j: Json, loc: Path, r: FileRef) {
    IsPrefix(loc, r.path) && Positions(j, r.path[|loc|..]).Some?
  }

  lemma PositionsStep(j: Json, k: nat, rest: Path)
    requires UniqueKeys(j)
    requires k < NumChildren(j)
    ensures Positions(j, [StepAt(j, k)] + rest) ==
      (match Positions(ChildAt(j, k), rest)
       case None => None
       case Some(t) => Some([k] + t))
  {
    var p := [StepAt(j, k)] + rest;
    assert p[0] == StepAt(j, k) && p[1..] == rest;
    ChildAtStep(j, k);
  }

  /** A reference found under the `k`-th child, seen from `j`. */
  lemma Lift(j: Json, k: nat, loc: Path, r: FileRef)
    requires UniqueKeys(j)
    requires k < NumChildren(j)
    requires Placed(ChildAt(j, k), loc + [StepAt(j, k)], r)
    ensures Placed(j, loc, r)
    ensures Positions(j, r.path[|loc|..]).value ==
      [k] + Positions(ChildAt(j, k), r.path[|loc| + 1..]).value
  {
    var loc' := loc + [StepAt(j, k)];
    assert r.path[..|loc|] == loc'[..|loc|] == loc;
    assert r.path[|loc|..] == [StepAt(j, k)] + r.path[|loc'|..];
    PositionsStep(j, k, r.path[|loc'|..]);
  }

  /** `_find_file_refs` lists references in document order: dict members in
      key order, list items in index order, depth first. */
  lemma {:induction false} RefsOrdered(j: Json, loc: Path)
    requires UniqueKeys(j)
    ensures forall r :: r in Refs(j, loc) ==> Placed(j, loc, r)
    ensures Ordered(j, loc, Refs(j, loc))
    decreases j, 1
  {
    match j
    case JStr(s) =>
      forall r | r in Refs(j, loc) ensures Placed(j, loc, r) {
        assert r.path[|loc|..] == [];
      }
    case JObj(_) => RefsFromOrdered(j, 0, loc);
    case JArr(_) => RefsFromOrdered(j, 0, loc);
    case _ =>
  }

  lemma {:induction false} RefsFromOrdered(j: Json, i: nat, loc: Path)
    requires UniqueKeys(j)
    ensures forall r :: r in RefsFrom(j, i, loc) ==>
      Placed(j, loc, r) && |r.path| > |loc| && Positions(j, r.path[|loc|..]).value[0] >= i
    ensures Ordered(j, loc, RefsFrom(j, i, loc))
    decreases j, 0, NumChildren(j) - i
  {
    if i < NumChildren(j) {
      var c := ChildAt(j, i);
      var loc' := loc + [StepAt(j, i)];
      var head := Refs(c, loc');
      var tail := RefsFrom(j, i + 1, loc);
      ChildAtStep(j, i);
      RefsOrdered(c, loc');
      RefsFromOrdered(j, i + 1, loc);
      forall r | r in head
        ensures Placed(j, loc, r) && |r.path| > |loc| && Positions(j, r.path[|loc|..]).value[0] == i
      {
        Lift(j, i, loc, r);
      }
      LiftOrdered(j, i, loc, head);
      OrderedAppend(j, loc, i, head, tail);
    }
  }

  /** References in document order below the `i`-th child are in document
      order below `j`. */
  lemma LiftOrdered(j: Json, i: nat, loc: Path, head: seq<FileRef>)
    requires UniqueKeys(j) && i < NumChildren(j)
    requires forall r :: r in head ==> Placed(ChildAt(j, i), loc + [StepAt(j, i)], r)
    requires Ordered(ChildAt(j, i), loc + [StepAt(j, i)], head)
    ensures Ordered(j, loc, head)
  {
    var c := ChildAt(j, i);
    var loc' := loc + [StepAt(j, i)];
    forall x, y | 0 <= x < y < |head| ensures Before(j, loc, head[x], head[y]) {
      assert Before(c, loc', head[x], head[y]);
      Lift(j, i, loc, head[x]);
      Lift(j, i, loc, head[y]);
    }
  }

  /** References under child `i`, then references under later children,
      are in document order. */
  lemma OrderedAppend(j: Json, loc: Path, i: nat, head: seq<FileRef>, tail: seq<FileRef>)
    requires forall r :: r in head ==>
      Placed(j, loc, r) && |r.path| > |loc| && Positions(j, r.path[|loc|..]).value[0] == i
    requires forall r :: r in tail ==>
      Placed(j, loc, r) && |r.path| > |loc| && Positions(j, r.path[|loc|..]).value[0] >= i + 1
    requires Ordered(j, loc, head) && Ordered(j, loc, tail)
    ensures Ordered(j, loc, head + tail)
  {
    var all := head + tail;
    forall x, y | 0 <= x < y < |all| ensures Before(j, loc, all[x], all[y]) {
      if y < |head| {
        assert all[x] == head[x] && all[y] == head[y];
      } else if x < |head| {
        assert all[x] == head[x] && all[y] == tail[y - |head|];
      } else {
        assert all[x] == tail[x - |head|] && all[y] == tail[y - |head|];
      }
    }
  }

  /** `a`'s path comes before `b`'s in the document order of `spec`. */
  predicate InDocumentOrder(spec: Json, a: FileRef, b: FileRef) {
    && Positions(spec, a.path).Some? && Positions(spec, b.path).Some?
    && SeqLess(Positions(spec, a.path).value, Positions(spec, b.path).value)
  }

  /** The references of a whole spec come in document order. */
  lemma FindFileRefsOrdered(spec: Json)
    requires UniqueKeys(spec)
    ensures forall x, y :: 0 <= x < y < |FindFileRefs(spec)| ==>
      InDocumentOrder(spec, FindFileRefs(spec)[x], FindFileRefs(spec)[y])
  {
    RefsOrdered(spec, []);
    var refs := FindFileRefs(spec);
    forall x, y | 0 <= x < y < |refs| ensures InDocumentOrder(spec, refs[x], refs[y]) {
      assert Before(spec, [], refs[x], refs[y]);
      assert refs[x].path[0..] == refs[x].path && refs[y].path[0..] == refs[y].path;
    }
  }

  // ---------------------------------------------------------------------
  // `_update_obj`

  /** Why `_update_obj` raises: no keys at all (ValueError), or a step
      that leads nowhere. `Unreachable` records how many steps succeeded,
      the node reached, and the keys still to follow from it (the failing
      step first). */
  datatype UpdateError = NoKeys | Unreachable(depth: nat, at: Json, rest: Path)

  /** `_update_obj(obj, keys, sub)`: the node at `keys[..|keys|-1]` (the dict
      holding the final `$ref` key) becomes `sub`. A failure names the node
      where the walk stopped: it is reached by the steps before it, the next
      step leads nowhere from it, and at least one more key follows. */
  function UpdateObj(j: Json, keys: Path, sub: Json): (r: Result<Json, UpdateError>)
    ensures r.Ok? ==> |keys| > 0 && Get(r.value, keys[..|keys| - 1]) == Some(sub)
    ensures r.Err? && r.error.Unreachable? ==>
      && r.error.depth + |r.error.rest| == |keys| && |r.error.rest| >= 2
      && r.error.rest == keys[r.error.depth..]
      && Get(j, keys[..r.error.depth]) == Some(r.error.at)
      && Child(r.error.at, r.error.rest[0]).None?
    decreases |keys|
  {
    if |keys| == 0 then Err(NoKeys)
    else if |keys| == 1 then assert keys[..0] == []; Ok(sub)
    else
      match Child(j, keys[0])
      case None => assert keys[..0] == [] && keys[0..] == keys; Err(Unreachable(0, j, keys))
      case Some(c) =>
        match UpdateObj(c, keys[1..], sub)
        case Err(e) =>
          if e.NoKeys? then Err(e)
          else
            var d := e.depth + 1;
            assert keys[d..] == keys[1..][e.depth..];
            assert keys[..d] == [keys[0]] + keys[1..][..e.depth];
            GetStep(j, keys[0], keys[1..][..e.depth]);
            Err(Unreachable(d, e.at, e.rest))
        case Ok(c') =>
          var t := keys[..|keys| - 1];
          assert t[0] == keys[0] && t[1..] == keys[1..][..|keys[1..]| - 1];
          Ok(SetChild(j, keys[0], c'))
  }

  /** Following one step and then a path is following the longer path. */
  lemma GetStep(j: Json, step: Step, p: Path)
    ensures Get(j, [step] + p) == (match Child(j, step) case None => None case Some(c) => Get(c, p))
  {
    assert ([step] + p)[0] == step && ([step] + p)[1..] == p;
  }

  /** The path `_update_obj` replaces: all but the last key. */
  function Target(keys: Path): Path
    requires |keys| > 0
  {
    keys[..|keys| - 1]
  }

  /** `_update_obj` succeeds iff there are keys and the node to replace exists. */
  lemma {:induction false} UpdateObjSucceeds(j: Json, keys: Path, sub: Json)
    ensures UpdateObj(j, keys, sub).Ok? <==> |keys| > 0 && Get(j, Target(keys)).Some?
    ensures |keys| == 0 ==> UpdateObj(j, keys, sub) == Err(NoKeys)
    decreases |keys|
  {
    if |keys| > 1 {
      assert Target(keys)[0] == keys[0];
      assert Target(keys)[1..] == Target(keys[1..]);
      match Child(j, keys[0]) {
        case None =>
        case Some(c) => UpdateObjSucceeds(c, keys[1..], sub);
      }
    }
  }

  /** After `_update_obj`, the replaced node is `sub`: every path below the
      target reaches what the same path reaches inside `sub`. */
  lemma {:induction false} UpdateObjPlaces(j: Json, keys: Path, sub: Json, t: Path)
    requires UpdateObj(j, keys, sub).Ok?
    ensures Get(UpdateObj(j, keys, sub).value, Target(keys) + t) == Get(sub, t)
    decreases |keys|
  {
    if |keys| == 1 {
      assert Target(keys) + t == t;
    } else {
      var c := Child(j, keys[0]).value;
      var c' := UpdateObj(c, keys[1..], sub).value;
      UpdateObjPlaces(c, keys[1..], sub, t);
      var p := Target(keys) + t;
      assert p[0] == keys[0];
      assert p[1..] == Target(keys[1..]) + t;
    }
  }

  /** `p` and `q` lie on different branches: neither is a prefix of the other. */
  predicate Apart(p: Path, q: Path) {
    !IsPrefix(p, q) && !IsPrefix(q, p)
  }

  lemma PrefixCons(a: Step, p: Path, q: Path)
    ensures IsPrefix(p, q) ==> IsPrefix([a] + p, [a] + q)
    ensures |p| <= |q| ==> ([a] + q)[..|p| + 1] == [a] + q[..|p|]
  {
  }

  /** Two paths apart after the same first step stay apart after it. */
  lemma ApartTails(p: Path, q: Path)
    requires |p| > 0 && |q| > 0 && p[0] == q[0]
    requires Apart(p, q)
    ensures Apart(p[1..], q[1..])
  {
    PrefixCons(p[0], p[1..], q[1..]);
    PrefixCons(q[0], q[1..], p[1..]);
    assert [p[0]] + p[1..] == p;
    assert [q[0]] + q[1..] == q;
  }

  /** `_update_obj` changes nothing off the path to the replaced node. */
  lemma {:induction false} UpdateObjFrame(j: Json, keys: Path, sub: Json, q: Path)
    requires UpdateObj(j, keys, sub).Ok?
    requires Apart(Target(keys), q)
    ensures Get(UpdateObj(j, keys, sub).value, q) == Get(j, q)
    decreases |keys|
  {
    var P := Target(keys);
    assert IsPrefix([], q);
    assert |keys| > 1;
    var c := Child(j, keys[0]).value;
    var c' := UpdateObj(c, keys[1..], sub).value;
    var r := SetChild(j, keys[0], c');
    assert q != [];
    if q[0] == keys[0] {
      assert P[0] == keys[0];
      var P' := Target(keys[1..]);
      assert P' == keys[1..|keys| - 1] == P[1..];
      ApartTails(P, q);
      UpdateObjFrame(c, keys[1..], sub, q[1..]);
    } else {
      SetChildOther(j, keys[0], c', q[0]);
    }
  }

  /** A path of two or more keys keeps the top-level keys of a dict. */
  lemma UpdateObjKeepsTopKeys(j: Json, keys: Path, sub: Json, k: string)
    requires j.JObj? && |keys| >= 2
    requires UpdateObj(j, keys, sub).Ok?
    ensures UpdateObj(j, keys, sub).value.JObj?
    ensures MemberIndex(UpdateObj(j, keys, sub).value.members, k) == MemberIndex(j.members, k)
  {
    var c := Child(j, keys[0]).value;
    var c' := UpdateObj(c, keys[1..], sub).value;
    var i := MemberIndex(j.members, keys[0].k).value;
    MemberIndexSameKeys(j.members, j.members[i := (keys[0].k, c')], k);
  }

  // ---------------------------------------------------------------------
  // `resolve`

  /** Why `resolve` fails. */
  datatype SpecError =
    | NoSuchFile(file: string)                 // missing or a directory
    | InvalidYaml(file: string)                // the YAML loader raised
    | NotAMapping(root: Json)                  // the root document is not a dict
    | Unresolvable(target: string, at: Path)   // a `$ref` names no readable file
    | UpdateFailed(error: UpdateError)         // `_update_obj` raised

  /** The Python exception classes a failed resolution surfaces as. */
  datatype PyException = ClickException | ValueError | YamlError | AttributeError | TypeError | LookupError

  /** `resolve` wraps file and YAML problems in ClickException; `_update_obj`
      failures and a non-dict root escape as Python's own errors. Of the
      latter, `spec.pop("x-nhsd-apim", None)` on a list passes `list.pop` one
      argument too many (TypeError); a string, number, boolean or empty
      document has no `pop` at all (AttributeError). */
  function Raised(e: SpecError): PyException {
    match e
    case NoSuchFile(_) => ClickException
    case InvalidYaml(_) => ClickException
    case Unresolvable(_, _) => ClickException
    case NotAMapping(root) => if root.JArr? then TypeError else AttributeError
    case UpdateFailed(NoKeys) => ValueError
    case UpdateFailed(Unreachable(_, at, rest)) => if |rest| >= 2 then StepRaises(at, rest) else LookupError
  }

  /** The class of the exception `_update_obj` raises when the step
      `rest[0]` leads nowhere from `at`. A dict lookup of a missing key
      raises KeyError and a list index past the end IndexError (both
      LookupError). A list or string indexed by a key, or None, a boolean or
      a number subscripted at all, raises TypeError. A string indexed in
      range yields a one-character string and the walk goes on from there,
      ending in IndexError further down or in TypeError when `_update_obj`
      assigns into the string. */
  function StepRaises(at: Json, rest: Path): (r: PyException)
    requires |rest| >= 2
    ensures r == LookupError || r == TypeError
    ensures at.JObj? ==> r == LookupError
    ensures at.JArr? ==> (r == LookupError <==> rest[0].Idx?)
    ensures at.JNull? || at.JBool? || at.JNum? || (rest[0].Key? && !at.JObj?) ==> r == TypeError
    decreases |rest|
  {
    match (at, rest[0])
    case (JObj(_), _) => LookupError
    case (JArr(_), Idx(_)) => LookupError
    case (JStr(s), Idx(i)) =>
      if i >= |s| then LookupError
      else if |rest| == 2 then TypeError
      else StepRaises(JStr([s[i]]), rest[1..])
    case _ => TypeError
  }

  /** A key missing from a dict on the way raises KeyError. */
  lemma MissingKeyRaisesLookupError(ms: seq<(string, Json)>, k: string, rest: Path, sub: Json)
    requires MemberIndex(ms, k).None? && |rest| > 0
    ensures UpdateObj(JObj(ms), [Key(k)] + rest, sub).Err?
    ensures Raised(UpdateFailed(UpdateObj(JObj(ms), [Key(k)] + rest, sub).error)) == LookupError
  {
    assert ([Key(k)] + rest)[0] == Key(k);
  }

  /** A list index past the end raises IndexError. */
  lemma IndexPastEndRaisesLookupError(xs: seq<Json>, i: nat, rest: Path, sub: Json)
    requires i >= |xs| && |rest| > 0
    ensures UpdateObj(JArr(xs), [Idx(i)] + rest, sub).Err?
    ensures Raised(UpdateFailed(UpdateObj(JArr(xs), [Idx(i)] + rest, sub).error)) == LookupError
  {
    assert ([Idx(i)] + rest)[0] == Idx(i);
  }

  /** A list indexed by a key raises TypeError. */
  lemma ListByKeyRaisesTypeError(xs: seq<Json>, k: string, rest: Path, sub: Json)
    requires |rest| > 0
    ensures UpdateObj(JArr(xs), [Key(k)] + rest, sub).Err?
    ensures Raised(UpdateFailed(UpdateObj(JArr(xs), [Key(k)] + rest, sub).error)) == TypeError
  {
    assert ([Key(k)] + rest)[0] == Key(k);
  }

  /** Subscripting None, a boolean or a number raises TypeError. */
  lemma ScalarRaisesTypeError(j: Json, keys: Path, sub: Json)
    requires |keys| >= 2 && (j.JNull? || j.JBool? || j.JNum?)
    ensures UpdateObj(j, keys, sub).Err?
    ensures Raised(UpdateFailed(UpdateObj(j, keys, sub).error)) == TypeError
  {
  }

  /** A path whose parent step indexes into a string ends by assigning into
      the string, which raises TypeError. */
  lemma StringAssignmentRaisesTypeError(s: string, i: nat, last: Step, sub: Json)
    requires i < |s|
    ensures UpdateObj(JStr(s), [Idx(i), last], sub).Err?
    ensures Raised(UpdateFailed(UpdateObj(JStr(s), [Idx(i), last], sub).error)) == TypeError
  {
  }

  /** Indexing a string in range and then past the end of the one-character
      string it yields raises IndexError. */
  lemma StringThenIndexRaisesLookupError(s: string, i: nat, last: Step, sub: Json)
    requires i < |s|
    ensures UpdateObj(JStr(s), [Idx(i), Idx(1), last], sub).Err?
    ensures Raised(UpdateFailed(UpdateObj(JStr(s), [Idx(i), Idx(1), last], sub).error)) == LookupError
  {
    assert [Idx(i), Idx(1), last][1..] == [Idx(1), last];
    assert StepRaises(JStr([s[i]]), [Idx(1), last]) == LookupError;
  }

  /** Files hold their parsed YAML document, or None when it does not parse. */
  type Docs = Fs<Option<Json>>

  /** Reading and parsing one YAML file. */
  function Load(fs: Docs, file: string): (r: Result<Json, SpecError>)
    ensures r.Ok? <==> fs.IsFile(file) && fs.files[file].Some?
  {
    if !fs.Exists(file) || fs.IsDir(file) then Err(NoSuchFile(file))
    else if fs.files[file].None? then Err(InvalidYaml(file))
    else Ok(fs.files[file].value)
  }

  /** The loop of `resolve`: substitute each reference in the order found,
      loading its target relative to `dir`. */
  function Substitute(spec: Json, refs: seq<FileRef>, dir: string, fs: Docs): (r: Result<Json, SpecError>)
    ensures r.Err? ==> !r.error.NotAMapping? && !r.error.NoSuchFile?
    ensures r.Ok? ==> forall i :: 0 <= i < |refs| ==>
      fs.IsFile(JoinPath(dir, refs[i].ref)) && fs.files[JoinPath(dir, refs[i].ref)].Some?
    ensures r.Err? && r.error.Unresolvable? ==>
      (exists i :: 0 <= i < |refs| && r.error == Unresolvable(JoinPath(dir, refs[i].ref), refs[i].path)
                                   && !fs.IsFile(JoinPath(dir, refs[i].ref)))
    decreases |refs|
  {
    if |refs| == 0 then Ok(spec)
    else
      var target := JoinPath(dir, refs[0].ref);
      if !fs.Exists(target) || fs.IsDir(target) then Err(Unresolvable(target, refs[0].path))
      else if fs.files[target].None? then Err(InvalidYaml(target))
      else
        match UpdateObj(spec, refs[0].path, fs.files[target].value)
        case Err(e) => Err(UpdateFailed(e))
        case Ok(spec') =>
          var r := Substitute(spec', refs[1..], dir, fs);
          assert r.Err? && r.error.Unresolvable? ==>
            (exists i :: 1 <= i < |refs| && r.error == Unresolvable(JoinPath(dir, refs[i].ref), refs[i].path)
                                         && !fs.IsFile(JoinPath(dir, refs[i].ref))) by {
            if r.Err? && r.error.Unresolvable? {
              var i :| 0 <= i < |refs[1..]| && r.error == Unresolvable(JoinPath(dir, refs[1..][i].ref), refs[1..][i].path)
                && !fs.IsFile(JoinPath(dir, refs[1..][i].ref));
              assert refs[1..][i] == refs[i + 1];
            }
          }
          r
  }

  /** The key `resolve` drops: deployment data is not part of the spec. */
  const DeploymentKey := "x-nhsd-apim"

  /** `root_file.parent.absolute()`: the directory references are looked up
      in, absolute once the working directory is. */
  function SpecDir(cwd: string, fileName: string): (d: string)
    ensures IsAbsolute(cwd) ==> IsAbsolute(d)
    ensures IsNormal(d)
    ensures !IsAbsolute(fileName) ==> Parts(d) == Parts(cwd) + Parts(Parent(fileName))
    ensures IsAbsolute(fileName) ==> d == Parent(fileName)
  {
    Absolute(cwd, Parent(fileName))
  }

  /** `resolve(file_name)`: load the root file, drop the deployment data, then
      replace every file reference by the document it names, looked up
      relative to the absolute directory of the root file. */
  function Resolve(fs: Docs, cwd: string, fileName: string): (r: Result<Json, SpecError>)
    ensures !fs.IsFile(fileName) ==> r == Err(NoSuchFile(fileName))
    ensures fs.IsFile(fileName) && fs.files[fileName].None? ==> r == Err(InvalidYaml(fileName))
    ensures fs.IsFile(fileName) && fs.files[fileName].Some? && !fs.files[fileName].value.JObj? ==>
      r == Err(NotAMapping(fs.files[fileName].value))
    ensures r.Ok? ==> fs.IsFile(fileName) && fs.files[fileName].Some? && fs.files[fileName].value.JObj?
    ensures r.Ok? ==> var refs := FindFileRefs(Prepare(fs, fileName).value);
      forall i :: 0 <= i < |refs| ==>
        fs.IsFile(JoinPath(SpecDir(cwd, fileName), refs[i].ref)) && fs.files[JoinPath(SpecDir(cwd, fileName), refs[i].ref)].Some?
    ensures r.Err? && r.error.Unresolvable? ==> var refs := FindFileRefs(Prepare(fs, fileName).value);
      exists i :: 0 <= i < |refs| && r.error == Unresolvable(JoinPath(SpecDir(cwd, fileName), refs[i].ref), refs[i].path)
                               && !fs.IsFile(JoinPath(SpecDir(cwd, fileName), refs[i].ref))
  {
    match Prepare(fs, fileName)
    case Err(e) => Err(e)
    case Ok(spec) => Substitute(spec, FindFileRefs(spec), SpecDir(cwd, fileName), fs)
  }

  /** A root file named without a directory has its references looked up in
      the working directory, and a leading `./` on a reference changes
      nothing. */
  lemma BareRootLooksInWorkingDirectory(cwd: string, fileName: string, ref: string)
    requires IsPart(fileName) && IsNormal(cwd)
    ensures SpecDir(cwd, fileName) == cwd
    ensures !IsAbsolute(ref) ==> JoinPath(SpecDir(cwd, fileName), "./" + ref) == JoinPath(cwd, ref)
  {
    BareNameDirectory(cwd, fileName);
    JoinDot(cwd, ref);
  }

  /** When the nodes the references name exist, lie on separate branches and
      every target file parses, `resolve` succeeds and each node holds the
      document found at its reference, relative to the root file's
      directory. */
  lemma ResolveLands(fs: Docs, cwd: string, fileName: string)
    requires Prepare(fs, fileName).Ok?
    requires var spec := Prepare(fs, fileName).value; var refs := FindFileRefs(spec);
      && (forall i :: 0 <= i < |refs| ==> |refs[i].path| > 0 && Get(spec, Target(refs[i].path)).Some?)
      && (forall i, k :: 0 <= i < k < |refs| ==> Apart(Target(refs[i].path), Target(refs[k].path)))
      && (forall i :: 0 <= i < |refs| ==>
            fs.IsFile(JoinPath(SpecDir(cwd, fileName), refs[i].ref)) && fs.files[JoinPath(SpecDir(cwd, fileName), refs[i].ref)].Some?)
    ensures Resolve(fs, cwd, fileName).Ok?
    ensures var refs := FindFileRefs(Prepare(fs, fileName).value);
      forall i :: 0 <= i < |refs| ==>
        Get(Resolve(fs, cwd, fileName).value, Target(refs[i].path)) == fs.files[JoinPath(SpecDir(cwd, fileName), refs[i].ref)]
  {
    var spec := Prepare(fs, fileName).value;
    SubstituteLands(spec, FindFileRefs(spec), SpecDir(cwd, fileName), fs);
  }

  /** The root document of `resolve` with its deployment data popped. */
  function Prepare(fs: Docs, fileName: string): (r: Result<Json, SpecError>)
    ensures r.Ok? <==> fs.IsFile(fileName) && fs.files[fileName].Some? && fs.files[fileName].value.JObj?
    ensures r.Ok? ==> r.value.JObj? && MemberIndex(r.value.members, DeploymentKey).None?
    ensures r.Ok? ==> forall k :: k != DeploymentKey ==>
      (MemberIndex(r.value.members, k).Some? <==> MemberIndex(fs.files[fileName].value.members, k).Some?)
  {
    match Load(fs, fileName)
    case Err(e) => Err(e)
    case Ok(doc) =>
      if !doc.JObj? then Err(NotAMapping(doc))
      else Ok(JObj(Without(doc.members, DeploymentKey)))
  }

  /** A missing or directory root file, and a `$ref` naming no readable file,
      both end `resolve` with a ClickException. */
  lemma MissingFilesRaiseClickException(fs: Docs, cwd: string, fileName: string)
    ensures !fs.IsFile(fileName) ==> Raised(Resolve(fs, cwd, fileName).error) == ClickException
    ensures Resolve(fs, cwd, fileName).Err? && Resolve(fs, cwd, fileName).error.Unresolvable? ==>
      Raised(Resolve(fs, cwd, fileName).error) == ClickException
  {
  }

  /** A root document that is not a dict fails at `spec.pop`: a list with
      TypeError, anything else with AttributeError. */
  lemma NonMappingRootRaises(fs: Docs, cwd: string, fileName: string)
    requires fs.IsFile(fileName) && fs.files[fileName].Some? && !fs.files[fileName].value.JObj?
    ensures fs.files[fileName].value.JArr? ==> Raised(Resolve(fs, cwd, fileName).error) == TypeError
    ensures !fs.files[fileName].value.JArr? ==> Raised(Resolve(fs, cwd, fileName).error) == AttributeError
  {
  }

  /** Substitutions leave every path apart from all their targets as it was. */
  lemma {:induction false} SubstituteFrame(spec: Json, refs: seq<FileRef>, dir: string, fs: Docs, q: Path)
    requires Substitute(spec, refs, dir, fs).Ok?
    requires forall i :: 0 <= i < |refs| ==> |refs[i].path| > 0 && Apart(Target(refs[i].path), q)
    ensures Get(Substitute(spec, refs, dir, fs).value, q) == Get(spec, q)
    decreases |refs|
  {
    if |refs| > 0 {
      var sub := fs.files[JoinPath(dir, refs[0].ref)].value;
      var spec' := UpdateObj(spec, refs[0].path, sub).value;
      UpdateObjFrame(spec, refs[0].path, sub, q);
      SubstituteFrame(spec', refs[1..], dir, fs, q);
    }
  }

  /** When the nodes to replace exist, lie on separate branches and every
      target file parses, `resolve`'s loop succeeds and each node is replaced
      by the document its reference names. */
  lemma {:induction false} SubstituteLands(spec: Json, refs: seq<FileRef>, dir: string, fs: Docs)
    requires forall i :: 0 <= i < |refs| ==> |refs[i].path| > 0 && Get(spec, Target(refs[i].path)).Some?
    requires forall i, k :: 0 <= i < k < |refs| ==> Apart(Target(refs[i].path), Target(refs[k].path))
    requires forall i :: 0 <= i < |refs| ==>
      fs.IsFile(JoinPath(dir, refs[i].ref)) && fs.files[JoinPath(dir, refs[i].ref)].Some?
    ensures Substitute(spec, refs, dir, fs).Ok?
    ensures forall i :: 0 <= i < |refs| ==>
      Get(Substitute(spec, refs, dir, fs).value, Target(refs[i].path)) == fs.files[JoinPath(dir, refs[i].ref)]
    decreases |refs|
  {
    if |refs| > 0 {
      var sub := fs.files[JoinPath(dir, refs[0].ref)].value;
      UpdateObjSucceeds(spec, refs[0].path, sub);
      var spec' := UpdateObj(spec, refs[0].path, sub).value;
      var rest := refs[1..];
      LaterTargetsSurvive(spec, refs, sub);
      SubstituteLands(spec', rest, dir, fs);
      FirstLands(spec, refs, dir, fs);
      forall i | 1 <= i < |refs|
        ensures Get(Substitute(spec, refs, dir, fs).value, Target(refs[i].path)) == fs.files[JoinPath(dir, refs[i].ref)]
      {
        assert refs[i] == rest[i - 1];
      }
    }
  }

  /** Replacing the first target leaves the later ones where they were. */
  lemma LaterTargetsSurvive(spec: Json, refs: seq<FileRef>, sub: Json)
    requires |refs| > 0 && UpdateObj(spec, refs[0].path, sub).Ok?
    requires forall i :: 0 <= i < |refs| ==> |refs[i].path| > 0
    requires forall k :: 1 <= k < |refs| ==> Apart(Target(refs[0].path), Target(refs[k].path))
    ensures forall i :: 0 <= i < |refs| - 1 ==>
      Get(UpdateObj(spec, refs[0].path, sub).value, Target(refs[1..][i].path)) == Get(spec, Target(refs[1..][i].path))
  {
    var rest := refs[1..];
    forall i | 0 <= i < |rest|
      ensures Get(UpdateObj(spec, refs[0].path, sub).value, Target(rest[i].path)) == Get(spec, Target(rest[i].path))
    {
      assert rest[i] == refs[i + 1];
      UpdateObjFrame(spec, refs[0].path, sub, Target(rest[i].path));
    }
  }

  /** The first reference's node is replaced by its document, and the later
      substitutions, all apart from it, leave it so. */
  lemma FirstLands(spec: Json, refs: seq<FileRef>, dir: string, fs: Docs)
    requires |refs| > 0 && Substitute(spec, refs, dir, fs).Ok?
    requires forall i :: 0 <= i < |refs| ==> |refs[i].path| > 0
    requires forall k :: 1 <= k < |refs| ==> Apart(Target(refs[0].path), Target(refs[k].path))
    ensures Get(Substitute(spec, refs, dir, fs).value, Target(refs[0].path)) == fs.files[JoinPath(dir, refs[0].ref)]
  {
    var sub := fs.files[JoinPath(dir, refs[0].ref)].value;
    var spec' := UpdateObj(spec, refs[0].path, sub).value;
    var rest := refs[1..];
    UpdateObjPlaces(spec, refs[0].path, sub, []);
    assert Target(refs[0].path) + [] == Target(refs[0].path);
    forall k | 0 <= k < |rest|
      ensures |rest[k].path| > 0 && Apart(Target(rest[k].path), Target(refs[0].path))
    {
      assert rest[k] == refs[k + 1];
    }
    SubstituteFrame(spec', rest, dir, fs, Target(refs[0].path));
  }

  /** Substitutions at depth two or more keep the top-level keys of the spec. */
  lemma {:induction false} SubstituteKeepsTopKeys(spec: Json, refs: seq<FileRef>, dir: string, fs: Docs, k: string)
    requires spec.JObj?
    requires forall i :: 0 <= i < |refs| ==> |refs[i].path| >= 2
    requires Substitute(spec, refs, dir, fs).Ok?
    ensures Substitute(spec, refs, dir, fs).value.JObj?
    ensures MemberIndex(Substitute(spec, refs, dir, fs).value.members, k) == MemberIndex(spec.members, k)
    decreases |refs|
  {
    if |refs| > 0 {
      var sub := fs.files[JoinPath(dir, refs[0].ref)].value;
      UpdateObjKeepsTopKeys(spec, refs[0].path, sub, k);
      var spec' := UpdateObj(spec, refs[0].path, sub).value;
      SubstituteKeepsTopKeys(spec', refs[1..], dir, fs, k);
    }
  }

  /** Unless a reference sits directly at the top of the spec (and so replaces
      all of it), the resolved spec carries no deployment data. */
  lemma ResolveDropsDeploymentData(fs: Docs, cwd: string, fileName: string)
    requires Resolve(fs, cwd, fileName).Ok?
    requires forall r :: r in FindFileRefs(Prepare(fs, fileName).value) ==> |r.path| >= 2
    ensures Resolve(fs, cwd, fileName).value.JObj?
    ensures MemberIndex(Resolve(fs, cwd, fileName).value.members, DeploymentKey).None?
  {
    var spec := Prepare(fs, fileName).value;
    var refs := FindFileRefs(spec);
    SubstituteKeepsTopKeys(spec, refs, SpecDir(cwd, fileName), fs, DeploymentKey);
  }
}

=== FILE: strings.dfy ===
/** String helpers shared by the model: prefixes, substrings, splitting and
    joining on a separator, code-point ordering and decimal numerals. */
module Strings {
  import opened Wrappers

  /** `s.startswith(p)` */
  predicate StartsWith(s: string, p: string) {
    |p| <= |s| && s[..|p|] == p
  }

  /** `p in s` for strings: `p` occurs as a contiguous substring of `s`. */
  predicate Contains(s: string, p: string)
    decreases |s|
  {
    StartsWith(s, p) || (|s| > 0 && Contains(s[1..], p))
  }

  /** Index of the first occurrence of `c` in `s`, if any. */
  function IndexOf(s: string, c: char): (r: Option<nat>)
    ensures r.Some? ==> r.value < |s| && s[r.value] == c && c !in s[..r.value]
    ensures r.None? ==> c !in s
  {
    if |s| == 0 then None
    else if s[0] == c then Some(0)
    else
      match IndexOf(s[1..], c)
      case None => None
      case Some(i) => assert s[1..][..i] == s[1..i + 1]; Some(i + 1)
  }

  /** `s.split(d)` for a one-character separator: never empty, and the pieces
      hold no separator. */
  function Split(s: string, d: char): (parts: seq<string>)
    ensures |parts| >= 1
    ensures forall i :: 0 <= i < |parts| ==> d !in parts[i]
    decreases |s|
  {
    match IndexOf(s, d)
    case None => [s]
    case Some(i) => [s[..i]] + Split(s[i + 1..], d)
  }

  /** `d.join(parts)` for a one-character separator. */
  function Join(parts: seq<string>, d: char): string
  {
    if |parts| == 0 then ""
    else if |parts| == 1 then parts[0]
    else parts[0] + [d] + Join(parts[1..], d)
  }

  lemma IndexOfAfterPrefix(p: string, d: char, rest: string)
    requires d !in p
    ensures IndexOf(p + [d] + rest, d) == Some(|p|)
  {
    if |p| > 0 {
      assert (p + [d] + rest)[1..] == p[1..] + [d] + rest;
      IndexOfAfterPrefix(p[1..], d, rest);
    }
  }

  /** Splitting at a separator after a piece without one. */
  lemma SplitAfter(a: string, d: char, rest: string)
    requires d !in a
    ensures Split(a + [d] + rest, d) == [a] + Split(rest, d)
  {
    IndexOfAfterPrefix(a, d, rest);
    assert (a + [d] + rest)[..|a|] == a;
    assert (a + [d] + rest)[|a| + 1..] == rest;
  }

  /** Splitting undoes joining whenever no piece holds the separator. */
  lemma {:induction false} SplitJoin(parts: seq<string>, d: char)
    requires |parts| >= 1
    requires forall i :: 0 <= i < |parts| ==> d !in parts[i]
    ensures Split(Join(parts, d), d) == parts
    decreases |parts|
  {
    if |parts| == 1 {
      assert IndexOf(parts[0], d) == None;
    } else {
      var s := parts[0] + [d] + Join(parts[1..], d);
      IndexOfAfterPrefix(parts[0], d, Join(parts[1..], d));
      assert s[..|parts[0]|] == parts[0];
      assert s[|parts[0]| + 1..] == Join(parts[1..], d);
      SplitJoin(parts[1..], d);
      assert [parts[0]] + parts[1..] == parts;
    }
  }

  /** Joining undoes splitting. */
  lemma {:induction false} JoinSplit(s: string, d: char)
    ensures Join(Split(s, d), d) == s
    decreases |s|
  {
    match IndexOf(s, d)
    case None =>
    case Some(i) =>
      var parts := Split(s, d);
      assert parts == [s[..i]] + Split(s[i + 1..], d);
      assert parts[1..] == Split(s[i + 1..], d);
      JoinSplit(s[i + 1..], d);
      calc {
        Join(parts, d);
        parts[0] + [d] + Join(parts[1..], d);
        s[..i] + [d] + s[i + 1..];
        s;
      }
  }

  /** Python's `<` on `str`: lexicographic comparison of code points. */
  predicate Less(a: string, b: string)
    decreases |a|
  {
    if |a| == 0 then |b| > 0
    else if |b| == 0 then false
    else if a[0] != b[0] then a[0] < b[0]
    else Less(a[1..], b[1..])
  }

  /** `a <= b` on strings. */
  predicate LessEq(a: string, b: string) {
    !Less(b, a)
  }

  lemma {:induction false} LessIrreflexive(a: string)
    ensures !Less(a, a)
    decreases |a|
  {
    if |a| > 0 { LessIrreflexive(a[1..]); }
  }

  lemma {:induction false} LessTotal(a: string, b: string)
    ensures a == b || Less(a, b) || Less(b, a)
    decreases |a|
  {
    if |a| > 0 && |b| > 0 && a[0] == b[0] {
      LessTotal(a[1..], b[1..]);
      if a[1..] == b[1..] {
        assert a == [a[0]] + a[1..] && b == [b[0]] + b[1..];
      }
    }
  }

  lemma {:induction false} LessTransitive(a: string, b: string, c: string)
    requires Less(a, b) && Less(b, c)
    ensures Less(a, c)
    decreases |a|
  {
    if |a| > 0 && a[0] == b[0] && b[0] == c[0] {
      LessTransitive(a[1..], b[1..], c[1..]);
    }
  }

  /** `<=` on strings is a total preorder: the order `sorted` arranges rows in. */
  lemma LessEqTotal(a: string, b: string)
    ensures LessEq(a, b) || LessEq(b, a)
  {
    if Less(b, a) && Less(a, b) {
      LessTransitive(a, b, a);
      LessIrreflexive(a);
    }
  }

  lemma LessEqTransitive(a: string, b: string, c: string)
    requires LessEq(a, b) && LessEq(b, c)
    ensures LessEq(a, c)
  {
    if Less(c, a) {
      LessTotal(a, b);
      if a == b {
      } else if Less(a, b) {
        LessTransitive(c, a, b);
      } else {
        LessTransitive(c, a, b);
      }
    }
  }

  predicate IsDigit(c: char) {
    '0' <= c <= '9'
  }

  predicate AllDigits(s: string) {
    forall i :: 0 <= i < |s| ==> IsDigit(s[i])
  }

  /** The value of a non-empty decimal numeral (most significant digit first). */
  function DigitsValue(s: string): nat
    requires AllDigits(s)
  {
    if |s| == 0 then 0
    else 10 * DigitsValue(s[..|s| - 1]) + (s[|s| - 1] as int - '0' as int)
  }

  /** The shortest decimal numeral of `n`, as Python's `str(n)` writes it. */
  function Decimal(n: nat): (s: string)
    ensures |s| >= 1 && AllDigits(s)
    ensures |s| > 1 ==> s[0] != '0'
  {
    var d := [('0' as int + n % 10) as char];
    if n < 10 then d else Decimal(n / 10) + d
  }

  /** Reading a numeral back gives the number it was written from. */
  lemma {:induction false} DecimalValue(n: nat)
    ensures DigitsValue(Decimal(n)) == n
  {
    var s := Decimal(n);
    if n >= 10 {
      DecimalValue(n / 10);
      assert s[..|s| - 1] == Decimal(n / 10);
    }
  }
}

=== FILE: wrappers.dfy ===
/** Failure-carrying values used wherever the Python code raises or returns None. */
module Wrappers {

  /** A value that may be missing: Python's `None` versus a present value. */
  datatype Option<+T> = None | Some(value: T) {

    /** The carried value, or `default` when there is none. */
    function GetOr(default: T): T {
      match this
      case Some(v) => v
      case None => default
    }
  }

  /** The outcome of an operation that may raise: a value or the error raised. */
  datatype Result<+R, +E> = Ok(value: R) | Err(error: E) {

    predicate IsFailure() {
      Err?
    }

    function PropagateFailure<U>(): Result<U, E>
      requires Err?
    {
      Err(error)
    }

    function Extract(): R
      requires Ok?
    {
      value
    }
  }
}
